=== FILE: README.md ===
# Dynamic report builder — a Dafny model

The system is a web application for ambulance-dispatch records. Users design
printable reports on a page editor: they place text blocks and tables on a
canvas, drag them around and style them. A table's content is a query. The
user composes it in a client-side query builder that walks a static
relational schema (`esquema_bd`). The builder sends a JSON payload to the
server. There a `ConstrutorConsulta` validates every `"__"`-separated field
path against the same schema and compiles the request into filters,
grouping, metrics, ordering and a capped limit, then formats the rows.

This project models the core of that pipeline and proves properties of it:

- `texto.dfy`, `wrappers.dfy`, `dicionario.dfy`, `lotes.dfy` hold shared
  definitions:
  - Python's `split("__")`, `"__".join`, `replace` and ASCII `lower()`;
  - dictionaries in insertion order;
  - loops that stop at the first raised error.
- `esquema.dfy` (`setup/esquema.py`) holds the schema literal as a constant
  and the proof that it obeys the rules the resolver needs.
- `resolvedor.dfy` (`relatorio_dinamico/construtores.py`, `_buscar_na_lista`
  and `_resolver_caminho`) holds the path walk and its error cases.
- `consulta.dfy` holds `ConstrutorConsulta` of
  `relatorio_dinamico/construtores.py` and its older variant in
  `relatorio_dinamico/utils.py`. Both are classes whose methods update their
  maps in place. The ORM is replaced by plain data: a `Q` is a lookup pair,
  and a queryset is a record of its parts.
- `construtor_cliente.dfy` (`static/js/construtor-consulta.js`) holds
  `estadoGlobal` as a class with sequence fields, its operations, and the
  payload of `renderizarJson`.
- `cruzado.dfy` proves the cross-component property: every path the client
  builds from schema connections and a field resolves on the server to
  itself.
- `tipos.dfy` (`static/js/uteis.js`, `tiposDeDadosEntrada`) maps field types
  to HTML input types.
- `cores.dfy` holds `rgbParaHex` and `rgbToHex`.
- `cookie.dfy` holds `getCookie`.
- `sql.dfy` holds `formatarSQL`.
- `estilo.dfy` holds the style panel of `static/index.js`.
- `arrasto.dfy` holds the drag arithmetic of `static/editor.js`.
- `projecao.dfy` holds the layout record of `obterEsquemaRelatorio`.

The following are parameters of the model:

- values read from the page: select values, `data-*` attributes, style
  values;
- the random table id;
- the set of Django models that exist;
- the rows the database returns.

## Model

| member | source | states |
|---|---|---|
| EsquemaDados.ChavesEsquemaBd | setup/esquema.py:9-218 | the literal has exactly the eight table names |
| EsquemaDados.RelacoesChamado | setup/esquema.py:21-42 | relation names of `Chamado` are distinct and every `model_destino` is a schema key |
| EsquemaDados.RelacoesPessoa | setup/esquema.py:53-74 | same for `Pessoa` |
| EsquemaDados.RelacoesAtendimentoPessoa | setup/esquema.py:91-102 | same for `AtendimentoPessoa` |
| EsquemaDados.RelacoesBase | setup/esquema.py:113-134 | same for `Base` |
| EsquemaDados.RelacoesSetor | setup/esquema.py:143-154 | same for `Setor` |
| EsquemaDados.RelacoesUnidade | setup/esquema.py:166-177 | same for `Unidade` |
| EsquemaDados.RelacoesUnidadeChamado | setup/esquema.py:186-197 | same for `UnidadeChamado` |
| EsquemaDados.RelacoesUsuario | setup/esquema.py:206-217 | same for `Usuário` |
| EsquemaDados.NomesRelacoesChamado | setup/esquema.py:21-42 | every relation name of `Chamado` can stand before `"__"` (no `"__"` inside, no trailing `_`) |
| EsquemaDados.NomesRelacoesPessoa | setup/esquema.py:53-74 | same for `Pessoa` |
| EsquemaDados.NomesRelacoesAtendimentoPessoa | setup/esquema.py:91-102 | same for `AtendimentoPessoa` |
| EsquemaDados.NomesRelacoesBase | setup/esquema.py:113-134 | same for `Base` |
| EsquemaDados.NomesRelacoesSetor | setup/esquema.py:143-154 | same for `Setor` |
| EsquemaDados.NomesRelacoesUnidade | setup/esquema.py:166-177 | same for `Unidade` |
| EsquemaDados.NomesRelacoesUnidadeChamado | setup/esquema.py:186-197 | same for `UnidadeChamado` |
| EsquemaDados.NomesRelacoesUsuario | setup/esquema.py:206-217 | same for `Usuário` |
| EsquemaDados.NomesCamposChamado | setup/esquema.py:12-20 | no field name of `Chamado` contains `"__"` |
| EsquemaDados.NomesCamposPessoa | setup/esquema.py:46-52 | same for `Pessoa` |
| EsquemaDados.NomesCamposAtendimentoPessoaInicio | setup/esquema.py:78-84 | same for the first half of the `AtendimentoPessoa` fields |
| EsquemaDados.NomesCamposAtendimentoPessoaFim | setup/esquema.py:85-90 | same for the second half |
| EsquemaDados.NomesCamposAtendimentoPessoa | setup/esquema.py:78-90 | same for all `AtendimentoPessoa` fields |
| EsquemaDados.NomesCamposBase | setup/esquema.py:106-112 | same for `Base` |
| EsquemaDados.NomesCamposSetor | setup/esquema.py:138-142 | same for `Setor` |
| EsquemaDados.NomesCamposUnidade | setup/esquema.py:158-165 | same for `Unidade` |
| EsquemaDados.NomesCamposUnidadeChamado | setup/esquema.py:181-185 | same for `UnidadeChamado` |
| EsquemaDados.NomesCamposUsuario | setup/esquema.py:201-205 | same for `Usuário` |
| EsquemaDados.CamposChamado | setup/esquema.py:12-20 | field `valor`s of `Chamado` are distinct |
| EsquemaDados.CamposPessoa | setup/esquema.py:46-52 | same for `Pessoa` |
| EsquemaDados.CamposAtendimentoPessoa | setup/esquema.py:78-90 | same for `AtendimentoPessoa` |
| EsquemaDados.CamposBase | setup/esquema.py:106-112 | same for `Base` |
| EsquemaDados.CamposSetor | setup/esquema.py:138-142 | same for `Setor` |
| EsquemaDados.CamposUnidade | setup/esquema.py:158-165 | same for `Unidade` |
| EsquemaDados.CamposUnidadeChamado | setup/esquema.py:181-185 | same for `UnidadeChamado` |
| EsquemaDados.CamposUsuario | setup/esquema.py:201-205 | same for `Usuário` |
| EsquemaDados.TabelasDoLiteralOk | setup/esquema.py:2-7 | every table is well formed and reaches only schema keys, as the docstring requires |
| EsquemaDados.EsquemaBdBemFormado | setup/esquema.py:2-7 | the whole literal is closed under `model_destino` and well formed |
| TiposEntrada.TipoDeEntrada | static/js/uteis.js:21-30 | `float`/`int`/`number` give `number`, `bool`/`string` give `text`, `date` gives `date`, `datetime` gives `datetime-local`, `email` gives `email`; defined exactly on the eight keys |
| TiposEntrada.TiposChamado | setup/esquema.py:12-20 | every `tipo` of `Chamado` is a key of `tiposDeDadosEntrada` and none is `"boolean"` |
| TiposEntrada.TiposPessoa | setup/esquema.py:46-52 | same for `Pessoa` |
| TiposEntrada.TiposAtendimentoPessoa | setup/esquema.py:78-90 | same for `AtendimentoPessoa` |
| TiposEntrada.TiposBase | setup/esquema.py:106-112 | same for `Base` |
| TiposEntrada.TiposSetor | setup/esquema.py:138-142 | same for `Setor` |
| TiposEntrada.TiposUnidade | setup/esquema.py:158-165 | same for `Unidade` |
| TiposEntrada.TiposUnidadeChamado | setup/esquema.py:181-185 | same for `UnidadeChamado` |
| TiposEntrada.TiposUsuario | setup/esquema.py:201-205 | same for `Usuário` |
| TiposEntrada.TiposDoEsquemaBd | setup/esquema.py:9-218 | every field type of the literal has an HTML input type and none is `"boolean"` |
| TiposEntrada.TipoResolvidoDeCampo | relatorio_dinamico/utils.py:50-96 | the type a successful path walk returns is the type of some schema field |
| TiposEntrada.FiltroLegadoSemConversao | relatorio_dinamico/utils.py:103-116 | on the schema literal the older class never converts a filter value: every lookup is `(path + "__" + operator, value as given)` |
| Texto.JuntarDividir | relatorio_dinamico/construtores.py:62 | `"__".join(path.split("__"))` is the path, and the split has at least one segment |
| Texto.DividirJuntar | relatorio_dinamico/construtores.py:62 | splitting the `"__"`-join of segments without `"__"` (all but the last not ending in `_`) gives the segments back |
| Texto.JuntarAnexar | relatorio_dinamico/construtores.py:97 | joining one more segment appends the separator and the segment |
| Texto.SubstituirJuntar | relatorio_dinamico/construtores.py:160 | replacing `"__"` in such a join is the join with the new separator |
| Texto.Minusculas | relatorio_dinamico/construtores.py:126 | ASCII lower-casing, which keeps the length; it agrees with `lower()` on every comparison the source makes with it (`"desc"`, `"true"` and the aliases of `Count`, `Sum`, `Avg`, `Min`, `Max`), because no non-ASCII character lowers to an ASCII letter |
| Texto.IndiceDesde | static/js/uteis.js:53 | the first occurrence at or after a position, or none |
| Texto.ContemSe | static/index.js:311 | `includes` holds iff the token occurs at some position |
| Texto.EspacosIniciais | static/editor.js:2 | the greedy `\s*`: the leading run of white space and nothing after it |
| Dicionario.InserirSe | relatorio_dinamico/construtores.py:162 | `d[k] = v` keeps an existing key in place or appends a new one |
| Dicionario.InserirMantemDistintas | relatorio_dinamico/construtores.py:162 | `d[k] = v` on a dictionary without repeated keys leaves none repeated |
| Dicionario.ConsultarInserido | relatorio_dinamico/construtores.py:162 | after `d[k] = v` the key maps to `v` and every other key to its old value |
| Dicionario.Chaves | relatorio_dinamico/construtores.py:209 | `list(metricas.keys())` lists the keys in entry order |
| Lotes.MapearAteErroSe | relatorio_dinamico/construtores.py:104-118 | a loop that raises succeeds iff every element does, then holds every image in order; otherwise it fails with the first element's error |
| Lotes.MapearFalhaPrefixo | relatorio_dinamico/construtores.py:104-118 | once a prefix raises, the whole loop raises the same error |
| Lotes.AcumularFalhaPrefixo | relatorio_dinamico/construtores.py:149-176 | same for a loop that threads state |
| Lotes.AcumularOkSe | relatorio_dinamico/construtores.py:149-176 | a stateful loop finishes iff every element is acceptable |
| Lotes.AcumularInvariante | relatorio_dinamico/construtores.py:149-176 | an invariant kept by every successful step holds after a finished loop |
| Resolvedor.PrimeiroIndice | relatorio_dinamico/construtores.py:44-52 | the index of the first item whose key matches, or none when no item matches |
| Resolvedor.BuscarNaLista | relatorio_dinamico/construtores.py:44-52 | `_buscar_na_lista` returns an item iff one matches, that item matches, and it is the first |
| Resolvedor.Resolver | relatorio_dinamico/construtores.py:62-97 | on success the ORM segments are the requested ones; an invalid relation names a non-final segment, a missing field the final one |
| Resolvedor.ResolverCaminho | relatorio_dinamico/construtores.py:55-97 | the loop of `_resolver_caminho` computes the walk: relations step by step, then the field |
| Resolvedor.CaminhoResolvidoDevolveEntrada | relatorio_dinamico/construtores.py:80-97 | on success the returned path is the input string |
| Resolvedor.ResolverAceitaSe | relatorio_dinamico/construtores.py:62-92 | with unique relation names the walk succeeds iff each non-final segment is a relation of the current table and the last is a field of the table reached |
| Resolvedor.PrefixarAnexa | relatorio_dinamico/construtores.py:80 | appending resolved segments one at a time is the same as appending them together |
| Resolvedor.SegmentosFixture | relatorio_dinamico/tests.py:22 | example: `unidades_operacionais` can stand before `"__"` |
| Resolvedor.DividirFixture | relatorio_dinamico/tests.py:22 | example: `unidades_operacionais__id` splits into its two segments |
| Resolvedor.ResolverFixture | setup/esquema.py:130-133 | example: from `Base`, `unidades_operacionais` then `id` resolves to type `int` |
| Resolvedor.CaminhoFixture | relatorio_dinamico/tests.py:22 | example: the fixture path resolves from `Base` to itself and `int` |
| Resolvedor.RelacaoDesconhecidaRejeitada | relatorio_dinamico/construtores.py:72-77 | a field used as a relation is rejected with that segment and table |
| Resolvedor.CampoDesconhecidoRejeitado | relatorio_dinamico/construtores.py:84-92 | a relation used as the final field is rejected with that segment and table |
| ConsultaServidor.RaizValidada | relatorio_dinamico/construtores.py:22-40 | construction succeeds iff `fonte_principal` is a schema key whose `app_model` exists, with the root error otherwise |
| ConsultaServidor.ConstrutorConsulta.Novo | relatorio_dinamico/construtores.py:22-40 | construction fails exactly when the root check fails, else yields a fresh builder at that root |
| ConsultaServidor.ConstrutorConsulta.constructor | relatorio_dinamico/construtores.py:22-40 | the root, its table and empty alias and output maps |
| ConsultaServidor.ConstrutorConsultaLegado.Novo | relatorio_dinamico/utils.py:17-37 | the same root check for the older class |
| ConsultaServidor.ConstrutorConsultaLegado.constructor | relatorio_dinamico/utils.py:17-37 | the root and its table |
| ConsultaServidor.ValorFiltro | relatorio_dinamico/construtores.py:111-112 | a string on the class's boolean type becomes `lower() == "true"`; any other value is kept |
| ConsultaServidor.FiltroConstruidoChave | relatorio_dinamico/construtores.py:104-117 | one filter builds iff its path resolves, with key `path + "__" + operator` |
| ConsultaServidor.FiltrosConstruidosSe | relatorio_dinamico/construtores.py:100-118 | all filters build iff every path resolves: one lookup per filter in order, else the first failing path's error |
| ConsultaServidor.ConstruirFiltros | relatorio_dinamico/construtores.py:100-118 | the loop of `_construir_filtros` computes that list |
| ConsultaServidor.ApelidoDeSegmentos | relatorio_dinamico/construtores.py:160 | the metric alias is the segments joined by `_`, then `_` and the lower-cased function |
| ConsultaServidor.PassoColunaSe | relatorio_dinamico/construtores.py:150-160 | one column is accepted iff its path resolves and its aggregation, if any, is in the map |
| ConsultaServidor.PassoColunaSaida | relatorio_dinamico/construtores.py:163-176 | an accepted column appends exactly one output entry describing it |
| ConsultaServidor.PassoColunaMetricas | relatorio_dinamico/construtores.py:158-172 | a dimension is appended to the grouping; an aggregate's alias becomes a metric key; metric keys stay distinct |
| ConsultaServidor.PassoColunaValores | relatorio_dinamico/construtores.py:154-163 | an aggregated column assigns `metricas[apelido] = MAPA_AGREGACAO[func](caminho, distinct)` (with `distinct` only in construtores.py) and `_mapa_apelidos_metricas[campo] = apelido`; a dimension changes neither map |
| ConsultaServidor.MetricaNaChaveSe | relatorio_dinamico/construtores.py:162 | a metric key holds the aggregate, over its own path, of the last aggregated column whose alias is that key |
| ConsultaServidor.MetricaNaChaveAusente | relatorio_dinamico/construtores.py:162 | no metric sits under a key that no aggregated column's alias equals |
| ConsultaServidor.MapaApelidosSe | relatorio_dinamico/construtores.py:163 | a field of the alias map maps to the alias of the last aggregated column on that field |
| ConsultaServidor.MapaApelidosChaves | relatorio_dinamico/construtores.py:163 | the alias map covers exactly the aggregated fields |
| ConsultaServidor.PassoPreservaValores | relatorio_dinamico/construtores.py:154-163 | one step keeps "each key holds `MetricaNaChave`, the alias map is `MapaApelidos`" |
| ConsultaServidor.PassoValoresDeslocados | relatorio_dinamico/construtores.py:162-163 | the dictionary assignment and the map update of one column extend that invariant by the column |
| ConsultaServidor.ProcessarValores | relatorio_dinamico/construtores.py:140-176 | after the column loop every metric key holds `MetricaNaChave` and the alias map is `MapaApelidos` of the columns |
| ConsultaServidor.ProcessarOkSe | relatorio_dinamico/construtores.py:149-156 | processing finishes iff every column is valid |
| ConsultaServidor.PassoPreservaSaida | relatorio_dinamico/construtores.py:163-176 | one step extends the output map by the entry for that column |
| ConsultaServidor.ProcessarSaida | relatorio_dinamico/construtores.py:163-176 | after processing the output map has one entry per column, in order |
| ConsultaServidor.PassoPreservaDimensoes | relatorio_dinamico/construtores.py:169-171 | one step extends the grouping by that column's path if not aggregated, and keeps the metric keys distinct |
| ConsultaServidor.ProcessarDimensoes | relatorio_dinamico/construtores.py:169-171 | after processing the grouping is the non-aggregated paths in order |
| ConsultaServidor.ProcessarSe | relatorio_dinamico/construtores.py:140-176 | `_processar_colunas`: success iff all columns valid; output per column in order (type `number` for aggregates); dimensions in order; every alias is a metric key |
| ConsultaServidor.ConstrutorConsulta.ProcessarColunas | relatorio_dinamico/construtores.py:140-176 | the method fills dimensions, metrics, alias map and output map as the fold does |
| ConsultaServidor.ConstrutorConsultaLegado.ProcessarColunas | relatorio_dinamico/utils.py:137-169 | the older column loop fills its local dimensions, metrics and output map, and stops at the first failing column, exactly as the fold `Processar` over the columns does |
| ConsultaServidor.ItemOrdenacaoSe | relatorio_dinamico/construtores.py:124-137 | an ordering item is `-` for `desc` (case-insensitive, default `asc`) plus the metric alias if there is one, else the resolved path |
| ConsultaServidor.OrdenacaoConstruidaSe | relatorio_dinamico/construtores.py:120-138 | the ordering has one item per request in order, and fails iff some non-alias path does not resolve |
| ConsultaServidor.ConstrutorConsulta.ContruirOrdenacao | relatorio_dinamico/construtores.py:120-138 | the loop of `_contruir_ordenacao` computes that list |
| ConsultaServidor.LimiteEfetivo | relatorio_dinamico/construtores.py:221-225 | the limit is `limite` when an int in 1..1000 (a `True` counts as 1), else 1000; a `False` gives 1000 |
| ConsultaServidor.ApelidosDasColunasSe | relatorio_dinamico/construtores.py:160-162 | the metric aliases are distinct and are exactly `Apelido(campo, agregacao)` of the aggregated columns |
| ConsultaServidor.CamposAgregadosSe | relatorio_dinamico/construtores.py:163 | the alias-map keys are exactly the paths of the aggregated columns |
| ConsultaServidor.ApelidosDasColunasContem | relatorio_dinamico/construtores.py:160-162 | adding columns keeps earlier metric keys and adds every aggregated column's alias |
| ConsultaServidor.PassoPreservaMetricas | relatorio_dinamico/construtores.py:154-163 | one step adds an aggregated column's alias to the metric keys (if new) and its path to the alias map |
| ConsultaServidor.ProcessarMetricas | relatorio_dinamico/construtores.py:140-176 | after processing, the metric keys are the aliases of the aggregated columns in first-appearance order and the alias map covers exactly their paths |
| ConsultaServidor.ConsultaCriadaSe | relatorio_dinamico/construtores.py:178-227 | `criar_queryset` succeeds iff every filter resolves, there is at least one column, every column is valid, and every ordering names an aggregated column's path or a resolving path |
| ConsultaServidor.ConsultaCriadaConteudo | relatorio_dinamico/construtores.py:178-227 | a built query has the built filters, the dimensions as grouping, the metric aliases as distinct annotation keys, selection = dimensions + metric keys (line 209), `distinct`, the built ordering over the alias map, and limit `LimiteEfetivo(limite)`; what each metric key and each alias holds is stated by `ConsultaCriadaMetricas` |
| ConsultaServidor.ConsultaLegadaCriadaSe | relatorio_dinamico/utils.py:122-185 | the older query succeeds iff every filter resolves and every column is valid (no column-count check) |
| ConsultaServidor.ConsultaCriadaMetricas | relatorio_dinamico/construtores.py:162-163 | in the built query each metric key holds the `distinct=True` aggregate of the last aggregated column with that alias, and the ordering reads `MapaApelidos`, so an aggregated field orders by its column's alias (lines 128-131) |
| ConsultaServidor.ConsultaLegadaCriadaMetricas | relatorio_dinamico/utils.py:155 | in the older query each metric key holds the aggregate, without `distinct`, of the last aggregated column with that alias |
| ConsultaServidor.ConsultaLegadaCriadaConteudo | relatorio_dinamico/utils.py:122-208 | the older query has the legacy filters, the dimensions as grouping, selection = dimensions + metric keys (line 185), no `distinct`, no ordering, no limit, and one output entry per column; what each metric key holds is stated by `ConsultaLegadaCriadaMetricas` |
| ConsultaServidor.ConsultaSemColunasRejeitada | relatorio_dinamico/construtores.py:142-147 | with every filter resolving, an empty column list gives the no-columns error |
| ConsultaServidor.ConstrutorConsulta.CriarQueryset | relatorio_dinamico/construtores.py:178-227 | `criar_queryset` returns that query and sets the alias and output maps |
| ConsultaServidor.CelulaFormatada | relatorio_dinamico/construtores.py:241-247 | a cell of the boolean type becomes `Sim`/`Não`; a date (current builder only) or datetime value becomes its `strftime` text with `%d/%m/%Y` or `%d/%m/%Y %H:%M`; every other cell is unchanged; the legacy builder leaves dates alone (relatorio_dinamico/utils.py:200-204) |
| ConsultaServidor.ChavesLinhaFormatada | relatorio_dinamico/construtores.py:238-249 | a formatted row has one key per distinct output label, in first-appearance order, with no key repeated |
| ConsultaServidor.LinhaFormatadaSe | relatorio_dinamico/construtores.py:238-249 | each label of a formatted row holds the formatted cell of the last output entry carrying it |
| ConsultaServidor.LinhasFormatadas | relatorio_dinamico/construtores.py:236-250 | one formatted row per database row, in order |
| ConsultaServidor.FormatarLinha | relatorio_dinamico/construtores.py:238-249 | the inner loop of `executar` builds that row |
| ConsultaServidor.FormatarLinhas | relatorio_dinamico/construtores.py:236-250 | the outer loop builds all rows |
| ConsultaServidor.ConstrutorConsulta.Executar | relatorio_dinamico/construtores.py:229-252 | `executar` raises the query's error, or returns the query and the rows formatted by its output map |
| ConsultaServidor.ConstrutorConsultaLegado.Executar | relatorio_dinamico/utils.py:122-208 | the older `executar` returns the error, or the query of `ConsultaLegadaCriada` (its selection, dimensions then aliases, is stated by `ConsultaLegadaCriadaConteudo`) and the rows formatted by its output map; label from `label` falling back to the path, `boolean` cells as `Sim`/`Não` |
| ConstrutorCliente.Destino | static/js/construtor-consulta.js:119-128 | following a route of connections reaches a schema table, or none |
| ConstrutorCliente.DestinoAnexar | static/js/construtor-consulta.js:119-128 | a connection of the reached table extends the route to its target |
| ConstrutorCliente.PrefixoTermina | static/js/construtor-consulta.js:124 | every non-root path prefix ends in `"__"` |
| ConstrutorCliente.ColunasMantidas | static/js/construtor-consulta.js:108 | appending tables keeps every column's table present |
| ConstrutorCliente.ColunaNova | static/js/construtor-consulta.js:130-156 | a column is added iff the index and field are non-empty and name an existing table field; `path_final` is the table path plus the field, `label` is undefined, `label_display`/`agregacao` follow `agg` |
| ConstrutorCliente.FiltroNovo | static/js/construtor-consulta.js:164-182 | a filter is added iff the table index and the field are non-empty and the table exists, with `campo = caminho + field`; an empty operator or value is still added |
| ConstrutorCliente.InicioSplice | static/js/construtor-consulta.js:159 | `splice`'s start: negative from the end, clamped into the list |
| ConstrutorCliente.Removido | static/js/construtor-consulta.js:159 | `splice(i, 1)` removes the element at the clamped start and keeps the rest in order |
| ConstrutorCliente.RemovidoNoIntervalo | static/js/construtor-consulta.js:158-162 | an in-range index removes exactly that element: the multiset loses only it |
| ConstrutorCliente.IndicesSemAgregacao | static/js/construtor-consulta.js:336 | the positions of the non-aggregated columns: strictly increasing, in range, and containing every such position |
| ConstrutorCliente.Agrupamentos | static/js/construtor-consulta.js:336 | `agrupamentos` holds exactly the paths of the non-aggregated columns |
| ConstrutorCliente.AgrupamentosOrdenados | static/js/construtor-consulta.js:336 | the j-th grouping entry is the path of the j-th non-aggregated column, so the order is column order |
| ConstrutorCliente.AlgumaNoCaminho | static/js/construtor-consulta.js:190-193 | `isTabelaJaAdicionada` holds iff some active table has the path |
| ConstrutorCliente.JuncaoAlcancavel | static/js/construtor-consulta.js:119-128 | a table joined under a reachable parent is reachable at the parent path plus the relation and `"__"` |
| ConstrutorCliente.EstadoConsulta.constructor | static/js/construtor-consulta.js:6-11 | the initial empty state |
| ConstrutorCliente.EstadoConsulta.Redefinir | static/js/construtor-consulta.js:84-91 | all four parts emptied, invariant holds |
| ConstrutorCliente.EstadoConsulta.CarregarTabela | static/js/construtor-consulta.js:104-117 | unknown model: no change; else exactly one table appended |
| ConstrutorCliente.EstadoConsulta.IniciarRaiz | static/js/construtor-consulta.js:93-102 | columns and filters emptied; a known root is the only table, at path `""` with type `Raiz` |
| ConstrutorCliente.EstadoConsulta.AdicionarJuncao | static/js/construtor-consulta.js:119-128 | parent found: one table appended at `parent.caminho + campo_relacao + "__"` and the path check then holds; else no change; reachability kept |
| ConstrutorCliente.EstadoConsulta.AdicionarColuna | static/js/construtor-consulta.js:130-156 | appends the column `ColunaNova` yields or changes nothing; other lists unchanged |
| ConstrutorCliente.EstadoConsulta.RemoverColuna | static/js/construtor-consulta.js:158-162 | columns spliced, filters untouched |
| ConstrutorCliente.EstadoConsulta.AdicionarFiltro | static/js/construtor-consulta.js:164-182 | appends the filter `FiltroNovo` yields or changes nothing; columns unchanged |
| ConstrutorCliente.EstadoConsulta.RemoverFiltro | static/js/construtor-consulta.js:184-188 | filters spliced, columns untouched |
| ConstrutorCliente.EstadoConsulta.PayloadAtual | static/js/construtor-consulta.js:331-337 | the payload has the root, one column per chosen column in order with its path, label and aggregation, the filters, and the non-aggregated paths in column order |
| Cruzado.Nomes | static/js/construtor-consulta.js:124 | the relation names along a route, in order |
| Cruzado.JuntarPrefixo | static/js/construtor-consulta.js:139 | the client's prefix plus a field is the `"__"`-join of the route's names and the field |
| Cruzado.RotaSeparavel | setup/esquema.py:21-42 | along any route of a well-formed schema every relation name can stand before `"__"` |
| Cruzado.CampoResolve | relatorio_dinamico/construtores.py:62-97 | on a well-formed schema a single field name resolves to that field and its type, since field names are unique per table |
| Cruzado.RotaResolve | relatorio_dinamico/construtores.py:62-97 | the server walk over a route's names and a field of the table reached returns them and the field's type |
| Cruzado.CaminhoDoClienteResolve | relatorio_dinamico/construtores.py:55-97 | every path the client builds resolves on the server to itself and the field's type |
| Cruzado.ColunaDoClienteResolve | static/js/construtor-consulta.js:139 | every column of a valid client state resolves to its own path |
| Cruzado.FiltroDoClienteResolve | static/js/construtor-consulta.js:174 | a filter on a listed field resolves to its own path and that field's type |
| Cruzado.ConfigDoPayload | relatorio_dinamico/construtores.py:150-151 | the server reads the root, each column's path, `label` and aggregation, finds no `rotulo`, gets every filter's value as a string, and sees no ordering or limit |
| Cruzado.AgrupamentosNoServidor | static/js/construtor-consulta.js:336 | the client's `agrupamentos` equals the server's dimension list for the same columns |
| Cruzado.PayloadAceito | static/js/construtor-consulta.js:331-337 | for a valid client state every payload column resolves to itself, the grouping matches, and with known aggregations every column is valid |
| Cruzado.CaminhoDoClienteResolveNoEsquemaBd | setup/esquema.py:9-218 | on the literal every client-built path resolves to itself |
| Cores.ConcatenarAnexar | static/js/uteis.js:4 | concatenating runs distributes over appending lists of runs |
| Cores.ExecucoesDesdeSe | static/js/uteis.js:4 | `match(/\d+/g)`: every run is a non-empty digit string and together they are all the digits, in order |
| Cores.SemExecucoes | static/js/uteis.js:4-5 | there are no runs iff the text has no digit |
| Cores.DigitosDeVazio | static/js/uteis.js:4-5 | the digits of a text are empty iff it has no digit |
| Cores.Hexadecimal | static/js/uteis.js:9 | `toString(16)`: lower-case hex digits, one digit iff below 16, at most two below 256 |
| Cores.HexadecimalIda | static/js/uteis.js:9 | reading the hex text back gives the number |
| Cores.DigitoHexIda | static/js/uteis.js:9 | each hex digit reads back as its value |
| Cores.ValorHexZero | static/js/uteis.js:10 | a leading `0` pad does not change the value |
| Cores.RgbParaHex | static/js/uteis.js:1-12 | input starting with `#` is returned unchanged; the result always starts with `#` |
| Cores.RgbSemDigitos | static/js/uteis.js:4-5 | no digit gives `#000000` |
| Cores.ParHexSe | static/js/uteis.js:8-11 | a channel up to 255 becomes two hex digits that read back as its value |
| Cores.RgbTresCanais | static/js/uteis.js:7-11 | three channels up to 255 give `#` and seven characters whose three pairs read back as r, g, b |
| Cores.RgbSoTresPrimeiros | static/js/uteis.js:7 | runs after the third (an alpha channel) do not matter |
| Cores.ExemploRgb | static/index.js:361-370 | example: runs 255, 0, 10 give `#ff000a` |
| Cores.RgbDeTresExecucoes | static/index.js:365-369 | with three runs the result is `#` and their three pairs |
| Cores.ParesExemplo | static/index.js:366-368 | example: pairs of 255, 0 and 10 are `ff`, `00`, `0a` |
| Cores.CanaisExemplo | static/index.js:367 | example: decimal and hex values of 255, 0 and 10 |
| Cores.PartesDaCor | static/js/uteis.js:8-11 | `#` and three two-character pairs are seven characters, sliced back into the pairs |
| Cookies.AtePontoEVirgula | static/editor.js:2 | `[^;]*`: the longest prefix without `;` |
| Cookies.ValorApos | static/editor.js:2 | `\s*([^;]+)`: a captured value is non-empty and free of `;` |
| Cookies.CasaNomeEm | static/editor.js:2 | a match at one split between name and spaces has a non-empty value |
| Cookies.CasaDesde | static/editor.js:2 | backtracking the leading spaces keeps the value non-empty |
| Cookies.Buscar | static/editor.js:2 | matches start at the beginning or after a `;`; the value is non-empty |
| Cookies.ObterCookie | static/editor.js:1-4 | `getCookie` is `''` exactly when nothing matches |
| Cookies.ValorDe | static/js/index.js:141-144 | with no entry of that name the value is `''` |
| Cookies.CasaNaEntrada | static/editor.js:2 | at an entry `name=value` the pattern matches iff the names are equal, giving the value |
| Cookies.CasaNomeIgual | static/editor.js:2 | the entry's own name matches and yields its value |
| Cookies.CasaNomeMaisCurto | static/editor.js:2 | a shorter name (a suffix or prefix of the entry's) does not match there |
| Cookies.CasaNomeOutro | static/editor.js:2 | a different name of equal length does not match |
| Cookies.CasaNomeMaisLongo | static/editor.js:2 | a longer name does not match |
| Cookies.ValorAteFim | static/editor.js:2 | the value runs to the next `;` or the end |
| Cookies.AteFim | static/editor.js:2 | `[^;]*` stops at the `;` that follows |
| Cookies.CasaNomeDeslocado | static/editor.js:2 | matching after a prefix is matching the rest |
| Cookies.CasaComEspaco | static/editor.js:2 | the optional space after `;` is absorbed by `\s*` |
| Cookies.CasaAposEspaco | static/editor.js:2 | at `" name=value"` the match is the value iff the names are equal |
| Cookies.ParSemPontoEVirgula | static/editor.js:2 | an entry holds no `;` |
| Cookies.DocumentoCabeca | static/editor.js:2 | `document.cookie` is the first entry, then `"; "` and the rest |
| Cookies.BuscarPorPartes | static/editor.js:2 | the search tries the current entry, then continues after its `;` |
| Cookies.BuscarPasso | static/editor.js:2 | one entry: its value if the names are equal, else the search over the rest |
| Cookies.BuscarAposEspaco | static/editor.js:2 | a leading space does not change the search |
| Cookies.ObterCookieDeEntradas | static/js/index.js:141-144 | for a cookie string of simple entries, `getCookie` returns the value of the first entry with that exact name, else `''` |
| Cookies.ExemploCsrf | static/js/index.js:142 | example: an entry `xcsrftoken` is not taken for `csrftoken` |
| FormatacaoSql.Colapsar | static/js/uteis.js:33 | `replace(/\s+/g, " ")`: white space only as single spaces; a non-space first character kept |
| FormatacaoSql.SemEspacosFinais | static/js/uteis.js:33 | trailing white space removed, nothing else |
| FormatacaoSql.Aparar | static/js/uteis.js:33 | `trim()`: no white space at either end |
| FormatacaoSql.SemEspacosConcatenar | static/js/uteis.js:33 | the non-space characters of a concatenation are those of the parts |
| FormatacaoSql.SemEspacosSoEspacos | static/js/uteis.js:33 | white space has no non-space characters |
| FormatacaoSql.ColapsarPreserva | static/js/uteis.js:33 | collapsing keeps the non-space characters in order |
| FormatacaoSql.SemEspacosRecorte | static/js/uteis.js:33 | cutting off white space keeps them too |
| FormatacaoSql.ApararPreserva | static/js/uteis.js:33 | trimming keeps them |
| FormatacaoSql.NormalizarSe | static/js/uteis.js:33 | the first step yields single spaces only, none at the ends, and the same non-space text |
| FormatacaoSql.ColapsarNormal | static/js/uteis.js:33 | collapsing a normal text changes nothing |
| FormatacaoSql.NormalizarIdempotente | static/js/uteis.js:33 | normalising twice is normalising once |
| FormatacaoSql.SubstituirSemCasamento | static/js/uteis.js:39-40 | with no `\bWORD\b` match the replacement changes nothing |
| FormatacaoSql.SubstituirNoCasamento | static/js/uteis.js:39-40 | the first match is replaced and scanning resumes after it |
| FormatacaoSql.PrefixoSemCasamento | static/js/uteis.js:39-40 | text before the next match is copied |
| FormatacaoSql.RemoverPrimeiro | static/js/uteis.js:53 | `replace("</div>", "")` removes only the first occurrence, or nothing if absent |
| FormatacaoSql.SqlFormatada | static/js/uteis.js:54 | the result ends with `</div>` |
| FormatacaoSql.SqlFormatadaNormal | static/js/uteis.js:33 | texts differing only in white space are formatted alike |
| FormatacaoSql.FormatarSql | static/js/uteis.js:32-56 | the two `forEach` loops and the final steps compute that formatted text |
| EstiloEditor.Definir | static/index.js:321-359 | a setter gives its property the value and leaves every other property and the toggles alone |
| EstiloEditor.Alternar | static/index.js:301-318 | bold/italic flip between the value and `normal`; underline/line-through become `none` iff already present, else replace the decoration; other names change nothing |
| EstiloEditor.AlternarDuasVezes | static/index.js:301-318 | toggling twice restores a value the toggle writes |
| EstiloEditor.NoneNaoContem | static/index.js:311-316 | `none` contains neither decoration |
| EstiloEditor.ContemASi | static/index.js:311-316 | a decoration contains itself |
| EstiloEditor.Elemento.constructor | static/index.js:78-123 | an element with its style |
| EstiloEditor.Editor.constructor | static/index.js:9-11 | no element, nothing selected |
| EstiloEditor.Editor.AplicarEstilo | static/index.js:298-319 | no selection: no change; else the toggle on its style |
| EstiloEditor.Editor.Mudar | static/index.js:321-359 | no selection: no change; else the setter on its style |
| EstiloEditor.Editor.AplicarAlinhamento | static/index.js:321-324 | sets `textAlign` of the selected element |
| EstiloEditor.Editor.MudarTamanhoDaFonte | static/index.js:326-329 | sets `fontSize` to the size plus `px` |
| EstiloEditor.Editor.MudarCorDoTexto | static/index.js:331-334 | sets `color` |
| EstiloEditor.Editor.MudarCorDeFundo | static/index.js:336-339 | sets `backgroundColor` |
| EstiloEditor.Editor.MudarFonte | static/index.js:341-344 | sets `fontFamily` |
| EstiloEditor.Editor.MudarCorDaBorda | static/index.js:346-349 | sets `borderColor` |
| EstiloEditor.Editor.MudarEstiloDaBorda | static/index.js:351-354 | sets `borderStyle` |
| EstiloEditor.Editor.MudarEspessuraDaBorda | static/index.js:356-359 | sets `borderWidth` to the width plus `px` |
| EstiloEditor.Editor.ExcluirElemento | static/index.js:372-379 | the element leaves the page; the selection is cleared iff it was that element |
| EstiloEditor.Sem | static/index.js:374 | the list without the element, every other element kept |
| Arrasto.Limitar | static/editor.js:105-106 | `max(0, min(x, max))` lies in `[0, max]` and is `x` when `x` already is |
| Arrasto.Maximo | static/editor.js:101-103 | `max(0, parent − size)` is non-negative and at least `parent − size` |
| Arrasto.LimitarIdempotente | static/editor.js:166-167 | clamping a clamped position changes nothing |
| Arrasto.LimitarMonotono | static/editor.js:105-106 | clamping is monotone |
| Arrasto.ElementoArrastavel.constructor | static/editor.js:8-40 | a new element with no attributes or transform |
| Arrasto.ElementoArrastavel.TornarArrastavel | static/editor.js:41-47 | `data-x`, `data-y` and the transform start at 0 only when absent |
| Arrasto.ElementoArrastavel.Mover | static/editor.js:79-115 | the absolute position is clamped into the parent, `data-x = absLeft − baseLeft`, the shown translation is the recorded one, and an in-range move follows the pointer exactly |
| Arrasto.ElementoArrastavel.MoverSemLimite | static/editor.js:55-62 | without a content area the translation grows by the pointer motion |
| Arrasto.ElementoArrastavel.Terminar | static/editor.js:117-133 | the translation is folded into left/top and reset to 0; the drawn position is unchanged |
| Arrasto.AjustarAoCarregar | static/editor.js:158-171 | every loaded element is clamped into the content area and made draggable |
| ProjecaoRelatorio.OuZero | static/js/index.js:107-110 | `parseFloat(v) \|\| 0`: the number, or 0 when absent |
| ProjecaoRelatorio.ConfiguracaoOuVazia | static/js/index.js:135 | `queryConfig \|\| "{}"` |
| ProjecaoRelatorio.Deslocamento | static/js/index.js:112-120 | a recognised `translate` overrides the `data-x`/`data-y` offsets |
| ProjecaoRelatorio.Projecao | static/js/index.js:122-136 | id and type copied; position is style plus offset; `content` iff `texto`; `query` iff `tabela`, defaulting to `{}` |
| ProjecaoRelatorio.ProjetarElemento | static/js/index.js:104-137 | the callback with its reassigned `x`/`y` computes that record |
| ProjecaoRelatorio.ObterEsquemaRelatorio | static/js/index.js:103-138 | one record per element, in document order |
| ProjecaoRelatorio.PosicaoDesenhada | static/js/index.js:108-128 | when the transform is the recorded one or not a recognised `translate`, the position is style plus `data-x`/`data-y` |
| ProjecaoRelatorio.TranslacaoPrevalece | static/js/index.js:116-119 | with a recognised `translate` the `data-*` offsets do not matter |

## Left out

- DOM rendering and widget wiring of the query builder are left out: `renderizarTudo`, the `renderizar*` functions and `atualizar*` functions. So are the `fetch('/esquema')` and the modal open/save flow. All of this is UI and I/O.
- The Django ORM is represented by its inputs:
  - `apps.get_model` becomes a set of known model names. That set cannot express one case. The `Usuário` root names `django.contrib.auth.models.User` (setup/esquema.py:200), which is not of the `app_label.ModelName` form. Django's one-argument `get_model` raises `ValueError` for such a name, not `LookupError`. The `except LookupError` of relatorio_dinamico/construtores.py:38-41 and relatorio_dinamico/utils.py:33-36 does not catch it, so a query rooted at `Usuário` crashes. The model instead reports `ModeloNaoEncontrado`, or succeeds when that name is in the set. This rests on Django's own code, which is not part of this model, and was not executed;
  - `Q` becomes a lookup pair;
  - `values`, `annotate`, `distinct`, `order_by` and slicing become fields of a query record;
  - the rows the database returns are a parameter.
- Date and datetime cells that are formatted keep `strftime`'s output symbolically, as `Formatado(iso, format)` with the format string the source passes. The text `strftime` would produce is not computed, because it is a library call.
- `ConstrutorHTML`, the views, URL routing, the Django model files, `static/js/canvas.js`, `static/js/interact-config.js` and PDF generation are not part of this model.
- The drag/drop, resize, selection and property-panel handlers of `static/index.js` are left out, because they are UI wiring.
- The `fontes` constant of `static/js/uteis.js` is left out, because it is a list of font names with no logic.
- Numbers are unbounded integers, which leaves out the following:
  - `parseFloat`/`parseInt` of non-integer pixel values;
  - the `Math.round` of the drag handlers, which is the identity on integers;
  - JavaScript doubles beyond 2^53.
- NaN from `parseFloat` is modelled as an absent value, which the `|| 0` turns into 0.
- Cookies.ObterCookie: the name is inserted into the pattern unescaped. The model treats it as literal text, so regular-expression metacharacters in a cookie name are not modelled.
- Cookies.ObterCookieDeEntradas: proved for well-formed cookie strings only. Names have no `;`, `=` or white space. Values are non-empty, do not start with white space and have no `;`. Entries are joined by `"; "`, as browsers produce them.
- ProjecaoRelatorio.Projecao: `JSON.parse` of `queryConfig` is kept as the text to parse. So an invalid `queryConfig`, on which `JSON.parse` throws and aborts the whole projection, is not modelled. The report's `left`/`top` are numbers, not the `"px"` strings.
- The computed transform is an abstract value: none, a recognised `translate(Xpx, Ypx)`, or anything else. Browsers report computed transforms as `matrix(...)`, which the pattern does not recognise.
- Cores.RgbParaHex: `parseInt` of a run is exact, and channels above 255 simply give longer hex text. The proofs about seven-character output require channels up to 255.
- The console logging of the older builder, the `print` calls at relatorio_dinamico/utils.py:118,134,177,182,188, is left out, because it is output only.
- ConsultaServidor.RotuloColuna: a column's `rotulo` (current builder) or `label` (older builder) is an `Option`, so a key present with a JSON `null` is modelled as an absent key. Python's `coluna.get('rotulo', coluna['campo'])` (relatorio_dinamico/construtores.py:151) and `coluna.get('label', coluna['campo'])` (relatorio_dinamico/utils.py:142) return `None` in that case, and `None` becomes a key of the formatted row. The model falls back to the path instead.
- Texto.Minusculas: only ASCII letters are lowered. Python's `str.lower()` also folds non-ASCII letters and can lengthen the text (`'İ'.lower()` has two characters). That case folding is not modelled.
- ConsultaServidor.DirecaoOrdem: the request is parsed into typed records (`ColunaConfig`, `FiltroConfig`, `OrdenacaoConfig`). So the model has no error path for a present `"ordem": null` or a non-string `ordem`, on which `.lower()` raises AttributeError (relatorio_dinamico/construtores.py:126). It treats a null `ordem` as absent, which orders ascending. It also has no error path for a missing `campo`, `operador` or `valor`, which raise KeyError (relatorio_dinamico/construtores.py:106-108, 125, 150).
- Concurrency, the clock, randomness and the network are outside the model. The random table id is a parameter.
- The client's `label` reads on schema fields that only carry `rotulo` give JavaScript `undefined`. The model keeps that quirk as an absent label, with `label_display` becoming `agg + " de undefined"`.
- `relatorio_dinamico/tests.py` is stale and is not used as a reference. It imports `ValidadorConsulta`, calls `_construir_ordenacao`, and uses the aggregation `"count"`. Only its fixture path is modelled.

=== FILE: arrasto.dfy ===
/** Dragging report elements inside the content area of the report editor
    (static/editor.js): a move keeps the element inside its parent by
    translating it, and the end of the drag folds the translation into
    `left`/`top`.  Positions are whole pixels. */
module Arrasto {
  import opened Wrappers

  /** `Math.max(0, Math.min(x, maximo))`. */
  function Limitar(x: int, maximo: int): (r: int)
    ensures maximo >= 0 ==> 0 <= r <= maximo
    ensures 0 <= x <= maximo ==> r == x
    ensures x < 0 ==> r == 0
    ensures x > maximo && maximo >= 0 ==> r == maximo
  {
    var menor := if x < maximo then x else maximo;
    if menor > 0 then menor else 0
  }

  /** The largest `left` (or `top`) that keeps an element of size `tamanho`
      inside a parent of size `tamanhoPai`. */
  function Maximo(tamanhoPai: int, tamanho: int): (r: int)
    ensures r >= 0
    ensures r == 0 || r == tamanhoPai - tamanho
    ensures r >= tamanhoPai - tamanho
  {
    if tamanhoPai - tamanho > 0 then tamanhoPai - tamanho else 0
  }

  /** Clamping a clamped position changes nothing. */
  lemma LimitarIdempotente(x: int, maximo: int)
    requires maximo >= 0
    ensures Limitar(Limitar(x, maximo), maximo) == Limitar(x, maximo)
  {
  }

  /** Clamping is monotone: a further proposed position is never clamped to
      a nearer one. */
  lemma LimitarMonotono(x: int, y: int, maximo: int)
    requires x <= y
    ensures Limitar(x, maximo) <= Limitar(y, maximo)
  {
  }

  /** A draggable element: its style `left`/`top`, its size, the `data-x` and
      `data-y` attributes (absent or a number) and its inline transform
      `translate(Xpx, Ypx)` (absent or the two offsets). */
  class ElementoArrastavel {
    var left: int
    var top: int
    var largura: int
    var altura: int
    var dataX: Option<int>
    var dataY: Option<int>
    var transform: Option<(int, int)>

    constructor(left: int, top: int, largura: int, altura: int)
      ensures this.left == left && this.top == top
      ensures this.largura == largura && this.altura == altura
      ensures dataX == None && dataY == None && transform == None
    {
      this.left := left;
      this.top := top;
      this.largura := largura;
      this.altura := altura;
      dataX := None;
      dataY := None;
      transform := None;
    }

    /** The translation shown is the one recorded in `data-x`/`data-y`. */
    predicate Coerente()
      reads this
    {
      transform == Some((dataX.GetOr(0), dataY.GetOr(0)))
    }

    /** Where the element is drawn: its position plus its translation. */
    function Visivel(): (int, int)
      reads this
    {
      var (tx, ty) := transform.GetOr((0, 0));
      (left + tx, top + ty)
    }

    /** The set-up of `makeDraggable`: missing attributes start at 0 and a
      missing transform at `translate(0px, 0px)`; present ones are kept. */
    method TornarArrastavel()
      modifies this
      ensures dataX == (if old(dataX).None? then Some(0) else old(dataX))
      ensures dataY == (if old(dataY).None? then Some(0) else old(dataY))
      ensures transform == (if old(transform).None? then Some((0, 0)) else old(transform))
      ensures left == old(left) && top == old(top)
      ensures largura == old(largura) && altura == old(altura)
    {
      if dataX.None? {
        dataX := Some(0);
      }
      if dataY.None? {
        dataY := Some(0);
      }
      if transform.None? {
        transform := Some((0, 0));
      }
    }

    /** The `move` listener: the proposed position is clamped into the
      parent and the translation becomes its distance from `left`/`top`. */
    method Mover(dx: int, dy: int, larguraPai: int, alturaPai: int)
      modifies this
      ensures left == old(left) && top == old(top)
      ensures largura == old(largura) && altura == old(altura)
      ensures dataX == Some(Limitar(old(left + dataX.GetOr(0)) + dx, Maximo(larguraPai, largura)) - left)
      ensures dataY == Some(Limitar(old(top + dataY.GetOr(0)) + dy, Maximo(alturaPai, altura)) - top)
      ensures 0 <= old(left + dataX.GetOr(0)) + dx <= Maximo(larguraPai, largura) ==>
        dataX == Some(old(dataX.GetOr(0)) + dx)
      ensures Coerente()
      ensures 0 <= Visivel().0 <= Maximo(larguraPai, largura)
      ensures 0 <= Visivel().1 <= Maximo(alturaPai, altura)
    {
      var baseLeft := left;
      var baseTop := top;
      var curTx := dataX.GetOr(0) + dx;
      var curTy := dataY.GetOr(0) + dy;
      var absLeft := Limitar(baseLeft + curTx, Maximo(larguraPai, largura));
      var absTop := Limitar(baseTop + curTy, Maximo(alturaPai, altura));
      var tx := absLeft - baseLeft;
      var ty := absTop - baseTop;
      transform := Some((tx, ty));
      dataX := Some(tx);
      dataY := Some(ty);
    }

    /** The `move` listener of the fallback without a content area: the
      translation grows by the pointer's motion, unclamped. */
    method MoverSemLimite(dx: int, dy: int)
      modifies this
      ensures left == old(left) && top == old(top)
      ensures largura == old(largura) && altura == old(altura)
      ensures dataX == Some(old(dataX.GetOr(0)) + dx) && dataY == Some(old(dataY.GetOr(0)) + dy)
      ensures Coerente()
    {
      var x := dataX.GetOr(0) + dx;
      var y := dataY.GetOr(0) + dy;
      transform := Some((x, y));
      dataX := Some(x);
      dataY := Some(y);
    }

    /** The `end` listener: the translation is folded into `left`/`top` and
      reset to zero, so the element stays where it is drawn. */
    method Terminar()
      modifies this
      ensures left == old(left + dataX.GetOr(0)) && top == old(top + dataY.GetOr(0))
      ensures largura == old(largura) && altura == old(altura)
      ensures dataX == Some(0) && dataY == Some(0) && transform == Some((0, 0))
      ensures Coerente()
      ensures old(Coerente()) ==> Visivel() == old(Visivel())
    {
      var finalLeft := left + dataX.GetOr(0);
      var finalTop := top + dataY.GetOr(0);
      left := finalLeft;
      top := finalTop;
      transform := Some((0, 0));
      dataX := Some(0);
      dataY := Some(0);
    }
  }

  /** The elements are distinct, as `querySelectorAll` returns them. */
  predicate Distintos(els: seq<ElementoArrastavel>) {
    forall i, j :: 0 <= i < j < |els| ==> els[i] != els[j]
  }

  /** The `DOMContentLoaded` handler: every element already in the content
    area is clamped into it and made draggable. */
  method AjustarAoCarregar(els: seq<ElementoArrastavel>, larguraPai: int, alturaPai: int)
    requires Distintos(els)
    modifies set e | e in els
    ensures forall k :: 0 <= k < |els| ==>
      && els[k].left == Limitar(old(els[k].left), Maximo(larguraPai, old(els[k].largura)))
      && els[k].top == Limitar(old(els[k].top), Maximo(alturaPai, old(els[k].altura)))
      && els[k].dataX == (if old(els[k].dataX).None? then Some(0) else old(els[k].dataX))
      && els[k].dataY == (if old(els[k].dataY).None? then Some(0) else old(els[k].dataY))
      && els[k].transform == (if old(els[k].transform).None? then Some((0, 0)) else old(els[k].transform))
      && els[k].largura == old(els[k].largura) && els[k].altura == old(els[k].altura)
  {
    var i := 0;
    while i < |els|
      invariant 0 <= i <= |els|
      invariant forall k :: 0 <= k < i ==>
        && els[k].left == Limitar(old(els[k].left), Maximo(larguraPai, old(els[k].largura)))
        && els[k].top == Limitar(old(els[k].top), Maximo(alturaPai, old(els[k].altura)))
        && els[k].dataX == (if old(els[k].dataX).None? then Some(0) else old(els[k].dataX))
        && els[k].dataY == (if old(els[k].dataY).None? then Some(0) else old(els[k].dataY))
        && els[k].transform == (if old(els[k].transform).None? then Some((0, 0)) else old(els[k].transform))
        && els[k].largura == old(els[k].largura) && els[k].altura == old(els[k].altura)
      invariant forall k :: i <= k < |els| ==>
        && els[k].left == old(els[k].left) && els[k].top == old(els[k].top)
        && els[k].dataX == old(els[k].dataX) && els[k].dataY == old(els[k].dataY)
        && els[k].transform == old(els[k].transform)
        && els[k].largura == old(els[k].largura) && els[k].altura == old(els[k].altura)
    {
      var el := els[i];
      el.left := Limitar(el.left, Maximo(larguraPai, el.largura));
      el.top := Limitar(el.top, Maximo(alturaPai, el.altura));
      el.TornarArrastavel();
      i := i + 1;
    }
  }
}

=== FILE: construtor_cliente.dfy ===
/** The client-side query builder of static/js/construtor-consulta.js: the
    module-level state `estadoGlobal`, the operations that reset it, pick a
    root table, join related tables and add or remove columns and filters,
    and the JSON payload `renderizarJson` shows.  Values read from the page
    (select and input values, the `data-*` attributes of buttons) are
    parameters, and so is the random id `Math.random().toString(36)` gives a
    new table. */
module ConstrutorCliente {
  import opened Wrappers
  import opened Texto
  import opened EsquemaDados
  import opened Resolvedor

  /** An entry of `tabelasAtivas`; `conexoes` is `conexoes_disponiveis`. */
  datatype TabelaAtiva = TabelaAtiva(
    id: string,
    modelo: string,
    nomeAmigavel: string,
    caminho: string,
    campos: seq<Campo>,
    conexoes: seq<Conexao>,
    tipo: string)

  /** An entry of `colunasEscolhidas`; `etiqueta` and `etiquetaExibida` are
      `label` and `label_display`, `None` standing for `undefined`, and an
      absent `agregacao` is `null`. */
  datatype ColunaEscolhida = ColunaEscolhida(
    tabelaOrigem: string,
    etiqueta: Option<string>,
    etiquetaExibida: Option<string>,
    caminhoFinal: string,
    agregacao: Option<string>)

  /** An entry of `filtrosAtivos`. */
  datatype FiltroAtivo = FiltroAtivo(campo: string, operador: string, valor: string)

  /** A column of the payload: `{campo, label, agregacao}`. */
  datatype ColunaPayload = ColunaPayload(campo: string, etiqueta: Option<string>, agregacao: Option<string>)

  /** The object `renderizarJson` serialises. */
  datatype Payload = Payload(
    fontePrincipal: string,
    colunas: seq<ColunaPayload>,
    filtros: seq<FiltroAtivo>,
    agrupamentos: seq<string>)

  /** The name `iniciarRaiz` gives the root table: schema tables carry no
      `label_tabela`, so the fallback is always taken. */
  const RotuloRaiz: string := "Tabela Principal"

  function IdTabela(t: TabelaAtiva): string { t.id }

  // ---- Where a table of the builder sits in the schema -----------------------

  /** The table reached by following the connections `rota` from
      `entidade`, each one taken from the current table's connection list;
      `None` when a step leaves the schema. */
  function Destino(e: Esquema, entidade: string, rota: seq<Conexao>): (r: Option<string>)
    ensures r.Some? ==> r.value in e
    ensures |rota| == 0 ==> r == (if entidade in e then Some(entidade) else None)
    decreases |rota|
  {
    if entidade !in e then None
    else if |rota| == 0 then Some(entidade)
    else if rota[0] in e[entidade].conexoes then Destino(e, rota[0].modelDestino, rota[1..])
    else None
  }

  /** One more connection of the table reached extends the route. */
  lemma {:induction false} DestinoAnexar(e: Esquema, entidade: string, rota: seq<Conexao>, c: Conexao)
    requires Destino(e, entidade, rota).Some?
    requires c in e[Destino(e, entidade, rota).value].conexoes && c.modelDestino in e
    ensures Destino(e, entidade, rota + [c]) == Some(c.modelDestino)
    decreases |rota|
  {
    if |rota| == 0 {
      assert rota + [c] == [c];
      assert [c][1..] == [];
    } else {
      assert (rota + [c])[1..] == rota[1..] + [c];
      DestinoAnexar(e, rota[0].modelDestino, rota[1..], c);
    }
  }

  /** The path prefix of a table joined through `rota`: every relation name
      followed by "__". */
  function Prefixo(rota: seq<Conexao>): string
    decreases |rota|
  {
    if |rota| == 0 then "" else Prefixo(rota[..|rota| - 1]) + rota[|rota| - 1].campoRelacao + Separador
  }

  /** A joined table's prefix is non-empty and ends in "__". */
  lemma PrefixoTermina(rota: seq<Conexao>)
    requires |rota| > 0
    ensures |Prefixo(rota)| >= 2 && Prefixo(rota)[|Prefixo(rota)| - 2..] == Separador
  {
  }

  /** An active table the builder can have created from root `raiz`: it
      describes a schema table reached from the root by some route, and its
      path is that route's prefix. */
  ghost predicate TabelaAlcancavel(e: Esquema, raiz: string, t: TabelaAtiva) {
    t.modelo in e && t.campos == e[t.modelo].campos && t.conexoes == e[t.modelo].conexoes &&
    exists rota :: Destino(e, raiz, rota) == Some(t.modelo) && t.caminho == Prefixo(rota)
  }

  /** A column that addresses a field of one of the active tables. */
  predicate ColunaDeTabela(tabelas: seq<TabelaAtiva>, c: ColunaEscolhida) {
    exists i, j :: 0 <= i < |tabelas| && 0 <= j < |tabelas[i].campos| &&
      c.caminhoFinal == tabelas[i].caminho + tabelas[i].campos[j].valor
  }

  lemma ColunasMantidas(tabelas: seq<TabelaAtiva>, novas: seq<TabelaAtiva>, cs: seq<ColunaEscolhida>)
    requires |tabelas| <= |novas| && novas[..|tabelas|] == tabelas
    requires forall k :: 0 <= k < |cs| ==> ColunaDeTabela(tabelas, cs[k])
    ensures forall k :: 0 <= k < |cs| ==> ColunaDeTabela(novas, cs[k])
  {
    forall k | 0 <= k < |cs| ensures ColunaDeTabela(novas, cs[k]) {
      var i, j :| 0 <= i < |tabelas| && 0 <= j < |tabelas[i].campos| &&
        cs[k].caminhoFinal == tabelas[i].caminho + tabelas[i].campos[j].valor;
      assert novas[i] == tabelas[i];
    }
  }

  // ---- Page inputs -------------------------------------------------------------

  /** `campoObj.label`: schema fields carry `rotulo`, never `label`, so the
      client reads `undefined`. */
  function EtiquetaCampo(c: Campo): Option<string> {
    None
  }

  /** `agg ? \`${agg} de ${label}\` : label`. */
  function EtiquetaExibida(agregacao: string, etiqueta: Option<string>): Option<string> {
    if agregacao != "" then Some(agregacao + " de " + etiqueta.GetOr("undefined")) else etiqueta
  }

  /** `agg || null`. */
  function AgregacaoOuNulo(agregacao: string): Option<string> {
    if agregacao == "" then None else Some(agregacao)
  }

  /** The column `adicionarColuna` appends for the values read from the page,
      or `None` when it returns early (an empty table index or field) or
      throws (`tab` or `campoObj` undefined). */
  function ColunaNova(tabelas: seq<TabelaAtiva>, indiceTabela: Option<int>, valorCampo: string, agregacao: string): (r: Option<ColunaEscolhida>)
    ensures r.Some? <==>
      indiceTabela.Some? && valorCampo != "" && 0 <= indiceTabela.value < |tabelas| &&
      exists j :: 0 <= j < |tabelas[indiceTabela.value].campos| && tabelas[indiceTabela.value].campos[j].valor == valorCampo
    ensures r.Some? ==>
      var t := tabelas[indiceTabela.value];
      r.value.caminhoFinal == t.caminho + valorCampo && r.value.tabelaOrigem == t.nomeAmigavel &&
      r.value.etiqueta.None? &&
      (agregacao == "" ==> r.value.agregacao.None? && r.value.etiquetaExibida.None?) &&
      (agregacao != "" ==> r.value.agregacao == Some(agregacao) && r.value.etiquetaExibida == Some(agregacao + " de undefined"))
    ensures r.Some? ==> ColunaDeTabela(tabelas, r.value)
  {
    if indiceTabela.None? || valorCampo == "" || !(0 <= indiceTabela.value < |tabelas|) then None
    else
      var t := tabelas[indiceTabela.value];
      match PrimeiroIndice(t.campos, ChaveCampo, valorCampo)
      case None => None
      case Some(j) =>
        var etiqueta := EtiquetaCampo(t.campos[j]);
        assert agregacao + " de " + "undefined" == agregacao + " de undefined";
        Some(ColunaEscolhida(t.nomeAmigavel, etiqueta, EtiquetaExibida(agregacao, etiqueta),
                             t.caminho + valorCampo, AgregacaoOuNulo(agregacao)))
  }

  /** The filter `adicionarFiltro` appends, or `None` when it returns early
      or throws (`tab` undefined).  The field is not checked against the
      table. */
  function FiltroNovo(tabelas: seq<TabelaAtiva>, indiceTabela: Option<int>, valorCampo: string, operador: string, valor: string): (r: Option<FiltroAtivo>)
    ensures r.Some? <==> indiceTabela.Some? && valorCampo != "" && 0 <= indiceTabela.value < |tabelas|
    ensures r.Some? ==> r.value == FiltroAtivo(tabelas[indiceTabela.value].caminho + valorCampo, operador, valor)
  {
    if indiceTabela.None? || valorCampo == "" || !(0 <= indiceTabela.value < |tabelas|) then None
    else Some(FiltroAtivo(tabelas[indiceTabela.value].caminho + valorCampo, operador, valor))
  }

  // ---- Array.prototype.splice(indice, 1) --------------------------------------

  /** Where `splice` starts on a list of length `n`: a negative index counts
      from the end and is clamped at 0, a large one is clamped at `n`. */
  function InicioSplice(n: nat, indice: int): (r: nat)
    ensures r <= n
    ensures 0 <= indice <= n ==> r == indice
    ensures indice > n ==> r == n
    ensures -(n as int) <= indice < 0 ==> r == n + indice
    ensures indice < -(n as int) ==> r == 0
  {
    if indice < 0 then (if n + indice < 0 then 0 else n + indice)
    else if indice > n then n
    else indice
  }

  /** The list after `splice(indice, 1)`. */
  function Removido<T>(s: seq<T>, indice: int): (r: seq<T>)
    ensures InicioSplice(|s|, indice) == |s| ==> r == s
    ensures InicioSplice(|s|, indice) < |s| ==>
      |r| == |s| - 1 &&
      (forall j :: 0 <= j < InicioSplice(|s|, indice) ==> r[j] == s[j]) &&
      (forall j :: InicioSplice(|s|, indice) <= j < |r| ==> r[j] == s[j + 1])
    ensures forall j :: 0 <= j < |r| ==> r[j] in s
  {
    var k := InicioSplice(|s|, indice);
    if k < |s| then s[..k] + s[k + 1..] else s
  }

  /** An index in range removes exactly that element and keeps the rest in
      order. */
  lemma RemovidoNoIntervalo<T>(s: seq<T>, indice: int)
    requires 0 <= indice < |s|
    ensures Removido(s, indice) == s[..indice] + s[indice + 1..]
    ensures multiset(Removido(s, indice)) + multiset{s[indice]} == multiset(s)
  {
    assert s == s[..indice] + [s[indice]] + s[indice + 1..];
  }

  // ---- The payload ---------------------------------------------------------------

  /** `!c.agregacao`. */
  predicate SemAgregacao(c: ColunaEscolhida) {
    c.agregacao.None? || c.agregacao.value == ""
  }

  /** The positions of the columns without aggregation: increasing, and
      exactly those columns. */
  function IndicesSemAgregacao(cs: seq<ColunaEscolhida>): (r: seq<int>)
    ensures forall j :: 0 <= j < |r| ==> 0 <= r[j] < |cs| && SemAgregacao(cs[r[j]])
    ensures forall i, j :: 0 <= i < j < |r| ==> r[i] < r[j]
    ensures forall k :: 0 <= k < |cs| && SemAgregacao(cs[k]) ==> k in r
    decreases |cs|
  {
    if |cs| == 0 then []
    else
      var ini := cs[..|cs| - 1];
      assert forall k :: 0 <= k < |ini| ==> ini[k] == cs[k];
      IndicesSemAgregacao(ini) + (if SemAgregacao(cs[|cs| - 1]) then [|cs| - 1] else [])
  }

  /** `colunasEscolhidas.filter(c => !c.agregacao).map(c => c.path_final)`:
      the paths of the columns without aggregation, in column order, one per
      such column. */
  function Agrupamentos(cs: seq<ColunaEscolhida>): (r: seq<string>)
    ensures |r| <= |cs|
    ensures forall x :: x in r <==> exists k :: 0 <= k < |cs| && SemAgregacao(cs[k]) && cs[k].caminhoFinal == x
    decreases |cs|
  {
    if |cs| == 0 then []
    else
      var ini := cs[..|cs| - 1];
      var c := cs[|cs| - 1];
      assert forall k :: 0 <= k < |ini| ==> ini[k] == cs[k];
      Agrupamentos(ini) + (if SemAgregacao(c) then [c.caminhoFinal] else [])
  }

  /** The grouping list in order: its j-th entry is the path of the j-th
      column without aggregation. */
  lemma {:induction false} AgrupamentosOrdenados(cs: seq<ColunaEscolhida>)
    ensures |Agrupamentos(cs)| == |IndicesSemAgregacao(cs)|
    ensures forall j :: 0 <= j < |Agrupamentos(cs)| ==>
      Agrupamentos(cs)[j] == cs[IndicesSemAgregacao(cs)[j]].caminhoFinal
    decreases |cs|
  {
    if |cs| > 0 {
      var ini := cs[..|cs| - 1];
      assert forall k :: 0 <= k < |ini| ==> ini[k] == cs[k];
      AgrupamentosOrdenados(ini);
    }
  }

  function ColunaDoPayload(c: ColunaEscolhida): ColunaPayload {
    ColunaPayload(c.caminhoFinal, c.etiqueta, c.agregacao)
  }

  // ---- estadoGlobal -----------------------------------------------------------

  /** `estadoGlobal` together with the schema `ESQUEMA_DB` it was loaded
      from. */
  class EstadoConsulta {
    const esquemaDb: Esquema
    var modeloRaiz: string
    var tabelasAtivas: seq<TabelaAtiva>
    var colunasEscolhidas: seq<ColunaEscolhida>
    var filtrosAtivos: seq<FiltroAtivo>

    /** What the builder's own operations keep: every active table is
        reached from the root through schema connections and sits at the
        matching path, and every column names a field of an active table. */
    ghost predicate Valido()
      reads this
    {
      (forall i :: 0 <= i < |tabelasAtivas| ==> TabelaAlcancavel(esquemaDb, modeloRaiz, tabelasAtivas[i])) &&
      forall k :: 0 <= k < |colunasEscolhidas| ==> ColunaDeTabela(tabelasAtivas, colunasEscolhidas[k])
    }

    /** The initial `estadoGlobal` over a loaded schema. */
    constructor (esquemaDb: Esquema)
      ensures this.esquemaDb == esquemaDb
      ensures modeloRaiz == "" && tabelasAtivas == [] && colunasEscolhidas == [] && filtrosAtivos == []
      ensures Valido()
    {
      this.esquemaDb := esquemaDb;
      modeloRaiz := "";
      tabelasAtivas := [];
      colunasEscolhidas := [];
      filtrosAtivos := [];
    }

    /** `redefinirConstrutorConsulta`. */
    method Redefinir()
      modifies this
      ensures modeloRaiz == "" && tabelasAtivas == [] && colunasEscolhidas == [] && filtrosAtivos == []
      ensures Valido()
    {
      modeloRaiz := "";
      tabelasAtivas := [];
      colunasEscolhidas := [];
      filtrosAtivos := [];
    }

    /** `carregarTabela`: appends a table for a schema model, and nothing for
        an unknown one. */
    method CarregarTabela(nomeModelo: string, nomeAmigavel: string, caminhoPrefixo: string, tipo: string, novoId: string)
      modifies this
      ensures nomeModelo !in esquemaDb ==> tabelasAtivas == old(tabelasAtivas)
      ensures nomeModelo in esquemaDb ==>
        tabelasAtivas == old(tabelasAtivas) + [TabelaAtiva(novoId, nomeModelo, nomeAmigavel, caminhoPrefixo,
                                                          esquemaDb[nomeModelo].campos, esquemaDb[nomeModelo].conexoes, tipo)]
      ensures modeloRaiz == old(modeloRaiz) && colunasEscolhidas == old(colunasEscolhidas) && filtrosAtivos == old(filtrosAtivos)
    {
      if nomeModelo !in esquemaDb {
        return;
      }
      var esquema := esquemaDb[nomeModelo];
      tabelasAtivas := tabelasAtivas + [TabelaAtiva(novoId, nomeModelo, nomeAmigavel, caminhoPrefixo,
                                                    esquema.campos, esquema.conexoes, tipo)];
    }

    /** `iniciarRaiz`: a fresh state whose only table is the root, at the
        empty path. */
    method IniciarRaiz(nomeModelo: string, novoId: string)
      modifies this
      ensures modeloRaiz == nomeModelo && colunasEscolhidas == [] && filtrosAtivos == []
      ensures nomeModelo in esquemaDb ==>
        tabelasAtivas == [TabelaAtiva(novoId, nomeModelo, RotuloRaiz, "", esquemaDb[nomeModelo].campos,
                                      esquemaDb[nomeModelo].conexoes, "Raiz")]
      ensures nomeModelo !in esquemaDb ==> tabelasAtivas == []
      ensures Valido()
    {
      modeloRaiz := nomeModelo;
      tabelasAtivas := [];
      colunasEscolhidas := [];
      filtrosAtivos := [];
      CarregarTabela(nomeModelo, RotuloRaiz, "", "Raiz", novoId);
      if nomeModelo in esquemaDb {
        assert Destino(esquemaDb, nomeModelo, []) == Some(nomeModelo) && Prefixo([]) == "";
      }
    }

    /** `isTabelaJaAdicionada`: some active table already sits at the path
        the join would give. */
    predicate TabelaJaAdicionada(caminhoPai: string, campoRel: string)
      reads this
    {
      AlgumaNoCaminho(tabelasAtivas, caminhoPai + campoRel + Separador)
    }

    /** `adicionarJuncao`: finds the parent by id and loads the target of its
        `conexaoIdx`-th connection under the parent's path, the relation name
        and "__".  It does not check whether that path is already loaded. */
    method AdicionarJuncao(tabelaPaiId: string, conexaoIdx: int, novoId: string)
      modifies this
      ensures var pai := Primeiro(old(tabelasAtivas), IdTabela, tabelaPaiId);
        if pai.Some? && 0 <= conexaoIdx < |pai.value.conexoes| && pai.value.conexoes[conexaoIdx].modelDestino in esquemaDb then
          var conn := pai.value.conexoes[conexaoIdx];
          tabelasAtivas == old(tabelasAtivas) + [TabelaAtiva(novoId, conn.modelDestino, conn.nomeAmigavel,
                                                            pai.value.caminho + conn.campoRelacao + Separador,
                                                            esquemaDb[conn.modelDestino].campos,
                                                            esquemaDb[conn.modelDestino].conexoes, "Join")]
          && TabelaJaAdicionada(pai.value.caminho, conn.campoRelacao)
        else tabelasAtivas == old(tabelasAtivas)
      ensures modeloRaiz == old(modeloRaiz) && colunasEscolhidas == old(colunasEscolhidas) && filtrosAtivos == old(filtrosAtivos)
      ensures old(Valido()) ==> Valido()
    {
      ghost var valido := Valido();
      var tabelaPai := BuscarNaLista(tabelasAtivas, IdTabela, tabelaPaiId);
      if tabelaPai.None? {
        return;
      }
      var pai := tabelaPai.value;
      if !(0 <= conexaoIdx < |pai.conexoes|) {
        // `conn` is undefined and reading `conn.campo_relacao` throws.
        return;
      }
      var conn := pai.conexoes[conexaoIdx];
      var prefixo := pai.caminho + conn.campoRelacao + Separador;
      ghost var antes := tabelasAtivas;
      CarregarTabela(conn.modelDestino, conn.nomeAmigavel, prefixo, "Join", novoId);
      if conn.modelDestino in esquemaDb {
        assert tabelasAtivas[|antes|].caminho == prefixo;
        if valido {
          var p := PrimeiroIndice(antes, IdTabela, tabelaPaiId).value;
          assert antes[p] == pai;
          JuncaoAlcancavel(esquemaDb, modeloRaiz, pai, conexaoIdx);
          assert tabelasAtivas[..|antes|] == antes;
          ColunasMantidas(antes, tabelasAtivas, colunasEscolhidas);
        }
      }
    }

    /** `adicionarColuna`. */
    method AdicionarColuna(indiceTabela: Option<int>, valorCampo: string, agregacao: string)
      modifies this
      ensures ColunaNova(old(tabelasAtivas), indiceTabela, valorCampo, agregacao).None? ==>
        colunasEscolhidas == old(colunasEscolhidas)
      ensures ColunaNova(old(tabelasAtivas), indiceTabela, valorCampo, agregacao).Some? ==>
        colunasEscolhidas == old(colunasEscolhidas) + [ColunaNova(old(tabelasAtivas), indiceTabela, valorCampo, agregacao).value]
      ensures modeloRaiz == old(modeloRaiz) && tabelasAtivas == old(tabelasAtivas) && filtrosAtivos == old(filtrosAtivos)
      ensures old(Valido()) ==> Valido()
    {
      if indiceTabela.None? || valorCampo == "" {
        return;
      }
      var i := indiceTabela.value;
      if !(0 <= i < |tabelasAtivas|) {
        // `tab` is undefined and reading `tab.campos` throws.
        return;
      }
      var tab := tabelasAtivas[i];
      var campoObj := BuscarNaLista(tab.campos, ChaveCampo, valorCampo);
      var caminho := tab.caminho + valorCampo;
      if campoObj.None? {
        // `campoObj` is undefined and reading `campoObj.label` throws.
        return;
      }
      var etiqueta := EtiquetaCampo(campoObj.value);
      var etiquetaExibida := if agregacao != "" then Some(agregacao + " de " + etiqueta.GetOr("undefined")) else etiqueta;
      colunasEscolhidas := colunasEscolhidas + [ColunaEscolhida(tab.nomeAmigavel, etiqueta, etiquetaExibida, caminho,
                                                                if agregacao != "" then Some(agregacao) else None)];
    }

    /** `removerColuna`: `colunasEscolhidas.splice(index, 1)`; the filters on
        that column stay. */
    method RemoverColuna(indice: int)
      modifies this
      ensures colunasEscolhidas == Removido(old(colunasEscolhidas), indice)
      ensures modeloRaiz == old(modeloRaiz) && tabelasAtivas == old(tabelasAtivas) && filtrosAtivos == old(filtrosAtivos)
      ensures old(Valido()) ==> Valido()
    {
      colunasEscolhidas := Removido(colunasEscolhidas, indice);
    }

    /** `adicionarFiltro`. */
    method AdicionarFiltro(indiceTabela: Option<int>, valorCampo: string, operador: string, valor: string)
      modifies this
      ensures FiltroNovo(old(tabelasAtivas), indiceTabela, valorCampo, operador, valor).None? ==>
        filtrosAtivos == old(filtrosAtivos)
      ensures FiltroNovo(old(tabelasAtivas), indiceTabela, valorCampo, operador, valor).Some? ==>
        filtrosAtivos == old(filtrosAtivos) + [FiltroNovo(old(tabelasAtivas), indiceTabela, valorCampo, operador, valor).value]
      ensures modeloRaiz == old(modeloRaiz) && tabelasAtivas == old(tabelasAtivas) && colunasEscolhidas == old(colunasEscolhidas)
      ensures old(Valido()) ==> Valido()
    {
      if indiceTabela.None? || valorCampo == "" {
        return;
      }
      var i := indiceTabela.value;
      if !(0 <= i < |tabelasAtivas|) {
        // `tab` is undefined and reading `tab.caminho` throws.
        return;
      }
      var tab := tabelasAtivas[i];
      filtrosAtivos := filtrosAtivos + [FiltroAtivo(tab.caminho + valorCampo, operador, valor)];
    }

    /** `removerFiltro`: `filtrosAtivos.splice(index, 1)`. */
    method RemoverFiltro(indice: int)
      modifies this
      ensures filtrosAtivos == Removido(old(filtrosAtivos), indice)
      ensures modeloRaiz == old(modeloRaiz) && tabelasAtivas == old(tabelasAtivas) && colunasEscolhidas == old(colunasEscolhidas)
      ensures old(Valido()) ==> Valido()
    {
      filtrosAtivos := Removido(filtrosAtivos, indice);
    }

    /** The payload of `renderizarJson`: the root, one entry per chosen
        column and per filter, in order, and the paths of the columns
        without aggregation. */
    function PayloadAtual(): (p: Payload)
      reads this
      ensures p.fontePrincipal == modeloRaiz
      ensures |p.colunas| == |colunasEscolhidas|
      ensures forall k :: 0 <= k < |p.colunas| ==>
        p.colunas[k].campo == colunasEscolhidas[k].caminhoFinal &&
        p.colunas[k].etiqueta == colunasEscolhidas[k].etiqueta &&
        p.colunas[k].agregacao == colunasEscolhidas[k].agregacao
      ensures p.filtros == filtrosAtivos
      ensures |p.agrupamentos| == |IndicesSemAgregacao(colunasEscolhidas)|
      ensures forall j :: 0 <= j < |p.agrupamentos| ==>
        p.agrupamentos[j] == colunasEscolhidas[IndicesSemAgregacao(colunasEscolhidas)[j]].caminhoFinal
      ensures forall x :: x in p.agrupamentos <==>
        exists k :: 0 <= k < |colunasEscolhidas| && SemAgregacao(colunasEscolhidas[k]) && colunasEscolhidas[k].caminhoFinal == x
    {
      AgrupamentosOrdenados(colunasEscolhidas);
      Payload(modeloRaiz,
              seq(|colunasEscolhidas|, k requires 0 <= k < |colunasEscolhidas| reads this => ColunaDoPayload(colunasEscolhidas[k])),
              seq(|filtrosAtivos|, k requires 0 <= k < |filtrosAtivos| reads this => filtrosAtivos[k]),
              Agrupamentos(colunasEscolhidas))
    }
  }

  /** `tabelasAtivas.some(t => t.caminho === check)`. */
  function AlgumaNoCaminho(tabelas: seq<TabelaAtiva>, caminho: string): (r: bool)
    ensures r <==> exists i :: 0 <= i < |tabelas| && tabelas[i].caminho == caminho
    decreases |tabelas|
  {
    if |tabelas| == 0 then false
    else if tabelas[0].caminho == caminho then true
    else
      var r := AlgumaNoCaminho(tabelas[1..], caminho);
      assert forall i :: 1 <= i < |tabelas| ==> tabelas[i] == tabelas[1..][i - 1];
      r
  }

  /** A table joined under a reachable parent is itself reachable. */
  lemma JuncaoAlcancavel(e: Esquema, raiz: string, pai: TabelaAtiva, conexaoIdx: int)
    requires TabelaAlcancavel(e, raiz, pai)
    requires 0 <= conexaoIdx < |pai.conexoes| && pai.conexoes[conexaoIdx].modelDestino in e
    ensures var conn := pai.conexoes[conexaoIdx];
      forall id, nome, tipo ::
        TabelaAlcancavel(e, raiz, TabelaAtiva(id, conn.modelDestino, nome, pai.caminho + conn.campoRelacao + Separador,
                                              e[conn.modelDestino].campos, e[conn.modelDestino].conexoes, tipo))
  {
    var conn := pai.conexoes[conexaoIdx];
    var rota :| Destino(e, raiz, rota) == Some(pai.modelo) && pai.caminho == Prefixo(rota);
    DestinoAnexar(e, raiz, rota, conn);
    assert (rota + [conn])[..|rota|] == rota;
    assert Prefixo(rota + [conn]) == pai.caminho + conn.campoRelacao + Separador;
  }
}

=== FILE: consulta.dfy ===
/** The server-side query builder `ConstrutorConsulta` of
    relatorio_dinamico/construtores.py and its older variant in
    relatorio_dinamico/utils.py.  The Django ORM is replaced by plain data: a
    `Q(**{chave: valor})` is a `Lookup`, and the queryset is a `Consulta`
    record of its filters, grouping, metrics, selection, ordering and limit. */
module ConsultaServidor {
  import opened Wrappers
  import opened Texto
  import opened EsquemaDados
  import opened Resolvedor
  import opened Dicionario
  import opened Lotes

  /** `LIMITE_MAXIMO`. */
  const LimiteMaximo: nat := 1000

  /** The keys of `MAPA_AGREGACAO`. */
  const FuncoesAgregacao: set<string> := {"Count", "Sum", "Avg", "Min", "Max"}

  /** A JSON value of the request, or a value of a result row. `Data` is a
      date or datetime object (it has `strftime`); `Formatado(d, f)` stands
      for the string `d.strftime(f)`. */
  datatype Valor =
    | Nulo
    | Logico(b: bool)
    | Inteiro(n: int)
    | Real(x: real)
    | Cadeia(s: string)
    | Data(iso: string)
    | Formatado(data: string, formato: string)
    | Lista(itens: seq<Valor>)

  /** Python truthiness. */
  predicate Verdadeiro(v: Valor) {
    match v
    case Nulo => false
    case Logico(b) => b
    case Inteiro(n) => n != 0
    case Real(x) => x != 0.0
    case Cadeia(s) => |s| > 0
    case Data(_) => true
    case Formatado(_, _) => true
    case Lista(itens) => |itens| > 0
  }

  /** Which of the two classes: construtores.py (`Atual`) or utils.py
      (`Legada`). */
  datatype Variante = Atual | Legada {
    /** The field type whose string filter values become booleans and whose
        cells become "Sim"/"Não". */
    function TipoLogico(): string {
      if Atual? then "bool" else "boolean"
    }
  }

  /** A requested column; `rotulo` and `etiqueta` are its `rotulo` and
      `label` keys. */
  datatype ColunaConfig = ColunaConfig(campo: string, rotulo: Option<string>, etiqueta: Option<string>, agregacao: Option<string>)
  datatype FiltroConfig = FiltroConfig(campo: string, operador: string, valor: Valor)
  datatype OrdenacaoConfig = OrdenacaoConfig(campo: string, ordem: Option<string>)

  /** The request JSON; absent lists are empty and an absent `limite` is
      `Nulo`. */
  datatype ConfigConsulta = ConfigConsulta(
    fontePrincipal: Option<string>,
    colunas: seq<ColunaConfig>,
    filtros: seq<FiltroConfig>,
    ordenacoes: seq<OrdenacaoConfig>,
    limite: Valor)

  /** `Q(**{chave: valor})`. */
  datatype Lookup = Lookup(chave: string, valor: Valor)

  /** `MAPA_AGREGACAO[funcao](caminho, distinct=...)`. */
  datatype Metrica = Metrica(funcao: string, caminho: string, distinct: bool)

  /** An entry of the output map: which result key, under which label, of
      which type. */
  datatype ItemSaida = ItemSaida(chaveDb: string, rotulo: string, tipo: string)

  /** What column processing has built so far: grouping fields, metrics by
      alias, the alias of each aggregated column (construtores.py only reads
      it) and the output map. */
  datatype Colunas = Colunas(
    dimensoes: seq<string>,
    metricas: Dict<Metrica>,
    apelidos: map<string, string>,
    saida: seq<ItemSaida>)

  /** The queryset: `filter`, `values` (grouping), `annotate`, the final
      `values`, `distinct`, `order_by` and the slice. */
  datatype Consulta = Consulta(
    filtros: seq<Lookup>,
    agrupamento: seq<string>,
    metricas: Dict<Metrica>,
    selecao: seq<string>,
    distinct: bool,
    ordenacao: seq<string>,
    limite: Option<nat>)

  type Linha = Dict<Valor>

  // ---- Construction -------------------------------------------------------

  /** The checks of `__init__`: the root must be a schema key and its
      `app_model` a registered Django model (`modelos`). */
  function RaizValidada(e: Esquema, cfg: ConfigConsulta, modelos: set<string>): (r: Result<string, Erro>)
    ensures r.Ok? <==> cfg.fontePrincipal.Some? && cfg.fontePrincipal.value in e
                       && e[cfg.fontePrincipal.value].appModel in modelos
    ensures r.Ok? ==> r.value == cfg.fontePrincipal.value
    ensures r.Err? && (cfg.fontePrincipal.None? || cfg.fontePrincipal.value !in e) ==> r.error == RaizInvalida(cfg.fontePrincipal)
    ensures r.Err? && r.error.ModeloNaoEncontrado? ==> r.error.appModel !in modelos
  {
    match cfg.fontePrincipal
    case None => Err(RaizInvalida(None))
    case Some(nome) =>
      if nome !in e then Err(RaizInvalida(Some(nome)))
      else if e[nome].appModel !in modelos then Err(ModeloNaoEncontrado(e[nome].appModel))
      else Ok(nome)
  }

  // ---- Filters ------------------------------------------------------------

  /** String values on a boolean field become `valor.lower() == 'true'`. */
  function ValorFiltro(v: Variante, tipo: string, valor: Valor): (r: Valor)
    ensures tipo != v.TipoLogico() || !valor.Cadeia? ==> r == valor
    ensures tipo == v.TipoLogico() && valor.Cadeia? ==> r == Logico(Minusculas(valor.s) == "true")
  {
    if tipo == v.TipoLogico() && valor.Cadeia? then Logico(Minusculas(valor.s) == "true") else valor
  }

  function FiltroConstruido(e: Esquema, raiz: string, v: Variante, f: FiltroConfig): Result<Lookup, Erro> {
    match CaminhoResolvido(e, raiz, f.campo)
    case Err(m) => Err(m)
    case Ok((caminho, tipo)) => Ok(Lookup(caminho + Separador + f.operador, ValorFiltro(v, tipo, f.valor)))
  }

  function FiltroDe(e: Esquema, raiz: string, v: Variante): FiltroConfig -> Result<Lookup, Erro> {
    f => FiltroConstruido(e, raiz, v, f)
  }

  /** `_construir_filtros`: one lookup per filter, in order; the first
      filter whose path fails stops the build. */
  function FiltrosConstruidos(e: Esquema, raiz: string, v: Variante, fs: seq<FiltroConfig>): Result<seq<Lookup>, Erro> {
    MapearAteErro(FiltroDe(e, raiz, v), fs)
  }

  /** A built lookup's key is the requested path, "__" and the operator. */
  lemma FiltroConstruidoChave(e: Esquema, raiz: string, v: Variante, f: FiltroConfig)
    ensures FiltroConstruido(e, raiz, v, f).Ok? <==> CaminhoResolvido(e, raiz, f.campo).Ok?
    ensures FiltroConstruido(e, raiz, v, f).Ok? ==>
      FiltroConstruido(e, raiz, v, f).value
        == Lookup(f.campo + "__" + f.operador, ValorFiltro(v, CaminhoResolvido(e, raiz, f.campo).value.1, f.valor))
  {
    CaminhoResolvidoDevolveEntrada(e, raiz, f.campo);
  }

  /** The filters build iff every filter path resolves; then there is one
      lookup per filter, in order, keyed by the requested path, "__" and the
      operator; otherwise the error is that of the first failing path. */
  lemma FiltrosConstruidosSe(e: Esquema, raiz: string, v: Variante, fs: seq<FiltroConfig>)
    ensures FiltrosConstruidos(e, raiz, v, fs).Ok?
        <==> forall i :: 0 <= i < |fs| ==> CaminhoResolvido(e, raiz, fs[i].campo).Ok?
    ensures FiltrosConstruidos(e, raiz, v, fs).Ok? ==>
      var r := FiltrosConstruidos(e, raiz, v, fs).value;
      |r| == |fs| &&
      forall i :: 0 <= i < |fs| ==>
        r[i] == Lookup(fs[i].campo + "__" + fs[i].operador,
                       ValorFiltro(v, CaminhoResolvido(e, raiz, fs[i].campo).value.1, fs[i].valor))
    ensures FiltrosConstruidos(e, raiz, v, fs).Err? ==>
      exists i :: 0 <= i < |fs| && CaminhoResolvido(e, raiz, fs[i].campo) == Err(FiltrosConstruidos(e, raiz, v, fs).error)
  {
    MapearAteErroSe(FiltroDe(e, raiz, v), fs);
    forall i | 0 <= i < |fs| {
      FiltroConstruidoChave(e, raiz, v, fs[i]);
    }
  }

  /** `_construir_filtros` of either variant. */
  method ConstruirFiltros(e: Esquema, raiz: string, v: Variante, fs: seq<FiltroConfig>) returns (r: Result<seq<Lookup>, Erro>)
    ensures r == FiltrosConstruidos(e, raiz, v, fs)
  {
    var listaQ: seq<Lookup> := [];
    var i := 0;
    while i < |fs|
      invariant 0 <= i <= |fs|
      invariant FiltrosConstruidos(e, raiz, v, fs[..i]) == Ok(listaQ)
    {
      assert fs[..i + 1][..i] == fs[..i];
      var resolvido := ResolverCaminho(e, raiz, fs[i].campo);
      if resolvido.Err? {
        MapearFalhaPrefixo(FiltroDe(e, raiz, v), fs, i + 1);
        return Err(resolvido.error);
      }
      var (caminhoOrm, tipoCampo) := resolvido.value;
      var valor := fs[i].valor;
      if tipoCampo == v.TipoLogico() && valor.Cadeia? {
        valor := Logico(Minusculas(valor.s) == "true");
      }
      listaQ := listaQ + [Lookup(caminhoOrm + Separador + fs[i].operador, valor)];
      i := i + 1;
    }
    assert fs[..i] == fs;
    return Ok(listaQ);
  }

  // ---- Columns ------------------------------------------------------------

  /** `if func_agregacao:` — a present, non-empty aggregation. */
  predicate Agregada(c: ColunaConfig) {
    c.agregacao.Some? && c.agregacao.value != ""
  }

  /** The output label: `rotulo` (construtores.py) or `label` (utils.py),
      falling back to the path. */
  function RotuloColuna(v: Variante, c: ColunaConfig): string {
    if v.Atual? then c.rotulo.GetOr(c.campo) else c.etiqueta.GetOr(c.campo)
  }

  /** The metric alias: the path with "__" replaced by "_", then "_" and the
      lowercased function name. */
  function Apelido(caminho: string, funcao: string): string {
    SubstituirTodos(caminho, Separador, "_") + "_" + Minusculas(funcao)
  }

  /** For a path made of separable segments the alias joins them with "_". */
  lemma ApelidoDeSegmentos(partes: seq<string>, funcao: string)
    requires SegmentosSeparaveis(partes)
    ensures Apelido(Juntar(partes, Separador), funcao) == Juntar(partes, "_") + "_" + Minusculas(funcao)
  {
    SubstituirJuntar(partes, "_");
  }

  function PassoColuna(e: Esquema, raiz: string, v: Variante, acc: Colunas, c: ColunaConfig): Result<Colunas, Erro> {
    match CaminhoResolvido(e, raiz, c.campo)
    case Err(m) => Err(m)
    case Ok((caminho, tipo)) =>
      var rotulo := RotuloColuna(v, c);
      if Agregada(c) then
        var funcao := c.agregacao.value;
        if funcao !in FuncoesAgregacao then Err(AgregacaoInvalida(funcao))
        else
          var apelido := Apelido(caminho, funcao);
          Ok(Colunas(acc.dimensoes,
                     Inserir(acc.metricas, apelido, Metrica(funcao, caminho, v.Atual?)),
                     acc.apelidos[c.campo := apelido],
                     acc.saida + [ItemSaida(apelido, rotulo, "number")]))
      else
        Ok(acc.(dimensoes := acc.dimensoes + [caminho], saida := acc.saida + [ItemSaida(caminho, rotulo, tipo)]))
  }

  function PassoDe(e: Esquema, raiz: string, v: Variante): (Colunas, ColunaConfig) -> Result<Colunas, Erro> {
    (acc, c) => PassoColuna(e, raiz, v, acc, c)
  }

  /** The column loop: the state reached and, if a column failed, its error
      (the state then holds everything done before that column). */
  function Processar(e: Esquema, raiz: string, v: Variante, acc: Colunas, cs: seq<ColunaConfig>): (Colunas, Option<Erro>) {
    AcumularAteErro(PassoDe(e, raiz, v), acc, cs)
  }

  const ColunasVazias := Colunas([], [], map[], [])

  /** `_processar_colunas` (construtores.py, which first rejects an empty
      column list) or the column loop of `executar` (utils.py), from the
      given state. */
  function ColunasProcessadas(e: Esquema, raiz: string, v: Variante, acc: Colunas, cs: seq<ColunaConfig>): (Colunas, Option<Erro>) {
    if v.Atual? && |cs| == 0 then (acc, Some(SemColunas)) else Processar(e, raiz, v, acc, cs)
  }

  /** A column the loop accepts. */
  predicate ColunaValida(e: Esquema, raiz: string, c: ColunaConfig) {
    CaminhoResolvido(e, raiz, c.campo).Ok? && (Agregada(c) ==> c.agregacao.value in FuncoesAgregacao)
  }

  /** The output entry a column yields. */
  predicate ItemDaColuna(e: Esquema, raiz: string, v: Variante, c: ColunaConfig, item: ItemSaida)
    requires ColunaValida(e, raiz, c)
  {
    item.rotulo == RotuloColuna(v, c) &&
    if Agregada(c) then item.chaveDb == Apelido(c.campo, c.agregacao.value) && item.tipo == "number"
    else item.chaveDb == c.campo && item.tipo == CaminhoResolvido(e, raiz, c.campo).value.1
  }

  /** The paths of the non-aggregated columns, in order. */
  function CamposDimensao(cs: seq<ColunaConfig>): seq<string> {
    if |cs| == 0 then []
    else CamposDimensao(cs[..|cs| - 1]) + (if Agregada(cs[|cs| - 1]) then [] else [cs[|cs| - 1].campo])
  }

  /** A column step succeeds iff the column is valid, whatever was built
      before it. */
  lemma PassoColunaSe(e: Esquema, raiz: string, v: Variante, acc: Colunas, c: ColunaConfig)
    ensures PassoColuna(e, raiz, v, acc, c).Ok? <==> ColunaValida(e, raiz, c)
  {
  }

  /** A successful step appends the column's output entry. */
  lemma PassoColunaSaida(e: Esquema, raiz: string, v: Variante, acc: Colunas, c: ColunaConfig)
    requires PassoColuna(e, raiz, v, acc, c).Ok?
    ensures ColunaValida(e, raiz, c)
    ensures PassoColuna(e, raiz, v, acc, c).value.saida == acc.saida + [PassoColuna(e, raiz, v, acc, c).value.saida[|acc.saida|]]
    ensures ItemDaColuna(e, raiz, v, c, PassoColuna(e, raiz, v, acc, c).value.saida[|acc.saida|])
  {
    CaminhoResolvidoDevolveEntrada(e, raiz, c.campo);
  }

  /** A successful step extends the grouping list by a non-aggregated path
      and records an aggregated column's alias among the metric keys. */
  lemma PassoColunaMetricas(e: Esquema, raiz: string, v: Variante, acc: Colunas, c: ColunaConfig)
    requires PassoColuna(e, raiz, v, acc, c).Ok?
    ensures var a := PassoColuna(e, raiz, v, acc, c).value;
      a.dimensoes == acc.dimensoes + (if Agregada(c) then [] else [c.campo]) &&
      (Agregada(c) ==> Apelido(c.campo, c.agregacao.value) in Chaves(a.metricas)) &&
      (forall k :: k in Chaves(acc.metricas) ==> k in Chaves(a.metricas)) &&
      (ChavesDistintas(acc.metricas) ==> ChavesDistintas(a.metricas))
  {
    CaminhoResolvidoDevolveEntrada(e, raiz, c.campo);
    if Agregada(c) {
      var caminho := CaminhoResolvido(e, raiz, c.campo).value.0;
      var funcao := c.agregacao.value;
      InserirSe(acc.metricas, Apelido(caminho, funcao), Metrica(funcao, caminho, v.Atual?));
      if ChavesDistintas(acc.metricas) {
        InserirMantemDistintas(acc.metricas, Apelido(caminho, funcao), Metrica(funcao, caminho, v.Atual?));
      }
    }
  }

  lemma ProcessarOkSe(e: Esquema, raiz: string, v: Variante, acc: Colunas, cs: seq<ColunaConfig>)
    ensures Processar(e, raiz, v, acc, cs).1.None? <==> forall i :: 0 <= i < |cs| ==> ColunaValida(e, raiz, cs[i])
  {
    forall t, c ensures PassoDe(e, raiz, v)(t, c).Ok? <==> ColunaValida(e, raiz, c) {
      PassoColunaSe(e, raiz, v, t, c);
    }
    AcumularOkSe(PassoDe(e, raiz, v), c => ColunaValida(e, raiz, c), acc, cs);
  }

  /** What the output map holds after the columns `ys` were processed from
      `acc`. */
  predicate SaidaDasColunas(e: Esquema, raiz: string, v: Variante, acc: Colunas, ys: seq<ColunaConfig>, a: Colunas) {
    |a.saida| == |acc.saida| + |ys| && a.saida[..|acc.saida|] == acc.saida &&
    forall i :: 0 <= i < |ys| ==> ColunaValida(e, raiz, ys[i]) && ItemDaColuna(e, raiz, v, ys[i], a.saida[|acc.saida| + i])
  }

  lemma PassoPreservaSaida(e: Esquema, raiz: string, v: Variante, acc: Colunas, ys: seq<ColunaConfig>, c: ColunaConfig, t: Colunas)
    requires SaidaDasColunas(e, raiz, v, acc, ys, t)
    requires PassoColuna(e, raiz, v, t, c).Ok?
    ensures SaidaDasColunas(e, raiz, v, acc, ys + [c], PassoColuna(e, raiz, v, t, c).value)
  {
    PassoColunaSaida(e, raiz, v, t, c);
    var a := PassoColuna(e, raiz, v, t, c).value;
    var zs := ys + [c];
    forall i | 0 <= i < |zs| ensures ColunaValida(e, raiz, zs[i]) && ItemDaColuna(e, raiz, v, zs[i], a.saida[|acc.saida| + i]) {
      if i < |ys| {
        assert zs[i] == ys[i];
        assert a.saida[|acc.saida| + i] == t.saida[|acc.saida| + i];
      }
    }
  }

  lemma ProcessarSaida(e: Esquema, raiz: string, v: Variante, acc: Colunas, cs: seq<ColunaConfig>)
    requires Processar(e, raiz, v, acc, cs).1.None?
    ensures SaidaDasColunas(e, raiz, v, acc, cs, Processar(e, raiz, v, acc, cs).0)
  {
    var inv := (ys, a) => SaidaDasColunas(e, raiz, v, acc, ys, a);
    forall ys, c, t | inv(ys, t) && PassoDe(e, raiz, v)(t, c).Ok?
      ensures inv(ys + [c], PassoDe(e, raiz, v)(t, c).value)
    {
      PassoPreservaSaida(e, raiz, v, acc, ys, c, t);
    }
    AcumularInvariante(PassoDe(e, raiz, v), inv, acc, cs);
  }

  /** The grouping list and the metric keys after the columns `ys`. */
  predicate DimensoesDasColunas(acc: Colunas, ys: seq<ColunaConfig>, a: Colunas) {
    a.dimensoes == acc.dimensoes + CamposDimensao(ys) &&
    (ChavesDistintas(acc.metricas) ==> ChavesDistintas(a.metricas))
  }

  lemma PassoPreservaDimensoes(e: Esquema, raiz: string, v: Variante, acc: Colunas, ys: seq<ColunaConfig>, c: ColunaConfig, t: Colunas)
    requires DimensoesDasColunas(acc, ys, t)
    requires PassoColuna(e, raiz, v, t, c).Ok?
    ensures DimensoesDasColunas(acc, ys + [c], PassoColuna(e, raiz, v, t, c).value)
  {
    PassoColunaMetricas(e, raiz, v, t, c);
    var zs := ys + [c];
    assert zs[..|zs| - 1] == ys;
  }

  lemma ProcessarDimensoes(e: Esquema, raiz: string, v: Variante, acc: Colunas, cs: seq<ColunaConfig>)
    requires Processar(e, raiz, v, acc, cs).1.None?
    ensures DimensoesDasColunas(acc, cs, Processar(e, raiz, v, acc, cs).0)
  {
    var inv := (ys, a) => DimensoesDasColunas(acc, ys, a);
    forall ys, c, t | inv(ys, t) && PassoDe(e, raiz, v)(t, c).Ok?
      ensures inv(ys + [c], PassoDe(e, raiz, v)(t, c).value)
    {
      PassoPreservaDimensoes(e, raiz, v, acc, ys, c, t);
    }
    AcumularInvariante(PassoDe(e, raiz, v), inv, acc, cs);
  }

  /** The column loop finishes iff every column is valid; it then yields one
      output entry per column in column order, the grouping paths of the
      non-aggregated columns in order, and a metric for every alias. */
  lemma ProcessarSe(e: Esquema, raiz: string, v: Variante, acc: Colunas, cs: seq<ColunaConfig>)
    ensures Processar(e, raiz, v, acc, cs).1.None? <==> forall i :: 0 <= i < |cs| ==> ColunaValida(e, raiz, cs[i])
    ensures Processar(e, raiz, v, acc, cs).1.None? ==>
      var a := Processar(e, raiz, v, acc, cs).0;
      |a.saida| == |acc.saida| + |cs| && a.saida[..|acc.saida|] == acc.saida &&
      (forall i :: 0 <= i < |cs| ==> ItemDaColuna(e, raiz, v, cs[i], a.saida[|acc.saida| + i])) &&
      a.dimensoes == acc.dimensoes + CamposDimensao(cs) &&
      (forall i :: 0 <= i < |cs| && Agregada(cs[i]) ==> Apelido(cs[i].campo, cs[i].agregacao.value) in Chaves(a.metricas)) &&
      (ChavesDistintas(acc.metricas) ==> ChavesDistintas(a.metricas))
  {
    ProcessarOkSe(e, raiz, v, acc, cs);
    if Processar(e, raiz, v, acc, cs).1.None? {
      ProcessarSaida(e, raiz, v, acc, cs);
      ProcessarDimensoes(e, raiz, v, acc, cs);
      ProcessarMetricas(e, raiz, v, acc, cs);
      ApelidosDasColunasContem(Chaves(acc.metricas), cs);
    }
  }

  /** The metric keys after the aggregated columns of `cs` were added to the
      keys `ks`: each column's alias, at its first appearance only. */
  function ApelidosDasColunas(ks: seq<string>, cs: seq<ColunaConfig>): seq<string>
    decreases |cs|
  {
    if |cs| == 0 then ks
    else
      var ini := ApelidosDasColunas(ks, cs[..|cs| - 1]);
      var c := cs[|cs| - 1];
      if Agregada(c) && Apelido(c.campo, c.agregacao.value) !in ini
      then ini + [Apelido(c.campo, c.agregacao.value)]
      else ini
  }

  /** The fields of the aggregated columns. */
  function CamposAgregados(cs: seq<ColunaConfig>): set<string>
    decreases |cs|
  {
    if |cs| == 0 then {}
    else CamposAgregados(cs[..|cs| - 1]) + (if Agregada(cs[|cs| - 1]) then {cs[|cs| - 1].campo} else {})
  }

  /** From no keys, the metric keys are the aliases of the aggregated
      columns, each once. */
  lemma {:induction false} ApelidosDasColunasSe(cs: seq<ColunaConfig>)
    ensures forall i, j :: 0 <= i < j < |ApelidosDasColunas([], cs)| ==>
      ApelidosDasColunas([], cs)[i] != ApelidosDasColunas([], cs)[j]
    ensures forall k :: k in ApelidosDasColunas([], cs) <==>
      exists i :: 0 <= i < |cs| && Agregada(cs[i]) && k == Apelido(cs[i].campo, cs[i].agregacao.value)
    decreases |cs|
  {
    if |cs| > 0 {
      var ini := cs[..|cs| - 1];
      ApelidosDasColunasSe(ini);
      forall k ensures k in ApelidosDasColunas([], cs) <==>
        exists i :: 0 <= i < |cs| && Agregada(cs[i]) && k == Apelido(cs[i].campo, cs[i].agregacao.value)
      {
        if k in ApelidosDasColunas([], ini) {
          var i :| 0 <= i < |ini| && Agregada(ini[i]) && k == Apelido(ini[i].campo, ini[i].agregacao.value);
          assert cs[i] == ini[i];
        }
        if exists i :: 0 <= i < |cs| && Agregada(cs[i]) && k == Apelido(cs[i].campo, cs[i].agregacao.value) {
          var i :| 0 <= i < |cs| && Agregada(cs[i]) && k == Apelido(cs[i].campo, cs[i].agregacao.value);
          if i < |ini| {
            assert ini[i] == cs[i];
          }
        }
      }
    }
  }

  /** A field is among the aggregated ones iff some aggregated column names
      it. */
  lemma {:induction false} CamposAgregadosSe(cs: seq<ColunaConfig>, k: string)
    ensures k in CamposAgregados(cs) <==> exists i :: 0 <= i < |cs| && Agregada(cs[i]) && cs[i].campo == k
    decreases |cs|
  {
    if |cs| > 0 {
      var ini := cs[..|cs| - 1];
      CamposAgregadosSe(ini, k);
      if k in CamposAgregados(ini) {
        var i :| 0 <= i < |ini| && Agregada(ini[i]) && ini[i].campo == k;
        assert cs[i] == ini[i];
      }
      if exists i :: 0 <= i < |cs| && Agregada(cs[i]) && cs[i].campo == k {
        var i :| 0 <= i < |cs| && Agregada(cs[i]) && cs[i].campo == k;
        if i < |ini| {
          assert ini[i] == cs[i];
        }
      }
    }
  }

  /** The keys after the columns keep the earlier keys and hold the alias
      of every aggregated column. */
  lemma {:induction false} ApelidosDasColunasContem(ks: seq<string>, cs: seq<ColunaConfig>)
    ensures forall k :: k in ks ==> k in ApelidosDasColunas(ks, cs)
    ensures forall i :: 0 <= i < |cs| && Agregada(cs[i]) ==>
      Apelido(cs[i].campo, cs[i].agregacao.value) in ApelidosDasColunas(ks, cs)
    decreases |cs|
  {
    if |cs| > 0 {
      var ini := cs[..|cs| - 1];
      ApelidosDasColunasContem(ks, ini);
      forall i | 0 <= i < |cs| && Agregada(cs[i])
        ensures Apelido(cs[i].campo, cs[i].agregacao.value) in ApelidosDasColunas(ks, cs)
      {
        if i < |ini| {
          assert ini[i] == cs[i];
        }
      }
    }
  }

  /** The metric keys and the aliased fields after the columns `ys`. */
  predicate MetricasDasColunas(acc: Colunas, ys: seq<ColunaConfig>, a: Colunas) {
    Chaves(a.metricas) == ApelidosDasColunas(Chaves(acc.metricas), ys) &&
    a.apelidos.Keys == acc.apelidos.Keys + CamposAgregados(ys)
  }

  lemma PassoPreservaMetricas(e: Esquema, raiz: string, v: Variante, acc: Colunas, ys: seq<ColunaConfig>, c: ColunaConfig, t: Colunas)
    requires MetricasDasColunas(acc, ys, t)
    requires PassoColuna(e, raiz, v, t, c).Ok?
    ensures MetricasDasColunas(acc, ys + [c], PassoColuna(e, raiz, v, t, c).value)
  {
    CaminhoResolvidoDevolveEntrada(e, raiz, c.campo);
    var zs := ys + [c];
    assert zs[..|zs| - 1] == ys;
    if Agregada(c) {
      var caminho := CaminhoResolvido(e, raiz, c.campo).value.0;
      var funcao := c.agregacao.value;
      InserirSe(t.metricas, Apelido(caminho, funcao), Metrica(funcao, caminho, v.Atual?));
    }
  }

  /** The column loop leaves as metric keys the aliases of the aggregated
      columns in first-appearance order, and records an alias for exactly
      the aggregated fields. */
  lemma ProcessarMetricas(e: Esquema, raiz: string, v: Variante, acc: Colunas, cs: seq<ColunaConfig>)
    requires Processar(e, raiz, v, acc, cs).1.None?
    ensures MetricasDasColunas(acc, cs, Processar(e, raiz, v, acc, cs).0)
  {
    var inv := (ys, a) => MetricasDasColunas(acc, ys, a);
    forall ys, c, t | inv(ys, t) && PassoDe(e, raiz, v)(t, c).Ok?
      ensures inv(ys + [c], PassoDe(e, raiz, v)(t, c).value)
    {
      PassoPreservaMetricas(e, raiz, v, acc, ys, c, t);
    }
    AcumularInvariante(PassoDe(e, raiz, v), inv, acc, cs);
  }

  /** The metric the columns leave under the key `k`: `metricas[apelido]`
      is assigned once per aggregated column, so the last aggregated column
      whose alias is `k` decides it. */
  function MetricaNaChave(cs: seq<ColunaConfig>, k: string, distinct: bool): Option<Metrica>
    decreases |cs|
  {
    if |cs| == 0 then None
    else
      var c := cs[|cs| - 1];
      if Agregada(c) && Apelido(c.campo, c.agregacao.value) == k
      then Some(Metrica(c.agregacao.value, c.campo, distinct))
      else MetricaNaChave(cs[..|cs| - 1], k, distinct)
  }

  /** The key `k` holds the aggregate of the last aggregated column whose
      alias is `k`, over that column's path. */
  lemma {:induction false} MetricaNaChaveSe(cs: seq<ColunaConfig>, k: string, distinct: bool, i: int)
    requires 0 <= i < |cs| && Agregada(cs[i]) && Apelido(cs[i].campo, cs[i].agregacao.value) == k
    requires forall j :: i < j < |cs| ==> !(Agregada(cs[j]) && Apelido(cs[j].campo, cs[j].agregacao.value) == k)
    ensures MetricaNaChave(cs, k, distinct) == Some(Metrica(cs[i].agregacao.value, cs[i].campo, distinct))
    decreases |cs|
  {
    if i < |cs| - 1 {
      var ini := cs[..|cs| - 1];
      assert forall j :: 0 <= j < |ini| ==> ini[j] == cs[j];
      MetricaNaChaveSe(ini, k, distinct, i);
    }
  }

  /** No metric sits under a key that no aggregated column produces. */
  lemma {:induction false} MetricaNaChaveAusente(cs: seq<ColunaConfig>, k: string, distinct: bool)
    ensures MetricaNaChave(cs, k, distinct).None? <==>
      forall i :: 0 <= i < |cs| ==> !(Agregada(cs[i]) && Apelido(cs[i].campo, cs[i].agregacao.value) == k)
    decreases |cs|
  {
    if |cs| > 0 {
      var ini := cs[..|cs| - 1];
      assert forall j :: 0 <= j < |ini| ==> ini[j] == cs[j];
      MetricaNaChaveAusente(ini, k, distinct);
    }
  }

  /** `_mapa_apelidos_metricas` after the columns: each aggregated field
      mapped to its alias, a later column on the same field overriding. */
  function MapaApelidos(cs: seq<ColunaConfig>): map<string, string>
    decreases |cs|
  {
    if |cs| == 0 then map[]
    else
      var c := cs[|cs| - 1];
      var m := MapaApelidos(cs[..|cs| - 1]);
      if Agregada(c) then m[c.campo := Apelido(c.campo, c.agregacao.value)] else m
  }

  /** The alias map covers exactly the aggregated fields, and a field maps
      to the alias of the last aggregated column on it. */
  lemma {:induction false} MapaApelidosSe(cs: seq<ColunaConfig>, i: int)
    requires 0 <= i < |cs| && Agregada(cs[i])
    requires forall j :: i < j < |cs| ==> !(Agregada(cs[j]) && cs[j].campo == cs[i].campo)
    ensures cs[i].campo in MapaApelidos(cs)
    ensures MapaApelidos(cs)[cs[i].campo] == Apelido(cs[i].campo, cs[i].agregacao.value)
    decreases |cs|
  {
    if i < |cs| - 1 {
      var ini := cs[..|cs| - 1];
      assert forall j :: 0 <= j < |ini| ==> ini[j] == cs[j];
      MapaApelidosSe(ini, i);
    }
  }

  lemma {:induction false} MapaApelidosChaves(cs: seq<ColunaConfig>)
    ensures MapaApelidos(cs).Keys == CamposAgregados(cs)
    decreases |cs|
  {
    if |cs| > 0 {
      MapaApelidosChaves(cs[..|cs| - 1]);
    }
  }

  /** What the metric and alias maps hold after the columns `ys`. */
  ghost predicate ValoresDasColunas(v: Variante, acc: Colunas, ys: seq<ColunaConfig>, a: Colunas) {
    (forall k :: Consultar(a.metricas, k) ==
       if MetricaNaChave(ys, k, v.Atual?).Some? then MetricaNaChave(ys, k, v.Atual?) else Consultar(acc.metricas, k)) &&
    a.apelidos == acc.apelidos + MapaApelidos(ys)
  }

  /** What one step does to the metric and alias maps. */
  lemma PassoColunaValores(e: Esquema, raiz: string, v: Variante, t: Colunas, c: ColunaConfig)
    requires PassoColuna(e, raiz, v, t, c).Ok?
    ensures var novo := PassoColuna(e, raiz, v, t, c).value;
      if Agregada(c) then
        novo.metricas == Inserir(t.metricas, Apelido(c.campo, c.agregacao.value), Metrica(c.agregacao.value, c.campo, v.Atual?)) &&
        novo.apelidos == t.apelidos[c.campo := Apelido(c.campo, c.agregacao.value)]
      else novo.metricas == t.metricas && novo.apelidos == t.apelidos
  {
    CaminhoResolvidoDevolveEntrada(e, raiz, c.campo);
  }

  lemma PassoPreservaValores(e: Esquema, raiz: string, v: Variante, acc: Colunas, ys: seq<ColunaConfig>, c: ColunaConfig, t: Colunas)
    requires ValoresDasColunas(v, acc, ys, t)
    requires PassoColuna(e, raiz, v, t, c).Ok?
    ensures ValoresDasColunas(v, acc, ys + [c], PassoColuna(e, raiz, v, t, c).value)
  {
    PassoColunaValores(e, raiz, v, t, c);
    var novo := PassoColuna(e, raiz, v, t, c).value;
    PassoValoresDeslocados(v, acc, ys, c, t, novo);
  }

  /** The invariant for one more column, given how that column changed the
      two maps. */
  lemma PassoValoresDeslocados(v: Variante, acc: Colunas, ys: seq<ColunaConfig>, c: ColunaConfig, t: Colunas, novo: Colunas)
    requires ValoresDasColunas(v, acc, ys, t)
    requires if Agregada(c) then
        novo.metricas == Inserir(t.metricas, Apelido(c.campo, c.agregacao.value), Metrica(c.agregacao.value, c.campo, v.Atual?)) &&
        novo.apelidos == t.apelidos[c.campo := Apelido(c.campo, c.agregacao.value)]
      else novo.metricas == t.metricas && novo.apelidos == t.apelidos
    ensures ValoresDasColunas(v, acc, ys + [c], novo)
  {
    var zs := ys + [c];
    assert zs[..|zs| - 1] == ys;
    if Agregada(c) {
      var funcao := c.agregacao.value;
      var apelido := Apelido(c.campo, funcao);
      forall k ensures Consultar(novo.metricas, k) ==
        if MetricaNaChave(zs, k, v.Atual?).Some? then MetricaNaChave(zs, k, v.Atual?) else Consultar(acc.metricas, k)
      {
        ConsultarInserido(t.metricas, apelido, Metrica(funcao, c.campo, v.Atual?), k);
      }
      assert MapaApelidos(zs) == MapaApelidos(ys)[c.campo := apelido];
    }
  }

  /** The column loop leaves under each key the metric `MetricaNaChave`
      names (`distinct` only in construtores.py) and the alias map
      `MapaApelidos`. */
  lemma ProcessarValores(e: Esquema, raiz: string, v: Variante, acc: Colunas, cs: seq<ColunaConfig>)
    requires Processar(e, raiz, v, acc, cs).1.None?
    ensures ValoresDasColunas(v, acc, cs, Processar(e, raiz, v, acc, cs).0)
  {
    var inv := (ys, a) => ValoresDasColunas(v, acc, ys, a);
    forall ys, c, t | inv(ys, t) && PassoDe(e, raiz, v)(t, c).Ok?
      ensures inv(ys + [c], PassoDe(e, raiz, v)(t, c).value)
    {
      PassoPreservaValores(e, raiz, v, acc, ys, c, t);
    }
    assert acc.apelidos + MapaApelidos([]) == acc.apelidos;
    AcumularInvariante(PassoDe(e, raiz, v), inv, acc, cs);
  }

  // ---- Ordering -----------------------------------------------------------

  /** `ord_item.get('ordem', 'asc').lower()`. */
  function DirecaoOrdem(o: OrdenacaoConfig): string {
    Minusculas(o.ordem.GetOr("asc"))
  }

  function ItemOrdenacao(e: Esquema, raiz: string, apelidos: map<string, string>, o: OrdenacaoConfig): Result<string, Erro> {
    var prefixo := if DirecaoOrdem(o) == "desc" then "-" else "";
    if o.campo in apelidos then Ok(prefixo + apelidos[o.campo])
    else match CaminhoResolvido(e, raiz, o.campo)
      case Err(m) => Err(m)
      case Ok((caminho, _)) => Ok(prefixo + caminho)
  }

  function ItemOrdenacaoDe(e: Esquema, raiz: string, apelidos: map<string, string>): OrdenacaoConfig -> Result<string, Erro> {
    o => ItemOrdenacao(e, raiz, apelidos, o)
  }

  /** `_contruir_ordenacao`. */
  function OrdenacaoConstruida(e: Esquema, raiz: string, apelidos: map<string, string>, os: seq<OrdenacaoConfig>): Result<seq<string>, Erro> {
    MapearAteErro(ItemOrdenacaoDe(e, raiz, apelidos), os)
  }

  lemma ItemOrdenacaoSe(e: Esquema, raiz: string, apelidos: map<string, string>, o: OrdenacaoConfig)
    ensures ItemOrdenacao(e, raiz, apelidos, o).Ok? <==> o.campo in apelidos || CaminhoResolvido(e, raiz, o.campo).Ok?
    ensures ItemOrdenacao(e, raiz, apelidos, o).Ok? ==>
      ItemOrdenacao(e, raiz, apelidos, o).value
        == (if DirecaoOrdem(o) == "desc" then "-" else "") + (if o.campo in apelidos then apelidos[o.campo] else o.campo)
  {
    CaminhoResolvidoDevolveEntrada(e, raiz, o.campo);
  }

  /** The ordering builds iff every field is a metric column or a resolvable
      path; each entry is "-" for a "desc" direction (any case) and "" else,
      followed by the metric alias or the requested path itself. */
  lemma OrdenacaoConstruidaSe(e: Esquema, raiz: string, apelidos: map<string, string>, os: seq<OrdenacaoConfig>)
    ensures OrdenacaoConstruida(e, raiz, apelidos, os).Ok?
        <==> forall i :: 0 <= i < |os| ==> os[i].campo in apelidos || CaminhoResolvido(e, raiz, os[i].campo).Ok?
    ensures OrdenacaoConstruida(e, raiz, apelidos, os).Ok? ==>
      var r := OrdenacaoConstruida(e, raiz, apelidos, os).value;
      |r| == |os| &&
      forall i :: 0 <= i < |os| ==>
        r[i] == (if DirecaoOrdem(os[i]) == "desc" then "-" else "")
                + (if os[i].campo in apelidos then apelidos[os[i].campo] else os[i].campo)
  {
    MapearAteErroSe(ItemOrdenacaoDe(e, raiz, apelidos), os);
    forall i | 0 <= i < |os| {
      ItemOrdenacaoSe(e, raiz, apelidos, os[i]);
    }
  }

  // ---- Limit --------------------------------------------------------------

  /** The slice of `criar_queryset`: the requested limit when it is an
      integer in 1..1000 (a JSON `true` counts as the integer 1), else 1000. */
  function LimiteEfetivo(limite: Valor): (r: nat)
    ensures 1 <= r <= LimiteMaximo
    ensures limite.Inteiro? && 0 < limite.n <= LimiteMaximo ==> r == limite.n
    ensures limite == Logico(true) ==> r == 1
    ensures limite == Logico(false) ==> r == LimiteMaximo
    ensures !limite.Inteiro? && !limite.Logico? ==> r == LimiteMaximo
    ensures limite.Inteiro? && (limite.n <= 0 || limite.n > LimiteMaximo) ==> r == LimiteMaximo
  {
    match limite
    case Logico(true) => 1
    case Inteiro(n) => if 0 < n <= LimiteMaximo then n else LimiteMaximo
    case _ => LimiteMaximo
  }

  // ---- Result formatting ---------------------------------------------------

  /** `linha.get(chave)`. */
  function Obter(linha: map<string, Valor>, chave: string): Valor {
    if chave in linha then linha[chave] else Nulo
  }

  /** The cosmetic formatting of one cell: booleans become "Sim"/"Não";
      truthy dates (construtores.py only) and datetimes that have `strftime`
      are formatted. */
  function CelulaFormatada(v: Variante, tipo: string, valor: Valor): (r: Valor)
    ensures tipo == v.TipoLogico() ==> r == Cadeia(if Verdadeiro(valor) then "Sim" else "Não")
    ensures tipo != v.TipoLogico() && !valor.Data? ==> r == valor
    ensures tipo != v.TipoLogico() && tipo != "date" && tipo != "datetime" ==> r == valor
    ensures v.Legada? && tipo == "date" ==> r == valor
    ensures tipo != v.TipoLogico() && v.Atual? && tipo == "date" && valor.Data? ==> r == Formatado(valor.iso, "%d/%m/%Y")
    ensures tipo != v.TipoLogico() && tipo == "datetime" && valor.Data? ==> r == Formatado(valor.iso, "%d/%m/%Y %H:%M")
  {
    if tipo == v.TipoLogico() then Cadeia(if Verdadeiro(valor) then "Sim" else "Não")
    else if v.Atual? && tipo == "date" && Verdadeiro(valor) then
      (if valor.Data? then Formatado(valor.iso, "%d/%m/%Y") else valor)
    else if tipo == "datetime" && Verdadeiro(valor) then
      (if valor.Data? then Formatado(valor.iso, "%d/%m/%Y %H:%M") else valor)
    else valor
  }

  /** One result row turned into a dictionary keyed by output labels. */
  function LinhaFormatada(v: Variante, saida: seq<ItemSaida>, linha: map<string, Valor>): Linha
    decreases |saida|
  {
    if |saida| == 0 then []
    else
      var item := saida[|saida| - 1];
      Inserir(LinhaFormatada(v, saida[..|saida| - 1], linha), item.rotulo,
              CelulaFormatada(v, item.tipo, Obter(linha, item.chaveDb)))
  }

  /** The labels of the output map, each once, in first-appearance order. */
  function RotulosDistintos(saida: seq<ItemSaida>): seq<string>
    decreases |saida|
  {
    if |saida| == 0 then []
    else
      var ini := RotulosDistintos(saida[..|saida| - 1]);
      if saida[|saida| - 1].rotulo in ini then ini else ini + [saida[|saida| - 1].rotulo]
  }

  /** A formatted row has one key per distinct label, in first-appearance
      order. */
  lemma {:induction false} ChavesLinhaFormatada(v: Variante, saida: seq<ItemSaida>, linha: map<string, Valor>)
    ensures Chaves(LinhaFormatada(v, saida, linha)) == RotulosDistintos(saida)
    ensures ChavesDistintas(LinhaFormatada(v, saida, linha))
    decreases |saida|
  {
    if |saida| > 0 {
      var ini := saida[..|saida| - 1];
      var item := saida[|saida| - 1];
      var antes := LinhaFormatada(v, ini, linha);
      var celula := CelulaFormatada(v, item.tipo, Obter(linha, item.chaveDb));
      ChavesLinhaFormatada(v, ini, linha);
      InserirSe(antes, item.rotulo, celula);
      InserirMantemDistintas(antes, item.rotulo, celula);
      assert LinhaFormatada(v, saida, linha) == Inserir(antes, item.rotulo, celula);
    }
  }

  /** No later output entry carries the label of entry `i`. */
  predicate UltimoComRotulo(saida: seq<ItemSaida>, i: nat)
    requires i < |saida|
  {
    forall j :: i < j < |saida| ==> saida[j].rotulo != saida[i].rotulo
  }

  /** An entry that is last with its label stays so once later entries are
      dropped. */
  lemma UltimoComRotuloPrefixo(saida: seq<ItemSaida>, i: nat, n: nat)
    requires i < n <= |saida| && UltimoComRotulo(saida, i)
    ensures saida[..n][i] == saida[i] && UltimoComRotulo(saida[..n], i)
  {
    forall j | i < j < n ensures saida[..n][j].rotulo != saida[..n][i].rotulo {
      assert saida[..n][j] == saida[j];
    }
  }

  /** Under each label a formatted row holds the formatted cell of the last
      output entry carrying it. */
  lemma {:induction false} LinhaFormatadaSe(v: Variante, saida: seq<ItemSaida>, linha: map<string, Valor>, i: nat)
    requires i < |saida| && UltimoComRotulo(saida, i)
    ensures Consultar(LinhaFormatada(v, saida, linha), saida[i].rotulo)
      == Some(CelulaFormatada(v, saida[i].tipo, Obter(linha, saida[i].chaveDb)))
    decreases |saida|
  {
    var n := |saida| - 1;
    var item := saida[n];
    var antes := LinhaFormatada(v, saida[..n], linha);
    var celula := CelulaFormatada(v, item.tipo, Obter(linha, item.chaveDb));
    assert LinhaFormatada(v, saida, linha) == Inserir(antes, item.rotulo, celula);
    ConsultarInserido(antes, item.rotulo, celula, saida[i].rotulo);
    if i < n {
      UltimoComRotuloPrefixo(saida, i, n);
      LinhaFormatadaSe(v, saida[..n], linha, i);
    }
  }

  /** Every row of the result, formatted. */
  function LinhasFormatadas(v: Variante, saida: seq<ItemSaida>, linhas: seq<map<string, Valor>>): (r: seq<Linha>)
    ensures |r| == |linhas|
    ensures forall i :: 0 <= i < |linhas| ==> r[i] == LinhaFormatada(v, saida, linhas[i])
  {
    seq(|linhas|, i requires 0 <= i < |linhas| => LinhaFormatada(v, saida, linhas[i]))
  }

  /** The inner loop of `executar`'s formatting: one row. */
  method FormatarLinha(v: Variante, saida: seq<ItemSaida>, linha: map<string, Valor>) returns (novaLinha: Linha)
    ensures novaLinha == LinhaFormatada(v, saida, linha)
  {
    novaLinha := [];
    var j := 0;
    while j < |saida|
      invariant 0 <= j <= |saida|
      invariant novaLinha == LinhaFormatada(v, saida[..j], linha)
    {
      assert saida[..j + 1][..j] == saida[..j];
      var valor := CelulaFormatada(v, saida[j].tipo, Obter(linha, saida[j].chaveDb));
      novaLinha := Inserir(novaLinha, saida[j].rotulo, valor);
      j := j + 1;
    }
    assert saida[..j] == saida;
  }

  /** The formatting loop of `executar` (both variants). */
  method FormatarLinhas(v: Variante, saida: seq<ItemSaida>, linhas: seq<map<string, Valor>>) returns (dados: seq<Linha>)
    ensures dados == LinhasFormatadas(v, saida, linhas)
  {
    dados := [];
    var i := 0;
    while i < |linhas|
      invariant 0 <= i <= |linhas|
      invariant dados == LinhasFormatadas(v, saida, linhas[..i])
    {
      var novaLinha := FormatarLinha(v, saida, linhas[i]);
      dados := dados + [novaLinha];
      i := i + 1;
    }
    assert linhas[..i] == linhas;
  }

  // ---- The queryset ---------------------------------------------------------

  /** What `criar_queryset` (construtores.py) builds, or the error it raises. */
  function ConsultaCriada(e: Esquema, raiz: string, cfg: ConfigConsulta): Result<Consulta, Erro> {
    match FiltrosConstruidos(e, raiz, Atual, cfg.filtros)
    case Err(m) => Err(m)
    case Ok(fs) =>
      var cols := ColunasProcessadas(e, raiz, Atual, ColunasVazias, cfg.colunas);
      if cols.1.Some? then Err(cols.1.value)
      else match OrdenacaoConstruida(e, raiz, cols.0.apelidos, cfg.ordenacoes)
        case Err(m) => Err(m)
        case Ok(ord) =>
          Ok(Consulta(fs, cols.0.dimensoes, cols.0.metricas, cols.0.dimensoes + Chaves(cols.0.metricas),
                      true, ord, Some(LimiteEfetivo(cfg.limite))))
  }

  /** What `executar` of utils.py sends to the database: no distinct, no
      ordering, no slice. */
  function ConsultaLegadaCriada(e: Esquema, raiz: string, cfg: ConfigConsulta): Result<(Consulta, seq<ItemSaida>), Erro> {
    match FiltrosConstruidos(e, raiz, Legada, cfg.filtros)
    case Err(m) => Err(m)
    case Ok(fs) =>
      var cols := ColunasProcessadas(e, raiz, Legada, ColunasVazias, cfg.colunas);
      if cols.1.Some? then Err(cols.1.value)
      else Ok((Consulta(fs, cols.0.dimensoes, cols.0.metricas, cols.0.dimensoes + Chaves(cols.0.metricas),
                        false, [], None), cols.0.saida))
  }

  /** `criar_queryset` builds a query iff every filter path resolves, there
      is at least one column, every column is valid, and every ordering
      field is an aggregated column's field or a resolvable path. */
  lemma ConsultaCriadaSe(e: Esquema, raiz: string, cfg: ConfigConsulta)
    ensures ConsultaCriada(e, raiz, cfg).Ok? <==>
      (forall i :: 0 <= i < |cfg.filtros| ==> CaminhoResolvido(e, raiz, cfg.filtros[i].campo).Ok?) &&
      |cfg.colunas| > 0 &&
      (forall i :: 0 <= i < |cfg.colunas| ==> ColunaValida(e, raiz, cfg.colunas[i])) &&
      (forall i :: 0 <= i < |cfg.ordenacoes| ==>
        cfg.ordenacoes[i].campo in CamposAgregados(cfg.colunas) || CaminhoResolvido(e, raiz, cfg.ordenacoes[i].campo).Ok?)
  {
    FiltrosConstruidosSe(e, raiz, Atual, cfg.filtros);
    ProcessarOkSe(e, raiz, Atual, ColunasVazias, cfg.colunas);
    if FiltrosConstruidos(e, raiz, Atual, cfg.filtros).Ok? && |cfg.colunas| > 0
       && Processar(e, raiz, Atual, ColunasVazias, cfg.colunas).1.None? {
      var cols := Processar(e, raiz, Atual, ColunasVazias, cfg.colunas).0;
      ProcessarMetricas(e, raiz, Atual, ColunasVazias, cfg.colunas);
      assert cols.apelidos.Keys == CamposAgregados(cfg.colunas);
      OrdenacaoConstruidaSe(e, raiz, cols.apelidos, cfg.ordenacoes);
    }
  }

  /** The query `criar_queryset` builds: the built filters; the grouping
      paths of the non-aggregated columns in order; as metric keys the
      distinct aliases of the aggregated columns in first-appearance order;
      a selection of the grouping paths followed by those aliases; distinct
      rows; the built ordering; and the effective limit as the slice. What
      the metric keys and the alias map hold is `ConsultaCriadaMetricas`. */
  lemma ConsultaCriadaConteudo(e: Esquema, raiz: string, cfg: ConfigConsulta)
    requires ConsultaCriada(e, raiz, cfg).Ok?
    ensures var q := ConsultaCriada(e, raiz, cfg).value;
      var cols := Processar(e, raiz, Atual, ColunasVazias, cfg.colunas).0;
      q.filtros == FiltrosConstruidos(e, raiz, Atual, cfg.filtros).value &&
      q.agrupamento == CamposDimensao(cfg.colunas) &&
      Chaves(q.metricas) == ApelidosDasColunas([], cfg.colunas) && ChavesDistintas(q.metricas) &&
      q.selecao == CamposDimensao(cfg.colunas) + ApelidosDasColunas([], cfg.colunas) &&
      q.distinct &&
      q.ordenacao == OrdenacaoConstruida(e, raiz, cols.apelidos, cfg.ordenacoes).value &&
      q.limite == Some(LimiteEfetivo(cfg.limite))
  {
    ProcessarDimensoes(e, raiz, Atual, ColunasVazias, cfg.colunas);
    ProcessarMetricas(e, raiz, Atual, ColunasVazias, cfg.colunas);
    assert [] + CamposDimensao(cfg.colunas) == CamposDimensao(cfg.colunas);
    assert ChavesDistintas(ColunasVazias.metricas);
  }

  /** The older `executar` builds its query iff every filter path resolves
      and every column is valid; no column count is required. */
  lemma ConsultaLegadaCriadaSe(e: Esquema, raiz: string, cfg: ConfigConsulta)
    ensures ConsultaLegadaCriada(e, raiz, cfg).Ok? <==>
      (forall i :: 0 <= i < |cfg.filtros| ==> CaminhoResolvido(e, raiz, cfg.filtros[i].campo).Ok?) &&
      (forall i :: 0 <= i < |cfg.colunas| ==> ColunaValida(e, raiz, cfg.colunas[i]))
  {
    FiltrosConstruidosSe(e, raiz, Legada, cfg.filtros);
    ProcessarOkSe(e, raiz, Legada, ColunasVazias, cfg.colunas);
  }

  /** The query of the older `executar`: the built filters, the grouping
      paths in order, the distinct aliases as metric keys, a selection of
      the grouping paths followed by those aliases, no distinct, no
      ordering, no slice; and one output entry per column, in order. What
      the metric keys hold is `ConsultaLegadaCriadaMetricas`. */
  lemma ConsultaLegadaCriadaConteudo(e: Esquema, raiz: string, cfg: ConfigConsulta)
    requires ConsultaLegadaCriada(e, raiz, cfg).Ok?
    ensures var q := ConsultaLegadaCriada(e, raiz, cfg).value.0;
      q.filtros == FiltrosConstruidos(e, raiz, Legada, cfg.filtros).value &&
      q.agrupamento == CamposDimensao(cfg.colunas) &&
      Chaves(q.metricas) == ApelidosDasColunas([], cfg.colunas) && ChavesDistintas(q.metricas) &&
      q.selecao == CamposDimensao(cfg.colunas) + ApelidosDasColunas([], cfg.colunas) &&
      !q.distinct && q.ordenacao == [] && q.limite == None
    ensures var saida := ConsultaLegadaCriada(e, raiz, cfg).value.1;
      |saida| == |cfg.colunas| &&
      forall i :: 0 <= i < |cfg.colunas| ==>
        ColunaValida(e, raiz, cfg.colunas[i]) && ItemDaColuna(e, raiz, Legada, cfg.colunas[i], saida[i])
  {
    ProcessarDimensoes(e, raiz, Legada, ColunasVazias, cfg.colunas);
    ProcessarMetricas(e, raiz, Legada, ColunasVazias, cfg.colunas);
    ProcessarSaida(e, raiz, Legada, ColunasVazias, cfg.colunas);
    assert [] + CamposDimensao(cfg.colunas) == CamposDimensao(cfg.colunas);
    assert ChavesDistintas(ColunasVazias.metricas);
  }

  /** In the query `criar_queryset` builds, each metric key holds the
      `distinct` aggregate of the last aggregated column with that alias,
      and the ordering reads the alias map `MapaApelidos`, so an aggregated
      field orders by the alias of its last aggregated column. */
  lemma ConsultaCriadaMetricas(e: Esquema, raiz: string, cfg: ConfigConsulta)
    requires ConsultaCriada(e, raiz, cfg).Ok?
    ensures forall k :: Consultar(ConsultaCriada(e, raiz, cfg).value.metricas, k) == MetricaNaChave(cfg.colunas, k, true)
    ensures OrdenacaoConstruida(e, raiz, MapaApelidos(cfg.colunas), cfg.ordenacoes).Ok? &&
      ConsultaCriada(e, raiz, cfg).value.ordenacao == OrdenacaoConstruida(e, raiz, MapaApelidos(cfg.colunas), cfg.ordenacoes).value
  {
    ProcessarValores(e, raiz, Atual, ColunasVazias, cfg.colunas);
    assert map[] + MapaApelidos(cfg.colunas) == MapaApelidos(cfg.colunas);
  }

  /** In the query of the older `executar`, each metric key holds the
      aggregate, without `distinct`, of the last aggregated column with
      that alias. */
  lemma ConsultaLegadaCriadaMetricas(e: Esquema, raiz: string, cfg: ConfigConsulta)
    requires ConsultaLegadaCriada(e, raiz, cfg).Ok?
    ensures forall k :: Consultar(ConsultaLegadaCriada(e, raiz, cfg).value.0.metricas, k) == MetricaNaChave(cfg.colunas, k, false)
  {
    ProcessarValores(e, raiz, Legada, ColunasVazias, cfg.colunas);
  }

  /** With every filter resolving, an empty column list is rejected with the
      no-columns error. */
  lemma ConsultaSemColunasRejeitada(e: Esquema, raiz: string, cfg: ConfigConsulta)
    requires forall i :: 0 <= i < |cfg.filtros| ==> CaminhoResolvido(e, raiz, cfg.filtros[i].campo).Ok?
    requires |cfg.colunas| == 0
    ensures ConsultaCriada(e, raiz, cfg) == Err(SemColunas)
  {
    FiltrosConstruidosSe(e, raiz, Atual, cfg.filtros);
  }

  // ---- The classes ----------------------------------------------------------

  /** `ConstrutorConsulta` of construtores.py. */
  class ConstrutorConsulta {
    const esquema: Esquema
    const configuracaoConsulta: ConfigConsulta
    const nomeEntidadeRaiz: string
    const configRaiz: Tabela
    /** `_mapa_apelidos_metricas`: column path to metric alias. */
    var mapaApelidosMetricas: map<string, string>
    /** `_mapa_saida`: how result keys become output cells. */
    var mapaSaida: seq<ItemSaida>

    constructor (esquema: Esquema, cfg: ConfigConsulta, modelos: set<string>)
      requires RaizValidada(esquema, cfg, modelos).Ok?
      ensures this.esquema == esquema && configuracaoConsulta == cfg
      ensures nomeEntidadeRaiz == cfg.fontePrincipal.value && nomeEntidadeRaiz in esquema
      ensures configRaiz == esquema[nomeEntidadeRaiz]
      ensures mapaApelidosMetricas == map[] && mapaSaida == []
    {
      this.esquema := esquema;
      configuracaoConsulta := cfg;
      nomeEntidadeRaiz := cfg.fontePrincipal.value;
      configRaiz := esquema[cfg.fontePrincipal.value];
      mapaApelidosMetricas := map[];
      mapaSaida := [];
    }

    /** `ConstrutorConsulta(esquema, configuracao)`, raising on a bad root;
        `modelos` are the models `apps.get_model` knows. */
    static method Novo(esquema: Esquema, cfg: ConfigConsulta, modelos: set<string>) returns (r: Result<ConstrutorConsulta, Erro>)
      ensures r.Err? <==> RaizValidada(esquema, cfg, modelos).Err?
      ensures r.Err? ==> r.error == RaizValidada(esquema, cfg, modelos).error
      ensures r.Ok? ==> fresh(r.value) && r.value.esquema == esquema && r.value.configuracaoConsulta == cfg
                        && r.value.nomeEntidadeRaiz == RaizValidada(esquema, cfg, modelos).value
    {
      var raiz := RaizValidada(esquema, cfg, modelos);
      if raiz.Err? {
        return Err(raiz.error);
      }
      var c := new ConstrutorConsulta(esquema, cfg, modelos);
      return Ok(c);
    }

    /** `_processar_colunas`: fills the grouping list and the metrics, and
        extends `_mapa_apelidos_metricas` and `_mapa_saida` column by column;
        a failing column leaves what was done before it. */
    method ProcessarColunas() returns (dimensoes: seq<string>, metricas: Dict<Metrica>, erro: Option<Erro>)
      modifies this
      ensures var r := ColunasProcessadas(esquema, nomeEntidadeRaiz, Atual,
                                          Colunas([], [], old(mapaApelidosMetricas), old(mapaSaida)),
                                          configuracaoConsulta.colunas);
        dimensoes == r.0.dimensoes && metricas == r.0.metricas && erro == r.1 &&
        mapaApelidosMetricas == r.0.apelidos && mapaSaida == r.0.saida
    {
      var colunas := configuracaoConsulta.colunas;
      dimensoes, metricas, erro := [], [], None;
      if |colunas| == 0 {
        erro := Some(SemColunas);
        return;
      }
      ghost var inicio := Colunas([], [], mapaApelidosMetricas, mapaSaida);
      var i := 0;
      while i < |colunas|
        invariant 0 <= i <= |colunas|
        invariant Processar(esquema, nomeEntidadeRaiz, Atual, inicio, colunas[..i])
                  == (Colunas(dimensoes, metricas, mapaApelidosMetricas, mapaSaida), None)
      {
        assert colunas[..i + 1][..i] == colunas[..i];
        var coluna := colunas[i];
        var resolvido := ResolverCaminho(esquema, nomeEntidadeRaiz, coluna.campo);
        if resolvido.Err? {
          erro := Some(resolvido.error);
          AcumularFalhaPrefixo(PassoDe(esquema, nomeEntidadeRaiz, Atual), inicio, colunas, i + 1);
          return;
        }
        var (caminhoOrm, tipoCampo) := resolvido.value;
        var rotulo := coluna.rotulo.GetOr(coluna.campo);
        if coluna.agregacao.Some? && coluna.agregacao.value != "" {
          var funcao := coluna.agregacao.value;
          if funcao !in FuncoesAgregacao {
            erro := Some(AgregacaoInvalida(funcao));
            AcumularFalhaPrefixo(PassoDe(esquema, nomeEntidadeRaiz, Atual), inicio, colunas, i + 1);
            return;
          }
          var apelido := SubstituirTodos(caminhoOrm, Separador, "_") + "_" + Minusculas(funcao);
          metricas := Inserir(metricas, apelido, Metrica(funcao, caminhoOrm, true));
          mapaApelidosMetricas := mapaApelidosMetricas[coluna.campo := apelido];
          mapaSaida := mapaSaida + [ItemSaida(apelido, rotulo, "number")];
        } else {
          dimensoes := dimensoes + [caminhoOrm];
          mapaSaida := mapaSaida + [ItemSaida(caminhoOrm, rotulo, tipoCampo)];
        }
        i := i + 1;
      }
      assert colunas[..i] == colunas;
    }

    /** `_contruir_ordenacao`, reading `_mapa_apelidos_metricas`. */
    method ContruirOrdenacao() returns (r: Result<seq<string>, Erro>)
      ensures r == OrdenacaoConstruida(esquema, nomeEntidadeRaiz, mapaApelidosMetricas, configuracaoConsulta.ordenacoes)
    {
      var ordenacoes := configuracaoConsulta.ordenacoes;
      var ordenacaoFinal: seq<string> := [];
      var i := 0;
      while i < |ordenacoes|
        invariant 0 <= i <= |ordenacoes|
        invariant OrdenacaoConstruida(esquema, nomeEntidadeRaiz, mapaApelidosMetricas, ordenacoes[..i]) == Ok(ordenacaoFinal)
      {
        assert ordenacoes[..i + 1][..i] == ordenacoes[..i];
        var campoInput := ordenacoes[i].campo;
        var direcao := Minusculas(ordenacoes[i].ordem.GetOr("asc"));
        var campoOrdenar;
        if campoInput in mapaApelidosMetricas {
          campoOrdenar := mapaApelidosMetricas[campoInput];
        } else {
          var resolvido := ResolverCaminho(esquema, nomeEntidadeRaiz, campoInput);
          if resolvido.Err? {
            MapearFalhaPrefixo(ItemOrdenacaoDe(esquema, nomeEntidadeRaiz, mapaApelidosMetricas), ordenacoes, i + 1);
            return Err(resolvido.error);
          }
          campoOrdenar := resolvido.value.0;
        }
        var prefixo := if direcao == "desc" then "-" else "";
        ordenacaoFinal := ordenacaoFinal + [prefixo + campoOrdenar];
        i := i + 1;
      }
      assert ordenacoes[..i] == ordenacoes;
      return Ok(ordenacaoFinal);
    }

    /** `criar_queryset`: filters, then (after resetting the two maps) the
        columns, then ordering and the limit. */
    method CriarQueryset() returns (r: Result<Consulta, Erro>)
      modifies this
      ensures r == ConsultaCriada(esquema, nomeEntidadeRaiz, configuracaoConsulta)
      ensures FiltrosConstruidos(esquema, nomeEntidadeRaiz, Atual, configuracaoConsulta.filtros).Err? ==>
        mapaApelidosMetricas == old(mapaApelidosMetricas) && mapaSaida == old(mapaSaida)
      ensures FiltrosConstruidos(esquema, nomeEntidadeRaiz, Atual, configuracaoConsulta.filtros).Ok? ==>
        var cols := ColunasProcessadas(esquema, nomeEntidadeRaiz, Atual, ColunasVazias, configuracaoConsulta.colunas);
        mapaApelidosMetricas == cols.0.apelidos && mapaSaida == cols.0.saida
    {
      var filtros := ConstruirFiltros(esquema, nomeEntidadeRaiz, Atual, configuracaoConsulta.filtros);
      if filtros.Err? {
        return Err(filtros.error);
      }
      mapaApelidosMetricas := map[];
      mapaSaida := [];
      var dimensoes, metricas, erro := ProcessarColunas();
      if erro.Some? {
        return Err(erro.value);
      }
      var selecao := dimensoes + Chaves(metricas);
      var ordenacao := ContruirOrdenacao();
      if ordenacao.Err? {
        return Err(ordenacao.error);
      }
      var limite := LimiteEfetivo(configuracaoConsulta.limite);
      return Ok(Consulta(filtros.value, dimensoes, metricas, selecao, true, ordenacao.value, Some(limite)));
    }

    /** `executar`: builds the queryset and formats the rows the database
        returns for it (`linhas`). */
    method Executar(linhas: seq<map<string, Valor>>) returns (r: Result<(Consulta, seq<Linha>), Erro>)
      modifies this
      ensures ConsultaCriada(esquema, nomeEntidadeRaiz, configuracaoConsulta).Err? ==>
        r == Err(ConsultaCriada(esquema, nomeEntidadeRaiz, configuracaoConsulta).error)
      ensures ConsultaCriada(esquema, nomeEntidadeRaiz, configuracaoConsulta).Ok? ==>
        r == Ok((ConsultaCriada(esquema, nomeEntidadeRaiz, configuracaoConsulta).value, LinhasFormatadas(Atual, mapaSaida, linhas)))
      ensures ConsultaCriada(esquema, nomeEntidadeRaiz, configuracaoConsulta).Ok? ==>
        mapaSaida == Processar(esquema, nomeEntidadeRaiz, Atual, ColunasVazias, configuracaoConsulta.colunas).0.saida
    {
      var q := CriarQueryset();
      if q.Err? {
        return Err(q.error);
      }
      var dados := FormatarLinhas(Atual, mapaSaida, linhas);
      return Ok((q.value, dados));
    }
  }

  /** `ConstrutorConsulta` of utils.py. */
  class ConstrutorConsultaLegado {
    const esquema: Esquema
    const dadosEntrada: ConfigConsulta
    const nomeEntidadeRaiz: string
    const configRaiz: Tabela

    constructor (esquema: Esquema, cfg: ConfigConsulta, modelos: set<string>)
      requires RaizValidada(esquema, cfg, modelos).Ok?
      ensures this.esquema == esquema && dadosEntrada == cfg
      ensures nomeEntidadeRaiz == cfg.fontePrincipal.value && nomeEntidadeRaiz in esquema
      ensures configRaiz == esquema[nomeEntidadeRaiz]
    {
      this.esquema := esquema;
      dadosEntrada := cfg;
      nomeEntidadeRaiz := cfg.fontePrincipal.value;
      configRaiz := esquema[cfg.fontePrincipal.value];
    }

    static method Novo(esquema: Esquema, cfg: ConfigConsulta, modelos: set<string>) returns (r: Result<ConstrutorConsultaLegado, Erro>)
      ensures r.Err? <==> RaizValidada(esquema, cfg, modelos).Err?
      ensures r.Err? ==> r.error == RaizValidada(esquema, cfg, modelos).error
      ensures r.Ok? ==> fresh(r.value) && r.value.esquema == esquema && r.value.dadosEntrada == cfg
                        && r.value.nomeEntidadeRaiz == RaizValidada(esquema, cfg, modelos).value
    {
      var raiz := RaizValidada(esquema, cfg, modelos);
      if raiz.Err? {
        return Err(raiz.error);
      }
      var c := new ConstrutorConsultaLegado(esquema, cfg, modelos);
      return Ok(c);
    }

    /** The column loop of `executar`: local lists of grouping paths,
        metrics and output entries, filled column by column; a failing
        column stops it. */
    method ProcessarColunas() returns (dimensoes: seq<string>, metricas: Dict<Metrica>, mapaSaida: seq<ItemSaida>, erro: Option<Erro>)
      ensures var r := Processar(esquema, nomeEntidadeRaiz, Legada, ColunasVazias, dadosEntrada.colunas);
        dimensoes == r.0.dimensoes && metricas == r.0.metricas && mapaSaida == r.0.saida && erro == r.1
    {
      var colunas := dadosEntrada.colunas;
      dimensoes, metricas, mapaSaida, erro := [], [], [], None;
      ghost var apelidos: map<string, string> := map[];
      var i := 0;
      while i < |colunas|
        invariant 0 <= i <= |colunas|
        invariant Processar(esquema, nomeEntidadeRaiz, Legada, ColunasVazias, colunas[..i])
                  == (Colunas(dimensoes, metricas, apelidos, mapaSaida), None)
      {
        assert colunas[..i + 1][..i] == colunas[..i];
        var coluna := colunas[i];
        var resolvido := ResolverCaminho(esquema, nomeEntidadeRaiz, coluna.campo);
        if resolvido.Err? {
          erro := Some(resolvido.error);
          AcumularFalhaPrefixo(PassoDe(esquema, nomeEntidadeRaiz, Legada), ColunasVazias, colunas, i + 1);
          return;
        }
        var (caminhoOrm, tipoCampo) := resolvido.value;
        var rotulo := coluna.etiqueta.GetOr(coluna.campo);
        if coluna.agregacao.Some? && coluna.agregacao.value != "" {
          var funcao := coluna.agregacao.value;
          if funcao !in FuncoesAgregacao {
            erro := Some(AgregacaoInvalida(funcao));
            AcumularFalhaPrefixo(PassoDe(esquema, nomeEntidadeRaiz, Legada), ColunasVazias, colunas, i + 1);
            return;
          }
          var apelido := SubstituirTodos(caminhoOrm, Separador, "_") + "_" + Minusculas(funcao);
          metricas := Inserir(metricas, apelido, Metrica(funcao, caminhoOrm, false));
          apelidos := apelidos[coluna.campo := apelido];
          mapaSaida := mapaSaida + [ItemSaida(apelido, rotulo, "number")];
        } else {
          dimensoes := dimensoes + [caminhoOrm];
          mapaSaida := mapaSaida + [ItemSaida(caminhoOrm, rotulo, tipoCampo)];
        }
        i := i + 1;
      }
      assert colunas[..i] == colunas;
    }

    /** `executar`: filters, the column loop on local lists, and the
        formatted rows of `linhas`. */
    method Executar(linhas: seq<map<string, Valor>>) returns (r: Result<(Consulta, seq<Linha>), Erro>)
      ensures ConsultaLegadaCriada(esquema, nomeEntidadeRaiz, dadosEntrada).Err? ==>
        r == Err(ConsultaLegadaCriada(esquema, nomeEntidadeRaiz, dadosEntrada).error)
      ensures ConsultaLegadaCriada(esquema, nomeEntidadeRaiz, dadosEntrada).Ok? ==>
        var (q, saida) := ConsultaLegadaCriada(esquema, nomeEntidadeRaiz, dadosEntrada).value;
        r == Ok((q, LinhasFormatadas(Legada, saida, linhas)))
    {
      var filtros := ConstruirFiltros(esquema, nomeEntidadeRaiz, Legada, dadosEntrada.filtros);
      if filtros.Err? {
        return Err(filtros.error);
      }
      var dimensoes, metricas, mapaSaida, erro := ProcessarColunas();
      if erro.Some? {
        return Err(erro.value);
      }
      var selecao := dimensoes + Chaves(metricas);
      var dados := FormatarLinhas(Legada, mapaSaida, linhas);
      return Ok((Consulta(filtros.value, dimensoes, metricas, selecao, false, [], None), dados));
    }
  }
}

=== FILE: cookie.dfy ===
/** `getCookie(name)` of the editor pages: the first match of
    `(^|;)\s*NAME\s*=\s*([^;]+)` in `document.cookie`, with the captured
    value, or "" when there is none. */
module Cookies {
  import opened Wrappers
  import opened Texto

  /** The text before the first ';' (all of `t` when there is none). */
  function AtePontoEVirgula(t: string): (r: string)
    ensures |r| <= |t| && r == t[..|r|]
    ensures forall i :: 0 <= i < |r| ==> r[i] != ';'
    ensures |r| < |t| ==> t[|r|] == ';'
    decreases |t|
  {
    if |t| == 0 || t[0] == ';' then "" else [t[0]] + AtePontoEVirgula(t[1..])
  }

  /** `\s*([^;]+)` at the start of `t`: the greedy `\s*` gives one white-space
      character back when nothing else is left before the ';'. */
  function ValorApos(t: string): (r: Option<string>)
    ensures r.Some? ==> |r.value| > 0 && forall i :: 0 <= i < |r.value| ==> r.value[i] != ';'
  {
    var v := AtePontoEVirgula(t);
    var w := EspacosIniciais(v);
    if w < |v| then Some(v[w..]) else if w > 0 then Some(v[w - 1..]) else None
  }

  /** `NAME\s*=\s*([^;]+)` with NAME starting at position `k` of `t`. */
  function CasaNomeEm(t: string, nome: string, k: nat): (r: Option<string>)
    requires k <= |t|
    ensures r.Some? ==> |r.value| > 0
  {
    if !(k + |nome| <= |t| && t[k..k + |nome|] == nome) then None
    else
      var depois := t[k + |nome|..];
      var w := EspacosIniciais(depois);
      if w < |depois| && depois[w] == '=' then ValorApos(depois[w + 1..]) else None
  }

  /** `\s*NAME\s*=\s*([^;]+)` at the start of `t`, the leading `\s*` having
      consumed `k` characters and backtracking towards none. */
  function CasaDesde(t: string, nome: string, k: nat): (r: Option<string>)
    requires k <= |t|
    ensures r.Some? ==> |r.value| > 0
    decreases k
  {
    match CasaNomeEm(t, nome, k)
    case Some(v) => Some(v)
    case None => if k == 0 then None else CasaDesde(t, nome, k - 1)
  }

  function CasaEm(t: string, nome: string): Option<string> {
    CasaDesde(t, nome, EspacosIniciais(t))
  }

  /** The leftmost match: at the start of the text, else right after some ';'. */
  function Buscar(s: string, nome: string): (r: Option<string>)
    ensures r.Some? ==> |r.value| > 0
    decreases |s|
  {
    match CasaEm(s, nome)
    case Some(v) => Some(v)
    case None =>
      var antes := AtePontoEVirgula(s);
      if |antes| < |s| then Buscar(s[|antes| + 1..], nome) else None
  }

  /** `getCookie(name)`: the captured value, or "" without a match. */
  function ObterCookie(cookies: string, nome: string): (r: string)
    ensures r == "" <==> Buscar(cookies, nome).None?
  {
    Buscar(cookies, nome).GetOr("")
  }

  // ---- A well-formed document.cookie ----------------------------------------------

  datatype Entrada = Entrada(nome: string, valor: string)

  /** A cookie name with no white space, ';' or '='. */
  predicate NomeSimples(n: string) {
    |n| > 0 && forall i :: 0 <= i < |n| ==> !EhEspaco(n[i]) && n[i] != ';' && n[i] != '='
  }

  predicate EntradaSimples(e: Entrada) {
    NomeSimples(e.nome) && |e.valor| > 0 && !EhEspaco(e.valor[0])
    && forall i :: 0 <= i < |e.valor| ==> e.valor[i] != ';'
  }

  function Par(e: Entrada): string {
    e.nome + "=" + e.valor
  }

  /** `document.cookie`: the pairs joined by "; ". */
  function Documento(es: seq<Entrada>): string {
    if |es| == 0 then ""
    else if |es| == 1 then Par(es[0])
    else Par(es[0]) + "; " + Documento(es[1..])
  }

  /** The value of the first cookie called `nome`, or "". */
  function ValorDe(es: seq<Entrada>, nome: string): (r: string)
    ensures (forall i :: 0 <= i < |es| ==> es[i].nome != nome) ==> r == ""
  {
    if |es| == 0 then "" else if es[0].nome == nome then es[0].valor else ValorDe(es[1..], nome)
  }

  /** Matching at the start of one entry: only a name equal to `nome` matches,
      so a cookie whose name merely ends or starts with `nome` is skipped. */
  lemma CasaNaEntrada(e: Entrada, resto: string, nome: string)
    requires EntradaSimples(e) && NomeSimples(nome)
    requires resto == "" || resto[0] == ';'
    ensures CasaNomeEm(Par(e) + resto, nome, 0)
      == if e.nome == nome then Some(e.valor) else None
  {
    var t := Par(e) + resto;
    assert t == e.nome + ("=" + e.valor + resto);
    if e.nome == nome {
      CasaNomeIgual(e, resto);
    } else if |nome| <= |t| && t[..|nome|] == nome {
      if |nome| < |e.nome| {
        CasaNomeMaisCurto(e, resto, nome);
      } else if |nome| == |e.nome| {
        CasaNomeOutro(e, resto, nome);
      } else {
        CasaNomeMaisLongo(e, resto, nome);
      }
    }
  }

  lemma CasaNomeIgual(e: Entrada, resto: string)
    requires EntradaSimples(e)
    requires resto == "" || resto[0] == ';'
    ensures CasaNomeEm(Par(e) + resto, e.nome, 0) == Some(e.valor)
  {
    var t := Par(e) + resto;
    var nome := e.nome;
    assert t == nome + ("=" + (e.valor + resto));
    assert t[..|nome|] == nome;
    var depois := t[|nome|..];
    assert depois == "=" + (e.valor + resto);
    assert EspacosIniciais(depois) == 0;
    assert depois[1..] == e.valor + resto;
    ValorAteFim(e.valor, resto);
  }

  /** A name that is a proper prefix of the cookie's name stops at a
      character that is neither white space nor '='. */
  lemma CasaNomeMaisCurto(e: Entrada, resto: string, nome: string)
    requires EntradaSimples(e)
    requires |nome| < |e.nome|
    ensures CasaNomeEm(Par(e) + resto, nome, 0) == None
  {
    var t := Par(e) + resto;
    assert t[|nome|] == e.nome[|nome|];
    if t[..|nome|] == nome {
      var depois := t[|nome|..];
      assert depois[0] == t[|nome|];
      assert EspacosIniciais(depois) == 0;
    }
  }

  lemma CasaNomeOutro(e: Entrada, resto: string, nome: string)
    requires |nome| == |e.nome| && nome != e.nome
    ensures CasaNomeEm(Par(e) + resto, nome, 0) == None
  {
    var t := Par(e) + resto;
    assert t[..|nome|] == e.nome;
  }

  /** A name longer than the cookie's would have to contain its '='. */
  lemma CasaNomeMaisLongo(e: Entrada, resto: string, nome: string)
    requires |nome| > |e.nome| && NomeSimples(nome)
    ensures CasaNomeEm(Par(e) + resto, nome, 0) == None
  {
    var t := Par(e) + resto;
    if |nome| <= |t| {
      assert t[..|nome|][|e.nome|] == '=';
      assert nome[|e.nome|] != '=';
    }
  }

  lemma ValorAteFim(valor: string, resto: string)
    requires |valor| > 0 && !EhEspaco(valor[0])
    requires forall i :: 0 <= i < |valor| ==> valor[i] != ';'
    requires resto == "" || resto[0] == ';'
    ensures ValorApos(valor + resto) == Some(valor)
  {
    AteFim(valor, resto);
  }

  lemma {:induction false} AteFim(valor: string, resto: string)
    requires forall i :: 0 <= i < |valor| ==> valor[i] != ';'
    requires resto == "" || resto[0] == ';'
    ensures AtePontoEVirgula(valor + resto) == valor
    decreases |valor|
  {
    if |valor| == 0 {
      assert valor + resto == resto;
    } else {
      assert (valor + resto)[1..] == valor[1..] + resto;
      AteFim(valor[1..], resto);
    }
  }

  /** A leading run of white space `x` shifts a match of the name by `|x|`. */
  lemma CasaNomeDeslocado(x: string, t: string, nome: string, k: nat)
    requires k <= |t|
    ensures CasaNomeEm(x + t, nome, |x| + k) == CasaNomeEm(t, nome, k)
  {
    var u := x + t;
    if k + |nome| <= |t| {
      assert u[|x| + k..|x| + k + |nome|] == t[k..k + |nome|];
      assert u[|x| + k + |nome|..] == t[k + |nome|..];
    }
  }

  /** Text that starts with a name character is matched right there, and a
      single space before it is skipped. */
  lemma CasaComEspaco(t: string, nome: string, x: string)
    requires |t| > 0 && !EhEspaco(t[0]) && NomeSimples(nome)
    requires x == "" || x == " "
    ensures CasaEm(x + t, nome) == CasaNomeEm(t, nome, 0)
  {
    if x == "" {
      assert x + t == t;
    } else {
      assert (" " + t)[1..] == t;
      assert EspacosIniciais(" " + t) == 1;
      CasaNomeDeslocado(" ", t, nome, 0);
      assert (" " + t)[0] == ' ';
    }
  }

  /** The entry at the start of the text, or right after "; ", matches
      exactly when its name is `nome`. */
  lemma CasaAposEspaco(e: Entrada, resto: string, nome: string, x: string)
    requires EntradaSimples(e) && NomeSimples(nome)
    requires resto == "" || resto[0] == ';'
    requires x == "" || x == " "
    ensures CasaEm(x + (Par(e) + resto), nome) == if e.nome == nome then Some(e.valor) else None
  {
    var t := Par(e) + resto;
    assert t[0] == e.nome[0];
    CasaNaEntrada(e, resto, nome);
    CasaComEspaco(t, nome, x);
  }

  lemma ParSemPontoEVirgula(e: Entrada, x: string)
    requires EntradaSimples(e)
    requires x == "" || x == " "
    ensures forall i :: 0 <= i < |x + Par(e)| ==> (x + Par(e))[i] != ';'
  {
    assert forall i :: 0 <= i < |e.nome| ==> Par(e)[i] == e.nome[i];
    assert forall i :: |e.nome| < i < |Par(e)| ==> Par(e)[i] == e.valor[i - |e.nome| - 1];
    assert forall i :: |x| <= i < |x + Par(e)| ==> (x + Par(e))[i] == Par(e)[i - |x|];
  }

  /** The document of a non-empty list: its first pair, then "" or "; ...". */
  lemma DocumentoCabeca(es: seq<Entrada>)
    requires |es| > 0
    ensures Documento(es) == Par(es[0]) + (if |es| == 1 then "" else "; " + Documento(es[1..]))
  {
    if |es| > 1 {
      assert Documento(es) == Par(es[0]) + "; " + Documento(es[1..]);
      Associar(Par(es[0]), "; ", Documento(es[1..]));
    } else {
      assert Documento(es) == Par(es[0]);
      assert Par(es[0]) + "" == Par(es[0]);
    }
  }

  /** Searching text whose first ';', if any, starts `resto`. */
  lemma BuscarPorPartes(p: string, resto: string, nome: string)
    requires forall i :: 0 <= i < |p| ==> p[i] != ';'
    requires resto == "" || resto[0] == ';'
    ensures Buscar(p + resto, nome)
      == match CasaEm(p + resto, nome)
         case Some(v) => Some(v)
         case None => if resto == "" then None else Buscar(resto[1..], nome)
  {
    AteFim(p, resto);
    if resto != "" {
      assert (p + resto)[|p| + 1..] == resto[1..];
    }
  }

  lemma Associar(x: string, a: string, b: string)
    ensures x + (a + b) == (x + a) + b
  {
  }

  /** What follows the first pair of a document: nothing, or "; " and the
      document of the remaining entries. */
  function RestoDocumento(es: seq<Entrada>): string
    requires |es| > 0
  {
    if |es| == 1 then "" else "; " + Documento(es[1..])
  }

  /** A document after an optional space, cut after its first pair. */
  lemma DocumentoComPrefixo(es: seq<Entrada>, x: string)
    requires |es| > 0
    ensures x + Documento(es) == (x + Par(es[0])) + RestoDocumento(es)
    ensures RestoDocumento(es) == "" || RestoDocumento(es)[0] == ';'
    ensures |es| > 1 ==> RestoDocumento(es)[1..] == " " + Documento(es[1..])
  {
    DocumentoCabeca(es);
    Associar(x, Par(es[0]), RestoDocumento(es));
    if |es| > 1 {
      AposPontoEVirgula(Documento(es[1..]));
    }
  }

  lemma AposPontoEVirgula(d: string)
    ensures ("; " + d)[0] == ';' && ("; " + d)[1..] == " " + d
  {
    assert ("; " + d)[1..] == " " + d;
  }

  /** One step of the search over a document, possibly after the space that
      follows a ';': the first entry yields its value when its name is `nome`,
      otherwise the search moves past the next ';'. */
  lemma BuscarPasso(es: seq<Entrada>, nome: string, x: string)
    requires |es| > 0 && EntradaSimples(es[0]) && NomeSimples(nome)
    requires x == "" || x == " "
    ensures Buscar(x + Documento(es), nome)
      == if es[0].nome == nome then Some(es[0].valor)
         else if |es| == 1 then None
         else Buscar(" " + Documento(es[1..]), nome)
  {
    var e := es[0];
    var resto := RestoDocumento(es);
    var p := x + Par(e);
    DocumentoComPrefixo(es, x);
    CasaAposEspaco(e, resto, nome, x);
    Associar(x, Par(e), resto);
    ParSemPontoEVirgula(e, x);
    BuscarPorPartes(p, resto, nome);
  }

  /** A leading space before a document changes nothing it yields. */
  lemma BuscarAposEspaco(es: seq<Entrada>, nome: string)
    requires |es| > 0 && forall i :: 0 <= i < |es| ==> EntradaSimples(es[i])
    requires NomeSimples(nome)
    ensures Buscar(" " + Documento(es), nome) == Buscar(Documento(es), nome)
  {
    BuscarPasso(es, nome, " ");
    BuscarPasso(es, nome, "");
    assert "" + Documento(es) == Documento(es);
  }

  /** Over a well-formed `document.cookie`, `getCookie(nome)` returns the
      value of the first cookie called exactly `nome`, and "" when there is
      none. */
  lemma {:induction false} ObterCookieDeEntradas(es: seq<Entrada>, nome: string)
    requires forall i :: 0 <= i < |es| ==> EntradaSimples(es[i])
    requires NomeSimples(nome)
    ensures ObterCookie(Documento(es), nome) == ValorDe(es, nome)
    decreases |es|
  {
    if |es| == 0 {
      assert CasaEm("", nome) == None;
    } else {
      BuscarPasso(es, nome, "");
      assert "" + Documento(es) == Documento(es);
      if es[0].nome != nome && |es| > 1 {
        BuscarAposEspaco(es[1..], nome);
        ObterCookieDeEntradas(es[1..], nome);
      }
    }
  }

  /** Example, one concrete cookie string: the page asks for the CSRF token,
      and a cookie named "xcsrftoken" that comes first is not mistaken for it. */
  lemma ExemploCsrf()
    ensures ObterCookie(Documento([Entrada("xcsrftoken", "a"), Entrada("csrftoken", "b")]), "csrftoken") == "b"
  {
    var es := [Entrada("xcsrftoken", "a"), Entrada("csrftoken", "b")];
    EntradasCsrfSimples();
    ObterCookieDeEntradas(es, "csrftoken");
    assert es[1..] == [Entrada("csrftoken", "b")];
  }

  lemma EntradasCsrfSimples()
    ensures EntradaSimples(Entrada("xcsrftoken", "a")) && EntradaSimples(Entrada("csrftoken", "b"))
    ensures NomeSimples("csrftoken")
  {
    assert NomeSimples("csrftoken");
    assert NomeSimples("xcsrftoken");
  }
}

=== FILE: cores.dfy ===
/** Colour conversion of the editor: `rgbParaHex` of static/js/uteis.js and
    its copy `rgbToHex` of static/index.js, which turn a CSS colour such as
    "rgb(255, 0, 10)" into "#ff000a". */
module Cores {
  import opened Wrappers
  import opened Texto

  // ---- rgb.match(/\d+/g) --------------------------------------------------------

  /** The maximal runs of decimal digits of `s`, left to right; `atual` is the
      run being read when `s` starts.  The empty list stands for `null`. */
  function ExecucoesDesde(s: string, atual: string): seq<string>
    decreases |s|
  {
    if |s| == 0 then (if |atual| > 0 then [atual] else [])
    else if EhDigito(s[0]) then ExecucoesDesde(s[1..], atual + [s[0]])
    else (if |atual| > 0 then [atual] else []) + ExecucoesDesde(s[1..], "")
  }

  function Execucoes(s: string): seq<string> {
    ExecucoesDesde(s, "")
  }

  predicate SoDigitos(x: string) {
    forall i :: 0 <= i < |x| ==> EhDigito(x[i])
  }

  /** The digits of `s`, in order. */
  function DigitosDe(s: string): string {
    if |s| == 0 then "" else (if EhDigito(s[0]) then [s[0]] else "") + DigitosDe(s[1..])
  }

  function Concatenar(xs: seq<string>): string {
    if |xs| == 0 then "" else xs[0] + Concatenar(xs[1..])
  }

  lemma {:induction false} ConcatenarAnexar(xs: seq<string>, ys: seq<string>)
    ensures Concatenar(xs + ys) == Concatenar(xs) + Concatenar(ys)
    decreases |xs|
  {
    if |xs| > 0 {
      assert (xs + ys)[0] == xs[0];
      assert (xs + ys)[1..] == xs[1..] + ys;
      ConcatenarAnexar(xs[1..], ys);
      calc {
        Concatenar(xs + ys);
        xs[0] + Concatenar(xs[1..] + ys);
        xs[0] + (Concatenar(xs[1..]) + Concatenar(ys));
        (xs[0] + Concatenar(xs[1..])) + Concatenar(ys);
      }
    } else {
      assert xs + ys == ys;
    }
  }

  /** Every run is a non-empty string of digits, and together the runs hold
      exactly the digits of the text, in order. */
  lemma {:induction false} ExecucoesDesdeSe(s: string, atual: string)
    requires SoDigitos(atual)
    ensures forall i :: 0 <= i < |ExecucoesDesde(s, atual)| ==>
      |ExecucoesDesde(s, atual)[i]| > 0 && SoDigitos(ExecucoesDesde(s, atual)[i])
    ensures Concatenar(ExecucoesDesde(s, atual)) == atual + DigitosDe(s)
    decreases |s|
  {
    if |s| > 0 {
      if EhDigito(s[0]) {
        ExecucoesDesdeSe(s[1..], atual + [s[0]]);
      } else {
        var cabeca: seq<string> := if |atual| > 0 then [atual] else [];
        ExecucoesDesdeSe(s[1..], "");
        ConcatenarAnexar(cabeca, ExecucoesDesde(s[1..], ""));
        assert Concatenar(cabeca) == atual by {
          if |atual| > 0 { assert cabeca[1..] == []; }
        }
      }
    } else {
      if |atual| > 0 { assert [atual][1..] == []; }
    }
  }

  /** `match` finds nothing exactly when the text has no digit. */
  lemma SemExecucoes(s: string)
    ensures Execucoes(s) == [] <==> forall i :: 0 <= i < |s| ==> !EhDigito(s[i])
  {
    ExecucoesDesdeSe(s, "");
    DigitosDeVazio(s);
    if Execucoes(s) != [] {
      assert |Concatenar(Execucoes(s))| > 0 by {
        assert Concatenar(Execucoes(s)) == Execucoes(s)[0] + Concatenar(Execucoes(s)[1..]);
      }
    }
  }

  lemma {:induction false} DigitosDeVazio(s: string)
    ensures DigitosDe(s) == "" <==> forall i :: 0 <= i < |s| ==> !EhDigito(s[i])
    decreases |s|
  {
    if |s| > 0 {
      DigitosDeVazio(s[1..]);
      assert forall i :: 1 <= i < |s| ==> s[i] == s[1..][i - 1];
    }
  }

  // ---- parseInt(x) and n.toString(16) --------------------------------------------

  function ValorDigito(c: char): nat {
    if EhDigito(c) then (c as int - '0' as int) else 0
  }

  /** `parseInt` of a run of digits. */
  function ValorDecimal(ds: string): nat
    decreases |ds|
  {
    if |ds| == 0 then 0 else ValorDecimal(ds[..|ds| - 1]) * 10 + ValorDigito(ds[|ds| - 1])
  }

  const DigitosHex: string := "0123456789abcdef"

  /** `n.toString(16)`: lower-case hexadecimal without leading zeros. */
  function Hexadecimal(n: nat): (r: string)
    ensures |r| >= 1
    ensures forall i :: 0 <= i < |r| ==> r[i] in DigitosHex
    ensures |r| == 1 <==> n < 16
    ensures n < 256 ==> |r| <= 2
    decreases n
  {
    if n < 16 then [DigitosHex[n]] else Hexadecimal(n / 16) + [DigitosHex[n % 16]]
  }

  function ValorDigitoHex(c: char): nat {
    if '0' <= c <= '9' then c as int - '0' as int
    else if 'a' <= c <= 'f' then c as int - 'a' as int + 10
    else 0
  }

  /** Reading a hexadecimal string back. */
  function ValorHex(h: string): nat
    decreases |h|
  {
    if |h| == 0 then 0 else ValorHex(h[..|h| - 1]) * 16 + ValorDigitoHex(h[|h| - 1])
  }

  lemma DigitoHexIda(d: nat)
    requires d < 16
    ensures ValorDigitoHex(DigitosHex[d]) == d
  {
  }

  /** `toString(16)` is read back as the same number. */
  lemma {:induction false} HexadecimalIda(n: nat)
    ensures ValorHex(Hexadecimal(n)) == n
    decreases n
  {
    var h := Hexadecimal(n);
    if n < 16 {
      DigitoHexIda(n);
      assert h[..0] == "";
    } else {
      HexadecimalIda(n / 16);
      DigitoHexIda(n % 16);
      assert h[..|h| - 1] == Hexadecimal(n / 16);
    }
  }

  /** A leading "0" does not change the value read. */
  lemma ValorHexZero(h: string)
    requires |h| == 1
    ensures ValorHex("0" + h) == ValorHex(h)
  {
    assert ("0" + h)[..1] == "0";
    assert "0"[..0] == "" && h[..0] == "";
  }

  // ---- The conversion ---------------------------------------------------------------

  /** One channel of the map callback: a missing run is `undefined`, and
      `parseInt(undefined).toString(16)` is "NaN". */
  function ParHex(x: Option<string>): string {
    match x
    case None => "NaN"
    case Some(ds) =>
      var hex := Hexadecimal(ValorDecimal(ds));
      if |hex| == 1 then "0" + hex else hex
  }

  function Canal(runs: seq<string>, i: nat): Option<string> {
    if i < |runs| then Some(runs[i]) else None
  }

  /** `rgbParaHex(rgb)` / `rgbToHex(rgb)`. */
  function RgbParaHex(rgb: string): (r: string)
    ensures |rgb| > 0 && rgb[0] == '#' ==> r == rgb
    ensures |r| > 0 && r[0] == '#'
  {
    if |rgb| > 0 && rgb[0] == '#' then rgb
    else
      var runs := Execucoes(rgb);
      if |runs| == 0 then "#000000"
      else "#" + ParHex(Canal(runs, 0)) + ParHex(Canal(runs, 1)) + ParHex(Canal(runs, 2))
  }

  /** Without any digit the colour is black. */
  lemma RgbSemDigitos(rgb: string)
    requires |rgb| == 0 || rgb[0] != '#'
    requires forall i :: 0 <= i < |rgb| ==> !EhDigito(rgb[i])
    ensures RgbParaHex(rgb) == "#000000"
  {
    SemExecucoes(rgb);
  }

  /** A channel of at most 255 gives two lower-case hexadecimal digits that
      read back as the channel. */
  lemma ParHexSe(ds: string)
    requires ValorDecimal(ds) <= 255
    ensures |ParHex(Some(ds))| == 2
    ensures forall i :: 0 <= i < 2 ==> ParHex(Some(ds))[i] in DigitosHex
    ensures ValorHex(ParHex(Some(ds))) == ValorDecimal(ds)
  {
    var hex := Hexadecimal(ValorDecimal(ds));
    HexadecimalIda(ValorDecimal(ds));
    if |hex| == 1 {
      ValorHexZero(hex);
    }
  }

  /** With three digit runs of at most 255, the result is '#' and three
      two-digit lower-case hexadecimal pairs that read back as the first
      three runs; any further run (an alpha channel) is ignored. */
  lemma RgbTresCanais(rgb: string)
    requires |rgb| == 0 || rgb[0] != '#'
    requires |Execucoes(rgb)| >= 3
    requires forall i :: 0 <= i < 3 ==> ValorDecimal(Execucoes(rgb)[i]) <= 255
    ensures |RgbParaHex(rgb)| == 7 && RgbParaHex(rgb)[0] == '#'
    ensures forall i :: 1 <= i < 7 ==> RgbParaHex(rgb)[i] in DigitosHex
    ensures ValorHex(RgbParaHex(rgb)[1..3]) == ValorDecimal(Execucoes(rgb)[0])
    ensures ValorHex(RgbParaHex(rgb)[3..5]) == ValorDecimal(Execucoes(rgb)[1])
    ensures ValorHex(RgbParaHex(rgb)[5..7]) == ValorDecimal(Execucoes(rgb)[2])
  {
    var runs := Execucoes(rgb);
    ParHexSe(runs[0]);
    ParHexSe(runs[1]);
    ParHexSe(runs[2]);
    PartesDaCor(ParHex(Some(runs[0])), ParHex(Some(runs[1])), ParHex(Some(runs[2])));
  }

  lemma PartesDaCor(a: string, b: string, c: string)
    requires |a| == 2 && |b| == 2 && |c| == 2
    ensures |"#" + a + b + c| == 7
    ensures ("#" + a + b + c)[1..3] == a && ("#" + a + b + c)[3..5] == b
    ensures ("#" + a + b + c)[5..7] == c
    ensures forall i :: 1 <= i < 7 ==> ("#" + a + b + c)[i] in a + b + c
  {
    var r := "#" + a + b + c;
    assert forall i :: 1 <= i < 7 ==> r[i] == (a + b + c)[i - 1];
  }

  /** Two colours whose first three digit runs agree convert alike. */
  lemma RgbSoTresPrimeiros(rgb: string, outro: string)
    requires |rgb| > 0 && rgb[0] != '#' && |outro| > 0 && outro[0] != '#'
    requires |Execucoes(rgb)| >= 3 && |Execucoes(outro)| >= 3
    requires Execucoes(rgb)[..3] == Execucoes(outro)[..3]
    ensures RgbParaHex(rgb) == RgbParaHex(outro)
  {
    assert Execucoes(rgb)[0] == Execucoes(rgb)[..3][0];
    assert Execucoes(rgb)[1] == Execucoes(rgb)[..3][1];
    assert Execucoes(rgb)[2] == Execucoes(rgb)[..3][2];
  }

  /** Example, one concrete input: a colour whose digit runs are 255, 0 and
      10, as in "rgb(255, 0, 10)". */
  lemma ExemploRgb(rgb: string)
    requires |rgb| > 0 && rgb[0] != '#'
    requires Execucoes(rgb) == ["255", "0", "10"]
    ensures RgbParaHex(rgb) == "#ff000a"
  {
    var runs := Execucoes(rgb);
    ParesExemplo();
    RgbDeTresExecucoes(rgb);
    assert ParHex(Some(runs[0])) == "ff";
    assert ParHex(Some(runs[1])) == "00";
    assert ParHex(Some(runs[2])) == "0a";
    assert "#" + "ff" + "00" + "0a" == "#ff000a";
  }

  lemma RgbDeTresExecucoes(rgb: string)
    requires |rgb| > 0 && rgb[0] != '#' && |Execucoes(rgb)| == 3
    ensures RgbParaHex(rgb) == "#" + ParHex(Some(Execucoes(rgb)[0]))
      + ParHex(Some(Execucoes(rgb)[1])) + ParHex(Some(Execucoes(rgb)[2]))
  {
  }

  /** Example: the hex pairs of 255, 0 and 10. */
  lemma ParesExemplo()
    ensures ParHex(Some("255")) == "ff" && ParHex(Some("0")) == "00" && ParHex(Some("10")) == "0a"
  {
    CanaisExemplo();
  }

  /** Example: the decimal and hex values of the runs 255, 0 and 10. */
  lemma CanaisExemplo()
    ensures ValorDecimal("255") == 255 && ValorDecimal("0") == 0 && ValorDecimal("10") == 10
    ensures Hexadecimal(255) == "ff" && Hexadecimal(0) == "0" && Hexadecimal(10) == "a"
  {
    assert "255"[..2] == "25" && "25"[..1] == "2" && "2"[..0] == "";
    assert "0"[..0] == "";
    assert "10"[..1] == "1" && "1"[..0] == "";
  }
}

=== FILE: cruzado.dfy ===
/** How the client builder and the server builder fit together: every path
    the client builds from schema connections followed by a field of the
    table reached is accepted by `_resolver_caminho`, which hands back that
    same path; and the payload the client shows, read by the server, yields
    the grouping the client lists. */
module Cruzado {
  import opened Wrappers
  import opened Texto
  import opened EsquemaDados
  import opened Resolvedor
  import opened ConsultaServidor
  import opened ConstrutorCliente

  /** The relation names along a route. */
  function Nomes(rota: seq<Conexao>): (r: seq<string>)
    ensures |r| == |rota|
    ensures forall i :: 0 <= i < |rota| ==> r[i] == rota[i].campoRelacao
  {
    seq(|rota|, i requires 0 <= i < |rota| => rota[i].campoRelacao)
  }

  /** The client's prefix followed by a field is the "__"-join of the
      route's relation names and the field. */
  lemma {:induction false} JuntarPrefixo(rota: seq<Conexao>, v: string)
    ensures Juntar(Nomes(rota) + [v], Separador) == Prefixo(rota) + v
    decreases |rota|
  {
    if |rota| > 0 {
      var ini := rota[..|rota| - 1];
      var c := rota[|rota| - 1];
      JuntarPrefixo(ini, c.campoRelacao);
      assert Nomes(rota) == Nomes(ini) + [c.campoRelacao];
      assert Nomes(rota) + [v] == (Nomes(ini) + [c.campoRelacao]) + [v];
      JuntarAnexar(Nomes(ini) + [c.campoRelacao], v, Separador);
    }
  }

  /** Every relation along a route through a well-formed schema can stand
      before a "__". */
  lemma {:induction false} RotaSeparavel(e: Esquema, entidade: string, rota: seq<Conexao>)
    requires BemFormado(e)
    requires Destino(e, entidade, rota).Some?
    ensures forall i :: 0 <= i < |rota| ==> SegmentoIntermediario(rota[i].campoRelacao)
    decreases |rota|
  {
    if |rota| > 0 {
      var t := e[entidade];
      var j :| 0 <= j < |t.conexoes| && t.conexoes[j] == rota[0];
      assert TabelaBemFormada(t);
      RotaSeparavel(e, rota[0].modelDestino, rota[1..]);
      forall i | 1 <= i < |rota| ensures SegmentoIntermediario(rota[i].campoRelacao) {
        assert rota[i] == rota[1..][i - 1];
      }
    }
  }

  /** A field of a table of a well-formed schema, named alone, resolves to
      itself and its type. */
  lemma CampoResolve(e: Esquema, entidade: string, campo: Campo)
    requires BemFormado(e) && entidade in e
    requires campo in e[entidade].campos
    ensures Resolver(e, entidade, [campo.valor]) == Ok(([campo.valor], campo.tipo))
  {
    var t := e[entidade];
    assert TabelaBemFormada(t);
    var j :| 0 <= j < |t.campos| && t.campos[j] == campo;
    var p := PrimeiroIndice(t.campos, ChaveCampo, campo.valor);
    assert p.Some? && p.value == j;
  }

  /** The server's walk over a route's relation names and a field of the
      table reached succeeds with that field's type: relation and field
      names are unique per table, so the first match the server takes is the
      connection and the field the client took. */
  lemma {:induction false} RotaResolve(e: Esquema, entidade: string, rota: seq<Conexao>, campo: Campo)
    requires BemFormado(e)
    requires Destino(e, entidade, rota).Some?
    requires campo in e[Destino(e, entidade, rota).value].campos
    ensures Resolver(e, entidade, Nomes(rota) + [campo.valor]) == Ok((Nomes(rota) + [campo.valor], campo.tipo))
    decreases |rota|
  {
    var t := e[entidade];
    var partes := Nomes(rota) + [campo.valor];
    if |rota| == 0 {
      assert partes == [campo.valor];
      CampoResolve(e, entidade, campo);
    } else {
      assert TabelaBemFormada(t);
      var j :| 0 <= j < |t.conexoes| && t.conexoes[j] == rota[0];
      var p := PrimeiroIndice(t.conexoes, ChaveConexao, rota[0].campoRelacao);
      assert p.Some? && p.value == j;
      RotaResolve(e, rota[0].modelDestino, rota[1..], campo);
      assert partes[1..] == Nomes(rota[1..]) + [campo.valor];
      assert [rota[0].campoRelacao] + (Nomes(rota[1..]) + [campo.valor]) == partes;
    }
  }

  /** The cross-component property: a path built by the client from a
      route of connections and a field of the table reached resolves on the
      server to itself and the field's type. */
  lemma CaminhoDoClienteResolve(e: Esquema, raiz: string, rota: seq<Conexao>, campo: Campo)
    requires BemFormado(e)
    requires Destino(e, raiz, rota).Some?
    requires campo in e[Destino(e, raiz, rota).value].campos
    ensures CaminhoResolvido(e, raiz, Prefixo(rota) + campo.valor) == Ok((Prefixo(rota) + campo.valor, campo.tipo))
  {
    var partes := Nomes(rota) + [campo.valor];
    var m := Destino(e, raiz, rota).value;
    assert TabelaBemFormada(e[m]);
    var j :| 0 <= j < |e[m].campos| && e[m].campos[j] == campo;
    RotaSeparavel(e, raiz, rota);
    assert SegmentosSeparaveis(partes);
    DividirJuntar(partes);
    JuntarPrefixo(rota, campo.valor);
    RotaResolve(e, raiz, rota, campo);
  }

  /** Every column of a state the client's operations built resolves on
      the server to its own path. */
  lemma ColunaDoClienteResolve(e: Esquema, raiz: string, tabelas: seq<TabelaAtiva>, c: ColunaEscolhida)
    requires BemFormado(e)
    requires forall i :: 0 <= i < |tabelas| ==> TabelaAlcancavel(e, raiz, tabelas[i])
    requires ColunaDeTabela(tabelas, c)
    ensures CaminhoResolvido(e, raiz, c.caminhoFinal).Ok?
    ensures CaminhoResolvido(e, raiz, c.caminhoFinal).value.0 == c.caminhoFinal
  {
    var i, j :| 0 <= i < |tabelas| && 0 <= j < |tabelas[i].campos| &&
      c.caminhoFinal == tabelas[i].caminho + tabelas[i].campos[j].valor;
    var t := tabelas[i];
    assert TabelaAlcancavel(e, raiz, t);
    var rota :| Destino(e, raiz, rota) == Some(t.modelo) && t.caminho == Prefixo(rota);
    assert t.campos[j] in e[t.modelo].campos;
    CaminhoDoClienteResolve(e, raiz, rota, t.campos[j]);
  }

  /** A filter the client adds on a field of a reachable table resolves on
      the server to its own path. */
  lemma FiltroDoClienteResolve(e: Esquema, raiz: string, tabelas: seq<TabelaAtiva>, indiceTabela: Option<int>,
                               valorCampo: string, operador: string, valor: string)
    requires BemFormado(e)
    requires forall i :: 0 <= i < |tabelas| ==> TabelaAlcancavel(e, raiz, tabelas[i])
    requires FiltroNovo(tabelas, indiceTabela, valorCampo, operador, valor).Some?
    requires exists j :: 0 <= j < |tabelas[indiceTabela.value].campos| && tabelas[indiceTabela.value].campos[j].valor == valorCampo
    ensures var f := FiltroNovo(tabelas, indiceTabela, valorCampo, operador, valor).value;
      CaminhoResolvido(e, raiz, f.campo) == Ok((f.campo, Primeiro(tabelas[indiceTabela.value].campos, ChaveCampo, valorCampo).value.tipo))
  {
    var t := tabelas[indiceTabela.value];
    assert TabelaAlcancavel(e, raiz, t);
    var rota :| Destino(e, raiz, rota) == Some(t.modelo) && t.caminho == Prefixo(rota);
    var j := PrimeiroIndice(t.campos, ChaveCampo, valorCampo).value;
    assert t.campos[j] in e[t.modelo].campos;
    CaminhoDoClienteResolve(e, raiz, rota, t.campos[j]);
  }

  /** How the server reads the payload JSON: `label` is not `rotulo`, so
      construtores.py falls back to the path for the output label; filter
      values are strings; there is no ordering and no limit. */
  function ConfigDoPayload(p: Payload): (cfg: ConfigConsulta)
    ensures cfg.fontePrincipal == Some(p.fontePrincipal)
    ensures |cfg.colunas| == |p.colunas| && |cfg.filtros| == |p.filtros|
    ensures forall k :: 0 <= k < |p.colunas| ==>
      cfg.colunas[k].campo == p.colunas[k].campo && cfg.colunas[k].rotulo.None? &&
      cfg.colunas[k].etiqueta == p.colunas[k].etiqueta &&
      cfg.colunas[k].agregacao == p.colunas[k].agregacao
    ensures forall k :: 0 <= k < |p.filtros| ==>
      cfg.filtros[k].campo == p.filtros[k].campo && cfg.filtros[k].operador == p.filtros[k].operador &&
      cfg.filtros[k].valor == Cadeia(p.filtros[k].valor)
    ensures cfg.ordenacoes == [] && cfg.limite == Nulo
  {
    ConfigConsulta(
      Some(p.fontePrincipal),
      seq(|p.colunas|, k requires 0 <= k < |p.colunas| =>
        ColunaConfig(p.colunas[k].campo, None, p.colunas[k].etiqueta, p.colunas[k].agregacao)),
      seq(|p.filtros|, k requires 0 <= k < |p.filtros| =>
        FiltroConfig(p.filtros[k].campo, p.filtros[k].operador, Cadeia(p.filtros[k].valor))),
      [],
      Nulo)
  }

  /** The client's `agrupamentos` is exactly the grouping the server
      derives from the columns it receives. */
  lemma {:induction false} AgrupamentosNoServidor(cs: seq<ColunaEscolhida>)
    ensures CamposDimensao(seq(|cs|, k requires 0 <= k < |cs| =>
              ColunaConfig(cs[k].caminhoFinal, None, cs[k].etiqueta, cs[k].agregacao))) == Agrupamentos(cs)
    decreases |cs|
  {
    var cfgs := seq(|cs|, k requires 0 <= k < |cs| => ColunaConfig(cs[k].caminhoFinal, None, cs[k].etiqueta, cs[k].agregacao));
    if |cs| > 0 {
      var ini := cs[..|cs| - 1];
      AgrupamentosNoServidor(ini);
      assert cfgs[..|cfgs| - 1] == seq(|ini|, k requires 0 <= k < |ini| =>
        ColunaConfig(ini[k].caminhoFinal, None, ini[k].etiqueta, ini[k].agregacao));
      assert Agregada(cfgs[|cfgs| - 1]) <==> !SemAgregacao(cs[|cs| - 1]);
    }
  }

  /** For a state the client's operations keep valid over a well-formed
      schema, the server, given the payload, resolves every column to its
      own path and groups by the client's `agrupamentos`; when every
      aggregation is a known one, every column is valid on the server. The
      filters are not covered: the client does not check a filter's field. */
  lemma PayloadAceito(est: EstadoConsulta)
    requires BemFormado(est.esquemaDb) && est.Valido()
    ensures var cfg := ConfigDoPayload(est.PayloadAtual());
      (forall k :: 0 <= k < |cfg.colunas| ==>
         CaminhoResolvido(est.esquemaDb, est.modeloRaiz, cfg.colunas[k].campo).Ok? &&
         CaminhoResolvido(est.esquemaDb, est.modeloRaiz, cfg.colunas[k].campo).value.0 == cfg.colunas[k].campo) &&
      CamposDimensao(cfg.colunas) == est.PayloadAtual().agrupamentos
    ensures var cfg := ConfigDoPayload(est.PayloadAtual());
      (forall k :: 0 <= k < |cfg.colunas| && Agregada(cfg.colunas[k]) ==> cfg.colunas[k].agregacao.value in FuncoesAgregacao) ==>
      forall k :: 0 <= k < |cfg.colunas| ==> ColunaValida(est.esquemaDb, est.modeloRaiz, cfg.colunas[k])
  {
    var p := est.PayloadAtual();
    var cfg := ConfigDoPayload(p);
    forall k | 0 <= k < |cfg.colunas|
      ensures CaminhoResolvido(est.esquemaDb, est.modeloRaiz, cfg.colunas[k].campo).Ok?
      ensures CaminhoResolvido(est.esquemaDb, est.modeloRaiz, cfg.colunas[k].campo).value.0 == cfg.colunas[k].campo
    {
      ColunaDoClienteResolve(est.esquemaDb, est.modeloRaiz, est.tabelasAtivas, est.colunasEscolhidas[k]);
    }
    var cs := est.colunasEscolhidas;
    AgrupamentosNoServidor(cs);
    assert cfg.colunas == seq(|cs|, k requires 0 <= k < |cs| => ColunaConfig(cs[k].caminhoFinal, None, cs[k].etiqueta, cs[k].agregacao));
  }

  // ---- On the schema literal ------------------------------------------------

  /** On `esquema_bd`, every path the client builds for a column or for a
      filter on a listed field is accepted by the server as is. */
  lemma CaminhoDoClienteResolveNoEsquemaBd(rota: seq<Conexao>, raiz: string, campo: Campo)
    requires Destino(EsquemaBd, raiz, rota).Some?
    requires campo in EsquemaBd[Destino(EsquemaBd, raiz, rota).value].campos
    ensures CaminhoResolvido(EsquemaBd, raiz, Prefixo(rota) + campo.valor) == Ok((Prefixo(rota) + campo.valor, campo.tipo))
  {
    EsquemaBdBemFormado();
    CaminhoDoClienteResolve(EsquemaBd, raiz, rota, campo);
  }
}

=== FILE: dicionario.dfy ===
/** Python dictionaries keyed by strings, as the sequence of their entries in
    insertion order: assigning an existing key replaces its value in place,
    a new key goes to the end. */
module Dicionario {
  import opened Wrappers

  type Dict<V> = seq<(string, V)>

  function Chaves<V>(d: Dict<V>): (r: seq<string>)
    ensures |r| == |d|
    ensures forall i :: 0 <= i < |d| ==> r[i] == d[i].0
  {
    if |d| == 0 then [] else [d[0].0] + Chaves(d[1..])
  }

  /** `d.get(k)`. */
  function Consultar<V>(d: Dict<V>, k: string): Option<V> {
    if |d| == 0 then None
    else if d[0].0 == k then Some(d[0].1)
    else Consultar(d[1..], k)
  }

  predicate ChavesDistintas<V>(d: Dict<V>) {
    forall i, j :: 0 <= i < j < |d| ==> d[i].0 != d[j].0
  }

  /** `d[k] = v`. */
  function Inserir<V>(d: Dict<V>, k: string, v: V): Dict<V>
    decreases |d|
  {
    if |d| == 0 then [(k, v)]
    else if d[0].0 == k then [(k, v)] + d[1..]
    else [d[0]] + Inserir(d[1..], k, v)
  }

  /** Assignment keeps the keys in place and appends a new key. */
  lemma {:induction false} InserirSe<V>(d: Dict<V>, k: string, v: V)
    ensures k in Chaves(d) ==> Chaves(Inserir(d, k, v)) == Chaves(d)
    ensures k !in Chaves(d) ==> Chaves(Inserir(d, k, v)) == Chaves(d) + [k]
    decreases |d|
  {
    if |d| > 0 && d[0].0 != k {
      var resto := Inserir(d[1..], k, v);
      InserirSe(d[1..], k, v);
      assert Chaves(d) == [d[0].0] + Chaves(d[1..]);
      assert ([d[0]] + resto)[1..] == resto;
    }
  }

  /** Assignment never repeats a key. */
  lemma InserirMantemDistintas<V>(d: Dict<V>, k: string, v: V)
    requires ChavesDistintas(d)
    ensures ChavesDistintas(Inserir(d, k, v))
  {
    InserirSe(d, k, v);
    var novo := Inserir(d, k, v);
    forall i, j | 0 <= i < j < |novo| ensures novo[i].0 != novo[j].0 {
      assert novo[i].0 == Chaves(novo)[i] && novo[j].0 == Chaves(novo)[j];
      if j < |d| {
        assert Chaves(novo)[i] == d[i].0 && Chaves(novo)[j] == d[j].0;
      } else {
        assert Chaves(novo)[j] == k && Chaves(novo)[i] == Chaves(d)[i];
      }
    }
  }

  /** After `d[k] = v` the key holds `v` and every other key its old value. */
  lemma {:induction false} ConsultarInserido<V>(d: Dict<V>, k: string, v: V, chave: string)
    ensures Consultar(Inserir(d, k, v), chave) == if chave == k then Some(v) else Consultar(d, chave)
    decreases |d|
  {
    if |d| > 0 && d[0].0 != k {
      var resto := Inserir(d[1..], k, v);
      ConsultarInserido(d[1..], k, v, chave);
      assert ([d[0]] + resto)[1..] == resto;
    }
  }
}

=== FILE: esquema.dfy ===
/** The relational schema the report builder walks (the `esquema_bd` literal of
    setup/esquema.py), its well-formedness rules, and the proof that the
    literal obeys them. */
module EsquemaDados {
  import opened Texto

  /** A field of a table: the label shown to the user, the model attribute
      and the data type name. */
  datatype Campo = Campo(rotulo: string, valor: string, tipo: string)

  /** An outgoing relation: the label of the join, the model attribute that
      holds it and the name of the table it reaches. */
  datatype Conexao = Conexao(nomeAmigavel: string, campoRelacao: string, modelDestino: string)

  datatype Tabela = Tabela(appModel: string, campos: seq<Campo>, conexoes: seq<Conexao>)

  /** Table name to table description. */
  type Esquema = map<string, Tabela>

  /** Every relation reaches a table of the schema. */
  predicate Fechado(e: Esquema) {
    forall k, i :: k in e && 0 <= i < |e[k].conexoes| ==> e[k].conexoes[i].modelDestino in e
  }

  /** Within one table no two relations share a `campo_relacao`. */
  predicate RelacoesUnicas(t: Tabela) {
    forall i, j :: 0 <= i < j < |t.conexoes| ==> t.conexoes[i].campoRelacao != t.conexoes[j].campoRelacao
  }

  /** Every relation name can stand before a "__" in a path. */
  predicate RelacoesSeparaveis(t: Tabela) {
    forall i :: 0 <= i < |t.conexoes| ==> SegmentoIntermediario(t.conexoes[i].campoRelacao)
  }

  /** Within one table no two fields share a `valor`. */
  predicate CamposUnicos(t: Tabela) {
    forall i, j :: 0 <= i < j < |t.campos| ==> t.campos[i].valor != t.campos[j].valor
  }

  /** No field name holds "__". */
  predicate CamposSeparaveis(t: Tabela) {
    forall i :: 0 <= i < |t.campos| ==> SemSeparador(t.campos[i].valor)
  }

  predicate TabelaBemFormada(t: Tabela) {
    RelacoesUnicas(t) && RelacoesSeparaveis(t) && CamposUnicos(t) && CamposSeparaveis(t)
  }

  predicate BemFormado(e: Esquema) {
    Fechado(e) && forall k :: k in e ==> TabelaBemFormada(e[k])
  }

  const Chamado := Tabela("chamado.Chamado",
    [ Campo("ID", "id", "int"),
      Campo("Motivo", "motivo", "string"),
      Campo("Status", "status", "string"),
      Campo("Número de vítimas", "numero_vitimas", "number"),
      Campo("É incidente?", "incidente", "bool"),
      Campo("Cidade (Ocorrência)", "cidade", "string"),
      Campo("Bairro (Ocorrência)", "bairro", "string") ],
    [ Conexao("Pessoa", "pessoa", "Pessoa"),
      Conexao("Base", "base", "Base"),
      Conexao("Atendimentos", "atendimento_chamado", "AtendimentoPessoa"),
      Conexao("UnidadeChamado", "unidade_chamado", "UnidadeChamado") ])

  const Pessoa := Tabela("pessoa.Pessoa",
    [ Campo("ID", "id", "int"),
      Campo("Nome completo", "nome", "string"),
      Campo("Data de nascimento", "dataNascimentoReal", "date"),
      Campo("Sexo", "sexo", "string"),
      Campo("Telefone celular", "telefoneCelular", "string") ],
    [ Conexao("AtendimentoPessoa", "pessoa_atendimento", "AtendimentoPessoa"),
      Conexao("Base", "base_cadastro", "Base"),
      Conexao("Chamado", "chamado_set", "Chamado"),
      Conexao("Usuário", "usuario", "Usuário") ])

  const AtendimentoPessoa := Tabela("chamado.AtendimentoPessoa",
    [ Campo("ID", "id", "int"),
      Campo("Queixa principal", "queixa", "string"),
      Campo("Risco classificado", "risco", "string"),
      Campo("Pressão arterial (PA)", "pa", "string"),
      Campo("Pulso", "pulso", "string"),
      Campo("Saturação O2", "so2", "string"),
      Campo("Glicemia", "glicemia", "string"),
      Campo("Glasgow", "glasgow", "string"),
      Campo("Destino do paciente", "destinoPaciente", "string"),
      Campo("Diagnóstico médico", "diagnosticoMedico", "string"),
      Campo("Houve lesão traumática?", "lesaoTraumatica", "bool") ],
    [ Conexao("Chamado", "chamado", "Chamado"),
      Conexao("Pessoa", "pessoa", "Pessoa") ])

  const Base := Tabela("base.Base",
    [ Campo("ID", "id", "int"),
      Campo("Nome da base", "nome", "string"),
      Campo("Cidade", "cidade", "string"),
      Campo("Estado (UF)", "uf", "string"),
      Campo("Bairro", "bairro", "string") ],
    [ Conexao("Base central", "central", "Base"),
      Conexao("Responsável", "responsavel", "Usuário"),
      Conexao("Setor", "base_setor", "Setor"),
      Conexao("Unidade", "unidades_operacionais", "Unidade") ])

  const Setor := Tabela("setor.Setor",
    [ Campo("ID", "id", "int"),
      Campo("Nome do setor", "name", "string"),
      Campo("Descrição", "descricao", "string") ],
    [ Conexao("Base", "base", "Base"),
      Conexao("Membro", "membro", "Usuário") ])

  const Unidade := Tabela("unidade.Unidade",
    [ Campo("ID", "id", "int"),
      Campo("Nome da unidade", "nome", "string"),
      Campo("Tipo", "tipo", "string"),
      Campo("Placa", "placa", "string"),
      Campo("Modelo", "modelo", "string"),
      Campo("Status Atual", "status", "string") ],
    [ Conexao("Base", "base", "Base"),
      Conexao("UnidadeChamado", "chamado_unidade", "UnidadeChamado") ])

  const UnidadeChamado := Tabela("chamado.UnidadeChamado",
    [ Campo("ID", "id", "int"),
      Campo("Status no chamado", "status", "string"),
      Campo("Data de alocação", "alocado_em", "datetime") ],
    [ Conexao("Chamado", "chamado", "Chamado"),
      Conexao("Unidade", "unidade", "Unidade") ])

  const Usuario := Tabela("django.contrib.auth.models.User",
    [ Campo("Username", "username", "string"),
      Campo("E-mail", "email", "email"),
      Campo("Está ativo?", "is_active", "bool") ],
    [ Conexao("Base", "resposavel_base", "Base"),
      Conexao("Pessoa", "pessoa", "Pessoa") ])

  /** The `esquema_bd` literal. */
  const EsquemaBd: Esquema := map[
    "Chamado" := Chamado,
    "Pessoa" := Pessoa,
    "AtendimentoPessoa" := AtendimentoPessoa,
    "Base" := Base,
    "Setor" := Setor,
    "Unidade" := Unidade,
    "UnidadeChamado" := UnidadeChamado,
    "Usuário" := Usuario ]

  /** The eight table names of the literal. */
  lemma ChavesEsquemaBd()
    ensures EsquemaBd.Keys == {"Chamado", "Pessoa", "AtendimentoPessoa", "Base", "Setor",
                               "Unidade", "UnidadeChamado", "Usuário"}
  {
  }

  /** One table of the literal obeys the rules and reaches only tables of the literal. */
  predicate TabelaDoLiteralOk(t: Tabela) {
    TabelaBemFormada(t) && forall i :: 0 <= i < |t.conexoes| ==> t.conexoes[i].modelDestino in EsquemaBd
  }

  lemma RelacoesChamado()
    ensures RelacoesUnicas(Chamado)
    ensures forall i :: 0 <= i < |Chamado.conexoes| ==> Chamado.conexoes[i].modelDestino in EsquemaBd
  {
    ChavesEsquemaBd();
  }

  lemma NomesRelacoesChamado()
    ensures RelacoesSeparaveis(Chamado)
  {
    forall i | 0 <= i < |Chamado.conexoes| ensures SegmentoIntermediario(Chamado.conexoes[i].campoRelacao) {
      if i == 0 {
        assert Chamado.conexoes[i].campoRelacao == "pessoa";
        assert SegmentoIntermediario("pessoa");
      } else if i == 1 {
        assert Chamado.conexoes[i].campoRelacao == "base";
        assert SegmentoIntermediario("base");
      } else if i == 2 {
        assert Chamado.conexoes[i].campoRelacao == "atendimento_chamado";
        assert SegmentoIntermediario("atendimento_chamado");
      } else if i == 3 {
        assert Chamado.conexoes[i].campoRelacao == "unidade_chamado";
        assert SegmentoIntermediario("unidade_chamado");
      }
    }
  }

  lemma NomesCamposChamado()
    ensures CamposSeparaveis(Chamado)
  {
  }

  lemma CamposChamado()
    ensures CamposUnicos(Chamado)
  {
  }

  lemma RelacoesPessoa()
    ensures RelacoesUnicas(Pessoa)
    ensures forall i :: 0 <= i < |Pessoa.conexoes| ==> Pessoa.conexoes[i].modelDestino in EsquemaBd
  {
    ChavesEsquemaBd();
  }

  lemma NomesRelacoesPessoa()
    ensures RelacoesSeparaveis(Pessoa)
  {
    forall i | 0 <= i < |Pessoa.conexoes| ensures SegmentoIntermediario(Pessoa.conexoes[i].campoRelacao) {
      if i == 0 {
        assert Pessoa.conexoes[i].campoRelacao == "pessoa_atendimento";
        assert SegmentoIntermediario("pessoa_atendimento");
      } else if i == 1 {
        assert Pessoa.conexoes[i].campoRelacao == "base_cadastro";
        assert SegmentoIntermediario("base_cadastro");
      } else if i == 2 {
        assert Pessoa.conexoes[i].campoRelacao == "chamado_set";
        assert SegmentoIntermediario("chamado_set");
      } else if i == 3 {
        assert Pessoa.conexoes[i].campoRelacao == "usuario";
        assert SegmentoIntermediario("usuario");
      }
    }
  }

  lemma NomesCamposPessoa()
    ensures CamposSeparaveis(Pessoa)
  {
  }

  lemma CamposPessoa()
    ensures CamposUnicos(Pessoa)
  {
  }

  lemma RelacoesAtendimentoPessoa()
    ensures RelacoesUnicas(AtendimentoPessoa)
    ensures forall i :: 0 <= i < |AtendimentoPessoa.conexoes| ==> AtendimentoPessoa.conexoes[i].modelDestino in EsquemaBd
  {
    ChavesEsquemaBd();
  }

  lemma NomesRelacoesAtendimentoPessoa()
    ensures RelacoesSeparaveis(AtendimentoPessoa)
  {
    forall i | 0 <= i < |AtendimentoPessoa.conexoes| ensures SegmentoIntermediario(AtendimentoPessoa.conexoes[i].campoRelacao) {
      if i == 0 {
        assert AtendimentoPessoa.conexoes[i].campoRelacao == "chamado";
        assert SegmentoIntermediario("chamado");
      } else if i == 1 {
        assert AtendimentoPessoa.conexoes[i].campoRelacao == "pessoa";
        assert SegmentoIntermediario("pessoa");
      }
    }
  }

  lemma NomesCamposAtendimentoPessoaInicio()
    ensures forall i :: 0 <= i < 6 ==> SemSeparador(AtendimentoPessoa.campos[i].valor)
  {
  }

  lemma NomesCamposAtendimentoPessoaFim()
    ensures forall i :: 6 <= i < |AtendimentoPessoa.campos| ==> SemSeparador(AtendimentoPessoa.campos[i].valor)
  {
  }

  lemma NomesCamposAtendimentoPessoa()
    ensures CamposSeparaveis(AtendimentoPessoa)
  {
    NomesCamposAtendimentoPessoaInicio();
    NomesCamposAtendimentoPessoaFim();
  }

  lemma CamposAtendimentoPessoa()
    ensures CamposUnicos(AtendimentoPessoa)
  {
  }

  lemma RelacoesBase()
    ensures RelacoesUnicas(Base)
    ensures forall i :: 0 <= i < |Base.conexoes| ==> Base.conexoes[i].modelDestino in EsquemaBd
  {
    ChavesEsquemaBd();
  }

  lemma NomesRelacoesBase()
    ensures RelacoesSeparaveis(Base)
  {
    forall i | 0 <= i < |Base.conexoes| ensures SegmentoIntermediario(Base.conexoes[i].campoRelacao) {
      if i == 0 {
        assert Base.conexoes[i].campoRelacao == "central";
        assert SegmentoIntermediario("central");
      } else if i == 1 {
        assert Base.conexoes[i].campoRelacao == "responsavel";
        assert SegmentoIntermediario("responsavel");
      } else if i == 2 {
        assert Base.conexoes[i].campoRelacao == "base_setor";
        assert SegmentoIntermediario("base_setor");
      } else if i == 3 {
        assert Base.conexoes[i].campoRelacao == "unidades_operacionais";
        assert SegmentoIntermediario("unidades_operacionais");
      }
    }
  }

  lemma NomesCamposBase()
    ensures CamposSeparaveis(Base)
  {
  }

  lemma CamposBase()
    ensures CamposUnicos(Base)
  {
  }

  lemma RelacoesSetor()
    ensures RelacoesUnicas(Setor)
    ensures forall i :: 0 <= i < |Setor.conexoes| ==> Setor.conexoes[i].modelDestino in EsquemaBd
  {
    ChavesEsquemaBd();
  }

  lemma NomesRelacoesSetor()
    ensures RelacoesSeparaveis(Setor)
  {
    forall i | 0 <= i < |Setor.conexoes| ensures SegmentoIntermediario(Setor.conexoes[i].campoRelacao) {
      if i == 0 {
        assert Setor.conexoes[i].campoRelacao == "base";
        assert SegmentoIntermediario("base");
      } else if i == 1 {
        assert Setor.conexoes[i].campoRelacao == "membro";
        assert SegmentoIntermediario("membro");
      }
    }
  }

  lemma NomesCamposSetor()
    ensures CamposSeparaveis(Setor)
  {
  }

  lemma CamposSetor()
    ensures CamposUnicos(Setor)
  {
  }

  lemma RelacoesUnidade()
    ensures RelacoesUnicas(Unidade)
    ensures forall i :: 0 <= i < |Unidade.conexoes| ==> Unidade.conexoes[i].modelDestino in EsquemaBd
  {
    ChavesEsquemaBd();
  }

  lemma NomesRelacoesUnidade()
    ensures RelacoesSeparaveis(Unidade)
  {
    forall i | 0 <= i < |Unidade.conexoes| ensures SegmentoIntermediario(Unidade.conexoes[i].campoRelacao) {
      if i == 0 {
        assert Unidade.conexoes[i].campoRelacao == "base";
        assert SegmentoIntermediario("base");
      } else if i == 1 {
        assert Unidade.conexoes[i].campoRelacao == "chamado_unidade";
        assert SegmentoIntermediario("chamado_unidade");
      }
    }
  }

  lemma NomesCamposUnidade()
    ensures CamposSeparaveis(Unidade)
  {
  }

  lemma CamposUnidade()
    ensures CamposUnicos(Unidade)
  {
  }

  lemma RelacoesUnidadeChamado()
    ensures RelacoesUnicas(UnidadeChamado)
    ensures forall i :: 0 <= i < |UnidadeChamado.conexoes| ==> UnidadeChamado.conexoes[i].modelDestino in EsquemaBd
  {
    ChavesEsquemaBd();
  }

  lemma NomesRelacoesUnidadeChamado()
    ensures RelacoesSeparaveis(UnidadeChamado)
  {
    forall i | 0 <= i < |UnidadeChamado.conexoes| ensures SegmentoIntermediario(UnidadeChamado.conexoes[i].campoRelacao) {
      if i == 0 {
        assert UnidadeChamado.conexoes[i].campoRelacao == "chamado";
        assert SegmentoIntermediario("chamado");
      } else if i == 1 {
        assert UnidadeChamado.conexoes[i].campoRelacao == "unidade";
        assert SegmentoIntermediario("unidade");
      }
    }
  }

  lemma NomesCamposUnidadeChamado()
    ensures CamposSeparaveis(UnidadeChamado)
  {
  }

  lemma CamposUnidadeChamado()
    ensures CamposUnicos(UnidadeChamado)
  {
  }

  lemma RelacoesUsuario()
    ensures RelacoesUnicas(Usuario)
    ensures forall i :: 0 <= i < |Usuario.conexoes| ==> Usuario.conexoes[i].modelDestino in EsquemaBd
  {
    ChavesEsquemaBd();
  }

  lemma NomesRelacoesUsuario()
    ensures RelacoesSeparaveis(Usuario)
  {
    forall i | 0 <= i < |Usuario.conexoes| ensures SegmentoIntermediario(Usuario.conexoes[i].campoRelacao) {
      if i == 0 {
        assert Usuario.conexoes[i].campoRelacao == "resposavel_base";
        assert SegmentoIntermediario("resposavel_base");
      } else if i == 1 {
        assert Usuario.conexoes[i].campoRelacao == "pessoa";
        assert SegmentoIntermediario("pessoa");
      }
    }
  }

  lemma NomesCamposUsuario()
    ensures CamposSeparaveis(Usuario)
  {
  }

  lemma CamposUsuario()
    ensures CamposUnicos(Usuario)
  {
  }

  lemma TabelasDoLiteralOk()
    ensures forall k :: k in EsquemaBd ==> TabelaDoLiteralOk(EsquemaBd[k])
  {
    forall k | k in EsquemaBd ensures TabelaDoLiteralOk(EsquemaBd[k]) {
      ChavesEsquemaBd();
      if k == "Chamado" {
        RelacoesChamado();
        NomesRelacoesChamado();
        NomesCamposChamado();
        CamposChamado();
      } else if k == "Pessoa" {
        RelacoesPessoa();
        NomesRelacoesPessoa();
        NomesCamposPessoa();
        CamposPessoa();
      } else if k == "AtendimentoPessoa" {
        RelacoesAtendimentoPessoa();
        NomesRelacoesAtendimentoPessoa();
        NomesCamposAtendimentoPessoa();
        CamposAtendimentoPessoa();
      } else if k == "Base" {
        RelacoesBase();
        NomesRelacoesBase();
        NomesCamposBase();
        CamposBase();
      } else if k == "Setor" {
        RelacoesSetor();
        NomesRelacoesSetor();
        NomesCamposSetor();
        CamposSetor();
      } else if k == "Unidade" {
        RelacoesUnidade();
        NomesRelacoesUnidade();
        NomesCamposUnidade();
        CamposUnidade();
      } else if k == "UnidadeChamado" {
        RelacoesUnidadeChamado();
        NomesRelacoesUnidadeChamado();
        NomesCamposUnidadeChamado();
        CamposUnidadeChamado();
      } else if k == "Usuário" {
        RelacoesUsuario();
        NomesRelacoesUsuario();
        NomesCamposUsuario();
        CamposUsuario();
      }
    }
  }

  /** The literal satisfies every rule the resolver and the builder rely on. */
  lemma EsquemaBdBemFormado()
    ensures BemFormado(EsquemaBd)
  {
    TabelasDoLiteralOk();
  }
}

=== FILE: estilo.dfy ===
/** The style panel of the page editor (static/index.js): the toolbar toggles
    and the property setters act on the inline style of the selected element,
    and deleting an element clears the selection when it was the one
    selected. */
module EstiloEditor {
  import opened Texto

  /** The inline style properties the panel writes. */
  datatype Estilo = Estilo(
    fontWeight: string, fontStyle: string, textDecoration: string, textAlign: string,
    fontSize: string, color: string, backgroundColor: string, fontFamily: string,
    borderColor: string, borderStyle: string, borderWidth: string)

  datatype Propriedade =
    | Alinhamento | TamanhoFonte | CorTexto | CorFundo | Fonte
    | CorBorda | EstiloBorda | EspessuraBorda

  function Ler(e: Estilo, p: Propriedade): string {
    match p
    case Alinhamento => e.textAlign
    case TamanhoFonte => e.fontSize
    case CorTexto => e.color
    case CorFundo => e.backgroundColor
    case Fonte => e.fontFamily
    case CorBorda => e.borderColor
    case EstiloBorda => e.borderStyle
    case EspessuraBorda => e.borderWidth
  }

  /** `style.<propriedade> = valor`: that property takes the value and every
      other property, toggled ones included, keeps its own. */
  function Definir(e: Estilo, p: Propriedade, valor: string): (r: Estilo)
    ensures Ler(r, p) == valor
    ensures forall q :: q != p ==> Ler(r, q) == Ler(e, q)
    ensures r.fontWeight == e.fontWeight && r.fontStyle == e.fontStyle
    ensures r.textDecoration == e.textDecoration
  {
    match p
    case Alinhamento => e.(textAlign := valor)
    case TamanhoFonte => e.(fontSize := valor)
    case CorTexto => e.(color := valor)
    case CorFundo => e.(backgroundColor := valor)
    case Fonte => e.(fontFamily := valor)
    case CorBorda => e.(borderColor := valor)
    case EstiloBorda => e.(borderStyle := valor)
    case EspessuraBorda => e.(borderWidth := valor)
  }

  /** The `switch` of `aplicarEstilo`: bold and italic flip between their
      value and "normal"; underline and line-through become "none" when the
      decoration already mentions them and otherwise replace it; any other
      name changes nothing. */
  function Alternar(e: Estilo, estilo: string): (r: Estilo)
    ensures estilo == "bold" ==>
      (&& r == e.(fontWeight := r.fontWeight)
       && (r.fontWeight == "normal" <==> e.fontWeight == "bold")
       && (r.fontWeight == "bold" <==> e.fontWeight != "bold"))
    ensures estilo == "italic" ==>
      (&& r == e.(fontStyle := r.fontStyle)
       && (r.fontStyle == "normal" <==> e.fontStyle == "italic")
       && (r.fontStyle == "italic" <==> e.fontStyle != "italic"))
    ensures (estilo == "underline" || estilo == "line-through") ==>
      (&& r == e.(textDecoration := r.textDecoration)
       && (r.textDecoration == "none" <==> Contem(e.textDecoration, estilo))
       && (r.textDecoration == estilo <==> !Contem(e.textDecoration, estilo)))
    ensures estilo !in {"bold", "italic", "underline", "line-through"} ==> r == e
  {
    if estilo == "bold" then
      e.(fontWeight := if e.fontWeight == "bold" then "normal" else "bold")
    else if estilo == "italic" then
      e.(fontStyle := if e.fontStyle == "italic" then "normal" else "italic")
    else if estilo == "underline" || estilo == "line-through" then
      e.(textDecoration := if Contem(e.textDecoration, estilo) then "none" else estilo)
    else e
  }

  /** Toggling twice restores a style whose value was one the toggle itself
      writes. */
  lemma AlternarDuasVezes(e: Estilo, estilo: string)
    requires estilo == "bold" ==> e.fontWeight in {"bold", "normal"}
    requires estilo == "italic" ==> e.fontStyle in {"italic", "normal"}
    requires (estilo == "underline" || estilo == "line-through") ==>
      e.textDecoration in {"none", estilo}
    ensures Alternar(Alternar(e, estilo), estilo) == e
  {
    if estilo == "underline" || estilo == "line-through" {
      NoneNaoContem(estilo);
      ContemASi(estilo);
    }
  }

  /** "none" mentions neither decoration. */
  lemma NoneNaoContem(estilo: string)
    requires estilo == "underline" || estilo == "line-through"
    ensures !Contem("none", estilo)
  {
  }

  lemma ContemASi(s: string)
    ensures Contem(s, s)
  {
    assert OcorreEm(s, s, 0) by { assert s[0..|s|] == s; }
    ContemSe(s, s);
  }

  /** An element on the page, its inline style changed in place. */
  class Elemento {
    var estilo: Estilo

    constructor(estilo: Estilo)
      ensures this.estilo == estilo
    {
      this.estilo := estilo;
    }
  }

  /** The page editor: the elements on the canvas and the one selected. */
  class Editor {
    var elementos: seq<Elemento>
    var elementoSelecionado: Elemento?

    constructor()
      ensures elementos == [] && elementoSelecionado == null
    {
      elementos := [];
      elementoSelecionado := null;
    }

    /** `aplicarEstilo(style)`. */
    method AplicarEstilo(estilo: string)
      modifies elementoSelecionado
      ensures elementoSelecionado == old(elementoSelecionado)
      ensures elementoSelecionado != null ==>
        elementoSelecionado.estilo == Alternar(old(elementoSelecionado.estilo), estilo)
    {
      if elementoSelecionado == null {
        return;
      }
      elementoSelecionado.estilo := Alternar(elementoSelecionado.estilo, estilo);
    }

    /** The common shape of `aplicarAlinhamento` and the `mudar*` setters. */
    method Mudar(p: Propriedade, valor: string)
      modifies elementoSelecionado
      ensures elementoSelecionado == old(elementoSelecionado)
      ensures elementoSelecionado != null ==>
        elementoSelecionado.estilo == Definir(old(elementoSelecionado.estilo), p, valor)
    {
      if elementoSelecionado == null {
        return;
      }
      elementoSelecionado.estilo := Definir(elementoSelecionado.estilo, p, valor);
    }

    /** `aplicarAlinhamento(align)`. */
    method AplicarAlinhamento(alinhamento: string)
      modifies elementoSelecionado
      ensures elementoSelecionado == old(elementoSelecionado)
      ensures elementoSelecionado != null ==>
        elementoSelecionado.estilo == Definir(old(elementoSelecionado.estilo), Alinhamento, alinhamento)
    {
      Mudar(Alinhamento, alinhamento);
    }

    /** `mudarTamanhoDaFonte(size)`: the size in pixels. */
    method MudarTamanhoDaFonte(tamanho: string)
      modifies elementoSelecionado
      ensures elementoSelecionado == old(elementoSelecionado)
      ensures elementoSelecionado != null ==>
        elementoSelecionado.estilo == Definir(old(elementoSelecionado.estilo), TamanhoFonte, tamanho + "px")
    {
      Mudar(TamanhoFonte, tamanho + "px");
    }

    /** `mudarCorDoTexto(color)`. */
    method MudarCorDoTexto(cor: string)
      modifies elementoSelecionado
      ensures elementoSelecionado == old(elementoSelecionado)
      ensures elementoSelecionado != null ==>
        elementoSelecionado.estilo == Definir(old(elementoSelecionado.estilo), CorTexto, cor)
    {
      Mudar(CorTexto, cor);
    }

    /** `mudarCorDeFundo(color)`. */
    method MudarCorDeFundo(cor: string)
      modifies elementoSelecionado
      ensures elementoSelecionado == old(elementoSelecionado)
      ensures elementoSelecionado != null ==>
        elementoSelecionado.estilo == Definir(old(elementoSelecionado.estilo), CorFundo, cor)
    {
      Mudar(CorFundo, cor);
    }

    /** `mudarFonte(font)`. */
    method MudarFonte(fonte: string)
      modifies elementoSelecionado
      ensures elementoSelecionado == old(elementoSelecionado)
      ensures elementoSelecionado != null ==>
        elementoSelecionado.estilo == Definir(old(elementoSelecionado.estilo), Fonte, fonte)
    {
      Mudar(Fonte, fonte);
    }

    /** `mudarCorDaBorda(color)`. */
    method MudarCorDaBorda(cor: string)
      modifies elementoSelecionado
      ensures elementoSelecionado == old(elementoSelecionado)
      ensures elementoSelecionado != null ==>
        elementoSelecionado.estilo == Definir(old(elementoSelecionado.estilo), CorBorda, cor)
    {
      Mudar(CorBorda, cor);
    }

    /** `mudarEstiloDaBorda(style)`. */
    method MudarEstiloDaBorda(estilo: string)
      modifies elementoSelecionado
      ensures elementoSelecionado == old(elementoSelecionado)
      ensures elementoSelecionado != null ==>
        elementoSelecionado.estilo == Definir(old(elementoSelecionado.estilo), EstiloBorda, estilo)
    {
      Mudar(EstiloBorda, estilo);
    }

    /** `mudarEspessuraDaBorda(width)`: the width in pixels. */
    method MudarEspessuraDaBorda(espessura: string)
      modifies elementoSelecionado
      ensures elementoSelecionado == old(elementoSelecionado)
      ensures elementoSelecionado != null ==>
        elementoSelecionado.estilo == Definir(old(elementoSelecionado.estilo), EspessuraBorda, espessura + "px")
    {
      Mudar(EspessuraBorda, espessura + "px");
    }

    /** `deleteElement(btn)`, `elemento` being the button's parent: it leaves
      the page, and the selection is cleared exactly when it was this one. */
    method ExcluirElemento(elemento: Elemento)
      modifies this
      ensures elementos == Sem(old(elementos), elemento)
      ensures elementoSelecionado == if old(elementoSelecionado) == elemento then null
        else old(elementoSelecionado)
    {
      elementos := Sem(elementos, elemento);
      if elementoSelecionado == elemento {
        elementoSelecionado := null;
      }
    }
  }

  /** The list without `x`, the others in their order. */
  function Sem(xs: seq<Elemento>, x: Elemento): (r: seq<Elemento>)
    ensures x !in r
    ensures forall i :: 0 <= i < |r| ==> r[i] in xs
    ensures forall i :: 0 <= i < |xs| && xs[i] != x ==> xs[i] in r
    ensures x !in xs ==> r == xs
  {
    if |xs| == 0 then []
    else if xs[0] == x then Sem(xs[1..], x)
    else [xs[0]] + Sem(xs[1..], x)
  }
}

=== FILE: lotes.dfy ===
/** Processing a list element by element and stopping at the first error, as
    the server's loops do when a step raises. */
module Lotes {
  import opened Wrappers

  /** Applies `f` to every element in order; the first error is the result. */
  function MapearAteErro<A, B, E>(f: A -> Result<B, E>, xs: seq<A>): Result<seq<B>, E>
    decreases |xs|
  {
    if |xs| == 0 then Ok([])
    else match MapearAteErro(f, xs[..|xs| - 1])
      case Err(m) => Err(m)
      case Ok(ys) =>
        match f(xs[|xs| - 1])
        case Err(m) => Err(m)
        case Ok(y) => Ok(ys + [y])
  }

  /** The mapping succeeds iff every element does; it then holds each
      element's image in order; otherwise it is the error of the first
      element that fails. */
  lemma {:induction false} MapearAteErroSe<A, B, E>(f: A -> Result<B, E>, xs: seq<A>)
    ensures MapearAteErro(f, xs).Ok? <==> forall i :: 0 <= i < |xs| ==> f(xs[i]).Ok?
    ensures MapearAteErro(f, xs).Ok? ==>
      |MapearAteErro(f, xs).value| == |xs| &&
      forall i :: 0 <= i < |xs| ==> MapearAteErro(f, xs).value[i] == f(xs[i]).value
    ensures MapearAteErro(f, xs).Err? ==>
      exists i :: 0 <= i < |xs| && f(xs[i]) == Err(MapearAteErro(f, xs).error)
                  && forall j :: 0 <= j < i ==> f(xs[j]).Ok?
    decreases |xs|
  {
    if |xs| > 0 {
      var ini := xs[..|xs| - 1];
      MapearAteErroSe(f, ini);
      assert forall i :: 0 <= i < |ini| ==> ini[i] == xs[i];
      if MapearAteErro(f, ini).Err? {
        var i :| 0 <= i < |ini| && f(ini[i]) == Err(MapearAteErro(f, ini).error)
                 && forall j :: 0 <= j < i ==> f(ini[j]).Ok?;
        assert f(xs[i]) == Err(MapearAteErro(f, xs).error);
      } else if f(xs[|xs| - 1]).Err? {
        assert f(xs[|xs| - 1]) == Err(MapearAteErro(f, xs).error);
      }
    }
  }

  /** Once a prefix fails, the whole list fails the same way. */
  lemma {:induction false} MapearFalhaPrefixo<A, B, E>(f: A -> Result<B, E>, xs: seq<A>, n: nat)
    requires 0 < n <= |xs|
    requires MapearAteErro(f, xs[..n]).Err?
    ensures MapearAteErro(f, xs) == MapearAteErro(f, xs[..n])
    decreases |xs| - n
  {
    if n < |xs| {
      assert xs[..n + 1][..n] == xs[..n];
      MapearFalhaPrefixo(f, xs, n + 1);
    } else {
      assert xs[..n] == xs;
    }
  }

  /** Threads a state through the elements; the result is the state reached
      and, if a step failed, its error (the state is then the one before that
      step). */
  function AcumularAteErro<S, A, E>(passo: (S, A) -> Result<S, E>, s: S, xs: seq<A>): (S, Option<E>)
    decreases |xs|
  {
    if |xs| == 0 then (s, None)
    else
      var antes := AcumularAteErro(passo, s, xs[..|xs| - 1]);
      if antes.1.Some? then antes
      else match passo(antes.0, xs[|xs| - 1])
        case Err(m) => (antes.0, Some(m))
        case Ok(depois) => (depois, None)
  }

  /** Once a prefix fails, the whole list ends in the same state and error. */
  lemma {:induction false} AcumularFalhaPrefixo<S, A, E>(passo: (S, A) -> Result<S, E>, s: S, xs: seq<A>, n: nat)
    requires 0 < n <= |xs|
    requires AcumularAteErro(passo, s, xs[..n]).1.Some?
    ensures AcumularAteErro(passo, s, xs) == AcumularAteErro(passo, s, xs[..n])
    decreases |xs| - n
  {
    if n < |xs| {
      assert xs[..n + 1][..n] == xs[..n];
      AcumularFalhaPrefixo(passo, s, xs, n + 1);
    } else {
      assert xs[..n] == xs;
    }
  }

  /** When whether a step succeeds depends only on the element, the fold
      finishes iff every element is acceptable. */
  lemma {:induction false} AcumularOkSe<S(!new), A(!new), E>(passo: (S, A) -> Result<S, E>, valido: A -> bool, s: S, xs: seq<A>)
    requires forall t, x :: passo(t, x).Ok? <==> valido(x)
    ensures AcumularAteErro(passo, s, xs).1.None? <==> forall i :: 0 <= i < |xs| ==> valido(xs[i])
    decreases |xs|
  {
    if |xs| > 0 {
      var ini := xs[..|xs| - 1];
      AcumularOkSe(passo, valido, s, ini);
      assert forall i :: 0 <= i < |ini| ==> ini[i] == xs[i];
      var antes := AcumularAteErro(passo, s, ini);
      assert passo(antes.0, xs[|xs| - 1]).Ok? <==> valido(xs[|xs| - 1]);
    }
  }

  /** A property of (elements processed, state) that holds initially and
      that every successful step carries forward holds after a fold that
      finishes. */
  lemma {:induction false} AcumularInvariante<S(!new), A(!new), E>(passo: (S, A) -> Result<S, E>, inv: (seq<A>, S) -> bool, s: S, xs: seq<A>)
    requires inv([], s)
    requires forall ys, x, t :: inv(ys, t) && passo(t, x).Ok? ==> inv(ys + [x], passo(t, x).value)
    requires AcumularAteErro(passo, s, xs).1.None?
    ensures inv(xs, AcumularAteErro(passo, s, xs).0)
    decreases |xs|
  {
    if |xs| > 0 {
      var ini := xs[..|xs| - 1];
      AcumularInvariante(passo, inv, s, ini);
      var antes := AcumularAteErro(passo, s, ini);
      assert inv(ini, antes.0) && passo(antes.0, xs[|xs| - 1]).Ok?;
      assert ini + [xs[|xs| - 1]] == xs;
    }
  }
}

=== FILE: projecao.dfy ===
/** The layout the page editor sends to the server (static/js/index.js,
    `obterEsquemaRelatorio`): one record per report element, with its
    position on the page, its size and computed style, its text when it is a
    text block and its query configuration when it is a table. */
module ProjecaoRelatorio {
  import opened Wrappers

  /** The transform the browser computes for an element: none, a
      `translate(Xpx, Ypx)` the pattern recognises, or any other value. */
  datatype TransformCalculado = Nenhum | Translacao(x: int, y: int) | Outro

  /** What the projection reads from an element on the page.  The numeric
      attributes are `None` when absent or not a number (where `parseFloat`
      gives NaN); `tipo` and `queryConfig` are the `data-*` attributes. */
  datatype ElementoPagina = ElementoPagina(
    id: string, tipo: Option<string>,
    styleLeft: Option<int>, styleTop: Option<int>,
    dataX: Option<int>, dataY: Option<int>,
    transform: TransformCalculado,
    width: string, height: string, innerText: string,
    queryConfig: Option<string>,
    fontSize: string, fontWeight: string, color: string,
    backgroundColor: string, border: string)

  /** The record sent for one element; `left`/`top` are in pixels and `query`
      is the configuration text handed to `JSON.parse`. */
  datatype Registro = Registro(
    id: string, tipo: Option<string>,
    left: int, top: int, width: string, height: string,
    fontSize: string, fontWeight: string, color: string,
    backgroundColor: string, border: string,
    content: Option<string>, query: Option<string>)

  /** `parseFloat(v) || 0`: absent and NaN both count as 0. */
  function OuZero(v: Option<int>): (r: int)
    ensures v.Some? ==> r == v.value
    ensures v.None? ==> r == 0
  {
    match v
    case Some(n) => n
    case None => 0
  }

  /** `queryConfig || "{}"`: absent and empty both become an empty object. */
  function ConfiguracaoOuVazia(c: Option<string>): (r: string)
    ensures |r| > 0
    ensures c.Some? && c.value != "" ==> r == c.value
    ensures c.None? || c.value == "" ==> r == "{}"
  {
    if c.Some? && c.value != "" then c.value else "{}"
  }

  /** The offset added to the style position: the recognised translation
      when there is one, the `data-x`/`data-y` attributes otherwise. */
  function Deslocamento(el: ElementoPagina): (r: (int, int))
    ensures el.transform.Translacao? ==> r == (el.transform.x, el.transform.y)
    ensures !el.transform.Translacao? ==> r == (OuZero(el.dataX), OuZero(el.dataY))
  {
    match el.transform
    case Translacao(x, y) => (x, y)
    case _ => (OuZero(el.dataX), OuZero(el.dataY))
  }

  /** The record an element yields, field by field. */
  function Projecao(el: ElementoPagina): (r: Registro)
    ensures r.id == el.id && r.tipo == el.tipo
    ensures r.left == OuZero(el.styleLeft) + Deslocamento(el).0
    ensures r.top == OuZero(el.styleTop) + Deslocamento(el).1
    ensures r.width == el.width && r.height == el.height
    ensures r.fontSize == el.fontSize && r.fontWeight == el.fontWeight
    ensures r.color == el.color && r.backgroundColor == el.backgroundColor
    ensures r.border == el.border
    ensures r.content.Some? <==> el.tipo == Some("texto")
    ensures r.content.Some? ==> r.content.value == el.innerText
    ensures r.query.Some? <==> el.tipo == Some("tabela")
    ensures r.query.Some? ==> r.query.value == ConfiguracaoOuVazia(el.queryConfig)
  {
    var (dx, dy) := Deslocamento(el);
    Registro(
      el.id, el.tipo,
      OuZero(el.styleLeft) + dx, OuZero(el.styleTop) + dy,
      el.width, el.height,
      el.fontSize, el.fontWeight, el.color, el.backgroundColor, el.border,
      if el.tipo == Some("texto") then Some(el.innerText) else None,
      if el.tipo == Some("tabela") then Some(ConfiguracaoOuVazia(el.queryConfig)) else None)
  }

  /** The callback of the `map`: the offsets start from the attributes and
      are overwritten by a recognised translation. */
  method ProjetarElemento(el: ElementoPagina) returns (r: Registro)
    ensures r == Projecao(el)
  {
    var left := OuZero(el.styleLeft);
    var top := OuZero(el.styleTop);
    var x := OuZero(el.dataX);
    var y := OuZero(el.dataY);
    if el.transform != Nenhum {
      if el.transform.Translacao? {
        x := el.transform.x;
        y := el.transform.y;
      }
    }
    var content := if el.tipo == Some("texto") then Some(el.innerText) else None;
    var query := if el.tipo == Some("tabela") then Some(ConfiguracaoOuVazia(el.queryConfig)) else None;
    r := Registro(el.id, el.tipo, left + x, top + y, el.width, el.height,
      el.fontSize, el.fontWeight, el.color, el.backgroundColor, el.border, content, query);
  }

  /** `obterEsquemaRelatorio()`: one record per element, in page order. */
  method ObterEsquemaRelatorio(els: seq<ElementoPagina>) returns (itens: seq<Registro>)
    ensures |itens| == |els|
    ensures forall i :: 0 <= i < |els| ==> itens[i] == Projecao(els[i])
  {
    itens := [];
    var i := 0;
    while i < |els|
      invariant 0 <= i <= |els|
      invariant |itens| == i
      invariant forall k :: 0 <= k < i ==> itens[k] == Projecao(els[k])
    {
      var item := ProjetarElemento(els[i]);
      itens := itens + [item];
      i := i + 1;
    }
  }

  /** When the translation the browser reports is the one recorded in the
      attributes, or is not one the pattern recognises, the position sent is
      the style position plus the recorded offsets: the place the element is
      drawn after a drag. */
  lemma PosicaoDesenhada(el: ElementoPagina)
    requires el.transform == Translacao(OuZero(el.dataX), OuZero(el.dataY)) || el.transform == Outro
             || el.transform == Nenhum
    ensures Projecao(el).left == OuZero(el.styleLeft) + OuZero(el.dataX)
    ensures Projecao(el).top == OuZero(el.styleTop) + OuZero(el.dataY)
  {
  }

  /** A recognised translation takes precedence over the attributes: two
      elements that differ only in `data-x`/`data-y` report the same place. */
  lemma TranslacaoPrevalece(a: ElementoPagina, b: ElementoPagina)
    requires a.transform.Translacao? && a == b.(dataX := a.dataX, dataY := a.dataY)
    ensures Projecao(a) == Projecao(b)
  {
  }
}

=== FILE: resolvedor.dfy ===
/** Path resolution of the server-side query builder (`_buscar_na_lista` and
    `_resolver_caminho` of `ConstrutorConsulta`): a "__"-separated path is
    walked relation by relation through the schema and must end on a field. */
module Resolvedor {
  import opened Wrappers
  import opened Texto
  import opened EsquemaDados

  /** Why building or running a query fails.  All but `EntidadeAusente` are
      `ValidationError`s; `EntidadeAusente` is the `AttributeError` raised
      when `esquema.get(...)` yields `None` for a relation target that is not
      a key of the schema. */
  datatype Erro =
    | RaizInvalida(nome: Option<string>)
    | ModeloNaoEncontrado(appModel: string)
    | RelacaoInvalida(relacao: string, entidade: string)
    | CampoNaoEncontrado(campo: string, entidade: string)
    | SemColunas
    | AgregacaoInvalida(funcao: string)
    | EntidadeAusente(entidade: string)
  {
    predicate DeValidacao() {
      !EntidadeAusente?
    }
  }

  /** Index of the first item whose key equals `valor`. */
  function PrimeiroIndice<T>(lista: seq<T>, chave: T -> string, valor: string): (r: Option<nat>)
    ensures r.Some? ==> r.value < |lista| && chave(lista[r.value]) == valor
    ensures r.Some? ==> forall j :: 0 <= j < r.value ==> chave(lista[j]) != valor
    ensures r.None? <==> forall j :: 0 <= j < |lista| ==> chave(lista[j]) != valor
    decreases |lista|
  {
    if |lista| == 0 then None
    else if chave(lista[0]) == valor then Some(0)
    else match PrimeiroIndice(lista[1..], chave, valor)
      case None => (assert forall j :: 1 <= j < |lista| ==> lista[j] == lista[1..][j - 1]; None)
      case Some(i) => Some(i + 1)
  }

  /** The item `_buscar_na_lista` yields: the first match, or `None`. */
  function Primeiro<T>(lista: seq<T>, chave: T -> string, valor: string): Option<T> {
    match PrimeiroIndice(lista, chave, valor)
    case None => None
    case Some(i) => Some(lista[i])
  }

  /** `_buscar_na_lista`: scans the list and returns at the first item whose
      key equals `valor`. */
  method BuscarNaLista<T>(lista: seq<T>, chave: T -> string, valor: string) returns (r: Option<T>)
    ensures r.Some? <==> exists j :: 0 <= j < |lista| && chave(lista[j]) == valor
    ensures r.Some? ==> chave(r.value) == valor
    ensures r == Primeiro(lista, chave, valor)
  {
    var i := 0;
    while i < |lista|
      invariant 0 <= i <= |lista|
      invariant forall j :: 0 <= j < i ==> chave(lista[j]) != valor
    {
      if chave(lista[i]) == valor {
        return Some(lista[i]);
      }
      i := i + 1;
    }
    return None;
  }

  function ChaveConexao(c: Conexao): string { c.campoRelacao }
  function ChaveCampo(c: Campo): string { c.valor }

  /** The walk of `_resolver_caminho` from `entidade` over `partes`: every
      segment but the last must be a relation of the current table, the last
      a field of the table reached.  Yields the ORM segments and the field
      type. */
  function Resolver(e: Esquema, entidade: string, partes: seq<string>): (r: Result<(seq<string>, string), Erro>)
    requires |partes| >= 1
    ensures r.Ok? ==> r.value.0 == partes
    ensures r.Err? && r.error.RelacaoInvalida? ==> r.error.relacao in partes[..|partes| - 1]
    ensures r.Err? && r.error.CampoNaoEncontrado? ==> r.error.campo == partes[|partes| - 1]
    ensures r.Err? ==> !r.error.RaizInvalida? && !r.error.ModeloNaoEncontrado?
    decreases |partes|
  {
    if entidade !in e then Err(EntidadeAusente(entidade))
    else if |partes| == 1 then
      match Primeiro(e[entidade].campos, ChaveCampo, partes[0])
      case None => Err(CampoNaoEncontrado(partes[0], entidade))
      case Some(c) => Ok(([c.valor], c.tipo))
    else
      match Primeiro(e[entidade].conexoes, ChaveConexao, partes[0])
      case None => Err(RelacaoInvalida(partes[0], entidade))
      case Some(x) =>
        var resto := Resolver(e, x.modelDestino, partes[1..]);
        assert partes[1..][..|partes| - 2] == partes[1..|partes| - 1];
        assert partes[1..][|partes| - 2] == partes[|partes| - 1];
        Prefixar([x.campoRelacao], resto)
  }

  /** Puts already resolved ORM segments in front of a walk's outcome. */
  function Prefixar(orm: seq<string>, r: Result<(seq<string>, string), Erro>): Result<(seq<string>, string), Erro> {
    match r
    case Err(m) => Err(m)
    case Ok((o, t)) => Ok((orm + o, t))
  }

  /** What `_resolver_caminho(caminho)` returns from the root `raiz`. */
  function CaminhoResolvido(e: Esquema, raiz: string, caminho: string): Result<(string, string), Erro> {
    JuntarDividir(caminho);
    match Resolver(e, raiz, Dividir(caminho))
    case Err(m) => Err(m)
    case Ok((orm, t)) => Ok((Juntar(orm, Separador), t))
  }

  /** On success the ORM path handed to Django is the requested path itself. */
  lemma CaminhoResolvidoDevolveEntrada(e: Esquema, raiz: string, caminho: string)
    ensures CaminhoResolvido(e, raiz, caminho).Ok? ==> CaminhoResolvido(e, raiz, caminho).value.0 == caminho
  {
    JuntarDividir(caminho);
  }

  /** `_resolver_caminho`: splits the path, follows the relations one by one
      and then looks up the final field. */
  method ResolverCaminho(e: Esquema, raiz: string, caminho: string) returns (r: Result<(string, string), Erro>)
    ensures r == CaminhoResolvido(e, raiz, caminho)
  {
    var partes := Dividir(caminho);
    JuntarDividir(caminho);
    var entidadeAtual := raiz;
    var partesOrm: seq<string> := [];
    var i := 0;
    assert partes[i..] == partes;
    ghost var inicial := Resolver(e, raiz, partes);
    if inicial.Ok? {
      assert [] + inicial.value.0 == inicial.value.0;
    }
    while i < |partes| - 1
      invariant 0 <= i <= |partes| - 1
      invariant Prefixar(partesOrm, Resolver(e, entidadeAtual, partes[i..])) == Resolver(e, raiz, partes)
    {
      if entidadeAtual !in e {
        return Err(EntidadeAusente(entidadeAtual));
      }
      var conexao := BuscarNaLista(e[entidadeAtual].conexoes, ChaveConexao, partes[i]);
      if conexao.None? {
        return Err(RelacaoInvalida(partes[i], entidadeAtual));
      }
      assert partes[i..][1..] == partes[i + 1..];
      PrefixarAnexa(partesOrm, conexao.value.campoRelacao, Resolver(e, conexao.value.modelDestino, partes[i + 1..]));
      partesOrm := partesOrm + [conexao.value.campoRelacao];
      entidadeAtual := conexao.value.modelDestino;
      i := i + 1;
    }
    assert partes[i..] == [partes[i]];
    if entidadeAtual !in e {
      return Err(EntidadeAusente(entidadeAtual));
    }
    var configCampo := BuscarNaLista(e[entidadeAtual].campos, ChaveCampo, partes[i]);
    if configCampo.None? {
      return Err(CampoNaoEncontrado(partes[i], entidadeAtual));
    }
    partesOrm := partesOrm + [configCampo.value.valor];
    return Ok((Juntar(partesOrm, Separador), configCampo.value.tipo));
  }

  lemma PrefixarAnexa(orm: seq<string>, x: string, r: Result<(seq<string>, string), Erro>)
    ensures Prefixar(orm, Prefixar([x], r)) == Prefixar(orm + [x], r)
  {
    if r.Ok? {
      assert orm + ([x] + r.value.0) == orm + [x] + r.value.0;
    }
  }

  /** A declarative reading of an accepted path: some relation of the current
      table carries the segment's name and the rest is accepted from its
      target; the last segment names some field. */
  predicate Aceito(e: Esquema, entidade: string, partes: seq<string>)
    decreases |partes|
  {
    |partes| >= 1 && entidade in e &&
    if |partes| == 1 then
      exists j :: 0 <= j < |e[entidade].campos| && e[entidade].campos[j].valor == partes[0]
    else
      exists j :: 0 <= j < |e[entidade].conexoes| && e[entidade].conexoes[j].campoRelacao == partes[0]
        && Aceito(e, e[entidade].conexoes[j].modelDestino, partes[1..])
  }

  /** When relation names are unique per table, the walk succeeds exactly on
      the declaratively accepted paths. */
  lemma {:induction false} ResolverAceitaSe(e: Esquema, entidade: string, partes: seq<string>)
    requires |partes| >= 1
    requires forall k :: k in e ==> RelacoesUnicas(e[k])
    ensures Resolver(e, entidade, partes).Ok? <==> Aceito(e, entidade, partes)
    decreases |partes|
  {
    if entidade in e && |partes| > 1 {
      var t := e[entidade];
      var p := PrimeiroIndice(t.conexoes, ChaveConexao, partes[0]);
      if p.Some? {
        var x := t.conexoes[p.value];
        ResolverAceitaSe(e, x.modelDestino, partes[1..]);
        if Aceito(e, entidade, partes) {
          var j :| 0 <= j < |t.conexoes| && t.conexoes[j].campoRelacao == partes[0]
            && Aceito(e, t.conexoes[j].modelDestino, partes[1..]);
          assert RelacoesUnicas(t);
          assert j == p.value;
        }
      } else {
        assert !Aceito(e, entidade, partes);
      }
    }
  }

  // ---- The schema literal ------------------------------------------------

  /** Example from the test fixture: `unidades_operacionais` may precede the
      separator. */
  lemma SegmentosFixture()
    ensures SegmentoIntermediario("unidades_operacionais")
  {
  }

  /** Example from the test fixture: the path splits into its two segments. */
  lemma DividirFixture()
    ensures Dividir("unidades_operacionais__id") == ["unidades_operacionais", "id"]
  {
    var partes := ["unidades_operacionais", "id"];
    SegmentosFixture();
    assert SegmentosSeparaveis(partes);
    DividirJuntar(partes);
    assert Juntar(partes, Separador) == "unidades_operacionais__id";
  }

  /** Example from the test fixture: the two segments resolve from `Base`. */
  lemma ResolverFixture()
    ensures Resolver(EsquemaBd, "Base", ["unidades_operacionais", "id"]) == Ok((["unidades_operacionais", "id"], "int"))
  {
    assert EsquemaBd["Base"] == Base;
    assert PrimeiroIndice(Base.conexoes, ChaveConexao, "unidades_operacionais") == Some(3);
    assert EsquemaBd["Unidade"] == Unidade;
    assert PrimeiroIndice(Unidade.campos, ChaveCampo, "id") == Some(0);
    assert ["unidades_operacionais", "id"][1..] == ["id"];
  }

  /** Example, the path of the test fixture: from `Base`, the relation
      `unidades_operacionais` reaches `Unidade`, whose `id` is an int. */
  lemma CaminhoFixture()
    ensures CaminhoResolvido(EsquemaBd, "Base", "unidades_operacionais__id") == Ok(("unidades_operacionais__id", "int"))
  {
    DividirFixture();
    ResolverFixture();
    CaminhoResolvidoDevolveEntrada(EsquemaBd, "Base", "unidades_operacionais__id");
  }

  /** A segment naming a field of the current table rather than one of its
      relations is rejected, naming the segment and the table. */
  lemma RelacaoDesconhecidaRejeitada()
    ensures CaminhoResolvido(EsquemaBd, "Base", "cidade__id") == Err(RelacaoInvalida("cidade", "Base"))
  {
    var partes := ["cidade", "id"];
    assert SegmentosSeparaveis(partes);
    DividirJuntar(partes);
    assert Juntar(partes, Separador) == "cidade__id";
    assert EsquemaBd["Base"] == Base;
    assert PrimeiroIndice(Base.conexoes, ChaveConexao, "cidade") == None;
  }

  /** A final segment naming a relation rather than a field is rejected. */
  lemma CampoDesconhecidoRejeitado()
    ensures CaminhoResolvido(EsquemaBd, "Base", "central") == Err(CampoNaoEncontrado("central", "Base"))
  {
    var partes := ["central"];
    assert SegmentosSeparaveis(partes);
    DividirJuntar(partes);
    assert EsquemaBd["Base"] == Base;
    assert PrimeiroIndice(Base.campos, ChaveCampo, "central") == None;
  }
}

=== FILE: sql.dfy ===
/** `formatarSQL` of static/js/uteis.js: the SQL text of a report table is
    laid out as HTML, one block per clause keyword, with the lesser keywords
    highlighted inline. */
module FormatacaoSql {
  import opened Wrappers
  import opened Texto

  // ---- sql.replace(/\s+/g, " ").trim() ---------------------------------------------

  /** Every maximal run of white space becomes one space. */
  function Colapsar(s: string): (r: string)
    ensures forall i :: 0 <= i < |r| ==> EhEspaco(r[i]) ==> r[i] == ' '
    ensures forall i :: 0 <= i < |r| - 1 ==> !(r[i] == ' ' && r[i + 1] == ' ')
    ensures |s| > 0 && !EhEspaco(s[0]) ==> |r| > 0 && r[0] == s[0]
    decreases |s|
  {
    if |s| == 0 then ""
    else if EhEspaco(s[0]) then " " + Colapsar(s[EspacosIniciais(s)..])
    else [s[0]] + Colapsar(s[1..])
  }

  /** Drops the white space at the end. */
  function SemEspacosFinais(s: string): (r: string)
    ensures |r| <= |s| && r == s[..|r|]
    ensures |r| > 0 ==> !EhEspaco(r[|r| - 1])
    ensures forall i :: |r| <= i < |s| ==> EhEspaco(s[i])
    decreases |s|
  {
    if |s| > 0 && EhEspaco(s[|s| - 1]) then SemEspacosFinais(s[..|s| - 1]) else s
  }

  /** `String.prototype.trim`. */
  function Aparar(s: string): (r: string)
    ensures |r| > 0 ==> !EhEspaco(r[0]) && !EhEspaco(r[|r| - 1])
  {
    var inicio := EspacosIniciais(s);
    SemEspacosFinais(s[inicio..])
  }

  function Normalizar(sql: string): string {
    Aparar(Colapsar(sql))
  }

  /** The characters of `s` that are not white space. */
  function SemEspacos(s: string): string
    decreases |s|
  {
    if |s| == 0 then "" else (if EhEspaco(s[0]) then "" else [s[0]]) + SemEspacos(s[1..])
  }

  lemma {:induction false} SemEspacosConcatenar(a: string, b: string)
    ensures SemEspacos(a + b) == SemEspacos(a) + SemEspacos(b)
    decreases |a|
  {
    if |a| > 0 {
      assert (a + b)[0] == a[0];
      assert (a + b)[1..] == a[1..] + b;
      SemEspacosConcatenar(a[1..], b);
    } else {
      assert a + b == b;
    }
  }

  lemma {:induction false} SemEspacosSoEspacos(a: string)
    requires forall i :: 0 <= i < |a| ==> EhEspaco(a[i])
    ensures SemEspacos(a) == ""
    decreases |a|
  {
    if |a| > 0 {
      SemEspacosSoEspacos(a[1..]);
    }
  }

  lemma {:induction false} ColapsarPreserva(s: string)
    ensures SemEspacos(Colapsar(s)) == SemEspacos(s)
    decreases |s|
  {
    if |s| > 0 {
      if EhEspaco(s[0]) {
        var k := EspacosIniciais(s);
        ColapsarPreserva(s[k..]);
        SemEspacosConcatenar(" ", Colapsar(s[k..]));
        assert s == s[..k] + s[k..];
        SemEspacosConcatenar(s[..k], s[k..]);
        SemEspacosSoEspacos(s[..k]);
        assert SemEspacos(" ") == "" by { assert " "[1..] == ""; }
      } else {
        ColapsarPreserva(s[1..]);
        SemEspacosConcatenar([s[0]], Colapsar(s[1..]));
        assert SemEspacos([s[0]]) == [s[0]] by { assert [s[0]][1..] == ""; }
      }
    }
  }

  /** Dropping white space at either end keeps the other characters. */
  lemma SemEspacosRecorte(s: string, k: nat)
    requires k <= |s|
    requires (forall i :: 0 <= i < k ==> EhEspaco(s[i]))
      || (forall i :: k <= i < |s| ==> EhEspaco(s[i]))
    ensures (forall i :: 0 <= i < k ==> EhEspaco(s[i])) ==> SemEspacos(s[k..]) == SemEspacos(s)
    ensures (forall i :: k <= i < |s| ==> EhEspaco(s[i])) ==> SemEspacos(s[..k]) == SemEspacos(s)
  {
    assert s == s[..k] + s[k..];
    SemEspacosConcatenar(s[..k], s[k..]);
    if forall i :: 0 <= i < k ==> EhEspaco(s[i]) {
      SemEspacosSoEspacos(s[..k]);
    }
    if forall i :: k <= i < |s| ==> EhEspaco(s[i]) {
      SemEspacosSoEspacos(s[k..]);
    }
  }

  lemma ApararPreserva(s: string)
    ensures SemEspacos(Aparar(s)) == SemEspacos(s)
  {
    var inicio := EspacosIniciais(s);
    var meio := s[inicio..];
    var r := SemEspacosFinais(meio);
    SemEspacosRecorte(s, inicio);
    SemEspacosRecorte(meio, |r|);
  }

  /** After normalisation the only white space left is single spaces between
      other characters, and every other character of the text is kept, in
      order. */
  lemma NormalizarSe(sql: string)
    ensures var r := Normalizar(sql);
      && (forall i :: 0 <= i < |r| ==> EhEspaco(r[i]) ==> r[i] == ' ')
      && (forall i :: 0 <= i < |r| - 1 ==> !(r[i] == ' ' && r[i + 1] == ' '))
      && (|r| > 0 ==> r[0] != ' ' && r[|r| - 1] != ' ')
      && SemEspacos(r) == SemEspacos(sql)
  {
    var c := Colapsar(sql);
    var inicio := EspacosIniciais(c);
    var r := Normalizar(sql);
    assert r == c[inicio..][..|r|];
    assert forall i :: 0 <= i < |r| ==> r[i] == c[inicio + i];
    ColapsarPreserva(sql);
    ApararPreserva(c);
  }

  /** Text already in normal form. */
  predicate Normal(r: string) {
    && (forall i :: 0 <= i < |r| ==> EhEspaco(r[i]) ==> r[i] == ' ')
    && (forall i :: 0 <= i < |r| - 1 ==> !(r[i] == ' ' && r[i + 1] == ' '))
    && (|r| > 0 ==> r[0] != ' ' && r[|r| - 1] != ' ')
  }

  lemma {:induction false} ColapsarNormal(r: string)
    requires forall i :: 0 <= i < |r| ==> EhEspaco(r[i]) ==> r[i] == ' '
    requires forall i :: 0 <= i < |r| - 1 ==> !(r[i] == ' ' && r[i + 1] == ' ')
    ensures Colapsar(r) == r
    decreases |r|
  {
    if |r| > 0 {
      if EhEspaco(r[0]) {
        assert |r| == 1 || !EhEspaco(r[1]);
        assert EspacosIniciais(r) == 1;
      }
      ColapsarNormal(r[1..]);
    }
  }

  /** Normalising twice is normalising once. */
  lemma NormalizarIdempotente(sql: string)
    ensures Normalizar(Normalizar(sql)) == Normalizar(sql)
  {
    var r := Normalizar(sql);
    NormalizarSe(sql);
    ColapsarNormal(r);
    assert Normal(r);
    if |r| > 0 {
      assert EspacosIniciais(r) == 0;
    }
    assert r[0..] == r;
  }

  // ---- new RegExp(`\\b${palavra}\\b`, "gi") -----------------------------------------

  /** `\w` of a regular expression without the `u` flag. */
  predicate CaracterePalavra(c: char) {
    'a' <= c <= 'z' || 'A' <= c <= 'Z' || '0' <= c <= '9' || c == '_'
  }

  /** `\b` at position `k`: a word character on exactly one side. */
  predicate Fronteira(s: string, k: nat)
    requires k <= |s|
  {
    (k > 0 && CaracterePalavra(s[k - 1])) != (k < |s| && CaracterePalavra(s[k]))
  }

  /** `\bPALAVRA\b` matches at `i`, letters compared without case. */
  predicate CasaPalavraEm(s: string, palavra: string, i: nat) {
    i + |palavra| <= |s| && Minusculas(s[i..i + |palavra|]) == Minusculas(palavra)
    && Fronteira(s, i) && Fronteira(s, i + |palavra|)
  }

  /** `s.replace(regex, novo)` with the global flag, scanning from `i`: each
      match, left to right and without overlap, becomes `novo`. */
  function SubstituirDesde(s: string, palavra: string, novo: string, i: nat): string
    requires |palavra| > 0 && i <= |s|
    decreases |s| - i
  {
    if i == |s| then ""
    else if CasaPalavraEm(s, palavra, i) then novo + SubstituirDesde(s, palavra, novo, i + |palavra|)
    else [s[i]] + SubstituirDesde(s, palavra, novo, i + 1)
  }

  function SubstituirPalavra(s: string, palavra: string, novo: string): string
    requires |palavra| > 0
  {
    SubstituirDesde(s, palavra, novo, 0)
  }

  /** Without a match the text is returned unchanged. */
  lemma {:induction false} SubstituirSemCasamento(s: string, palavra: string, novo: string, i: nat)
    requires |palavra| > 0 && i <= |s|
    requires forall j :: i <= j < |s| ==> !CasaPalavraEm(s, palavra, j)
    ensures SubstituirDesde(s, palavra, novo, i) == s[i..]
    decreases |s| - i
  {
    if i < |s| {
      SubstituirSemCasamento(s, palavra, novo, i + 1);
      assert s[i..] == [s[i]] + s[i + 1..];
    }
  }

  /** A match at `i` is replaced, and the text before it kept. */
  lemma SubstituirNoCasamento(s: string, palavra: string, novo: string, i: nat)
    requires |palavra| > 0 && CasaPalavraEm(s, palavra, i)
    requires forall j :: 0 <= j < i ==> !CasaPalavraEm(s, palavra, j)
    ensures SubstituirPalavra(s, palavra, novo)
      == s[..i] + novo + SubstituirDesde(s, palavra, novo, i + |palavra|)
  {
    PrefixoSemCasamento(s, palavra, novo, 0, i);
    assert s[0..i] == s[..i];
    assert i < |s|;
    assert SubstituirDesde(s, palavra, novo, i)
      == novo + SubstituirDesde(s, palavra, novo, i + |palavra|);
  }

  lemma {:induction false} PrefixoSemCasamento(s: string, palavra: string, novo: string, j: nat, i: nat)
    requires |palavra| > 0 && j <= i <= |s|
    requires forall k :: j <= k < i ==> !CasaPalavraEm(s, palavra, k)
    ensures SubstituirDesde(s, palavra, novo, j) == s[j..i] + SubstituirDesde(s, palavra, novo, i)
    decreases i - j
  {
    if j < i {
      assert !CasaPalavraEm(s, palavra, j);
      var resto := SubstituirDesde(s, palavra, novo, i);
      PrefixoSemCasamento(s, palavra, novo, j + 1, i);
      calc {
        SubstituirDesde(s, palavra, novo, j);
        [s[j]] + SubstituirDesde(s, palavra, novo, j + 1);
        [s[j]] + (s[j + 1..i] + resto);
        { assert s[j..i] == [s[j]] + s[j + 1..i]; }
        s[j..i] + resto;
      }
    } else {
      assert s[j..i] == "";
    }
  }

  // ---- The keywords -------------------------------------------------------------------

  const PalavrasPrincipais: seq<string> := ["SELECT", "FROM", "WHERE", "GROUP BY", "ORDER BY",
    "LIMIT", "LEFT OUTER JOIN", "RIGHT OUTER JOIN", "INNER JOIN", "ON", "HAVING"]

  const PalavrasSecundarias: seq<string> := ["AND", "OR", "AS", "DESC", "ASC", "IN", "IS",
    "NOT", "NULL", "LIKE", "BETWEEN", "EXISTS", "COUNT", "SUM", "AVG", "MIN", "MAX",
    "DISTINCT", "ESCAPE"]

  const FimBloco: string := "</div>"

  /** A clause keyword closes the block before it and opens an indented one. */
  function HtmlPrincipal(palavra: string): string {
    FimBloco + "<div class=\"text-primary font-weight-bold\">" + palavra + FimBloco
    + "\n            <div class=\"text-dark pl-4\">"
  }

  function HtmlSecundaria(palavra: string): string {
    "<span class=\"text-primary font-weight-bold\">" + palavra + "</span>"
  }

  /** The `forEach` over the clause keywords, after the first `n`. */
  function AplicarPrincipais(s: string, n: nat): string
    requires n <= |PalavrasPrincipais|
  {
    if n == 0 then s
    else
      var p := PalavrasPrincipais[n - 1];
      SubstituirPalavra(AplicarPrincipais(s, n - 1), p, HtmlPrincipal(p))
  }

  function AplicarSecundarias(s: string, n: nat): string
    requires n <= |PalavrasSecundarias|
  {
    if n == 0 then s
    else
      var p := PalavrasSecundarias[n - 1];
      SubstituirPalavra(AplicarSecundarias(s, n - 1), p, HtmlSecundaria(p))
  }

  /** `s.replace("</div>", "")`: a string pattern replaces its first
      occurrence only. */
  function RemoverPrimeiro(s: string, padrao: string): (r: string)
    ensures IndiceDe(s, padrao).None? ==> r == s
    ensures IndiceDe(s, padrao).Some? ==>
      var i := IndiceDe(s, padrao).value;
      && i <= |r| && s == r[..i] + padrao + r[i..]
      && (forall j :: 0 <= j < i ==> !OcorreEm(s, padrao, j))
  {
    match IndiceDe(s, padrao)
    case None => s
    case Some(i) =>
      assert s == s[..i] + padrao + s[i + |padrao|..];
      s[..i] + s[i + |padrao|..]
  }

  /** The formatted text of `sql`. */
  function SqlFormatada(sql: string): (r: string)
    ensures |r| >= |FimBloco| && r[|r| - |FimBloco|..] == FimBloco
  {
    var n := Normalizar(sql);
    var p := AplicarPrincipais(n, |PalavrasPrincipais|);
    var q := AplicarSecundarias(p, |PalavrasSecundarias|);
    RemoverPrimeiro(q, FimBloco) + FimBloco
  }

  /** Texts that differ only in their white space are formatted alike. */
  lemma SqlFormatadaNormal(sql: string)
    ensures SqlFormatada(Normalizar(sql)) == SqlFormatada(sql)
  {
    NormalizarIdempotente(sql);
  }

  /** `formatarSQL(sql)`, reassigning the text once per keyword. */
  method FormatarSql(sql: string) returns (r: string)
    ensures r == SqlFormatada(sql)
  {
    var n := Normalizar(sql);
    var formatada := n;
    var i := 0;
    while i < |PalavrasPrincipais|
      invariant 0 <= i <= |PalavrasPrincipais|
      invariant formatada == AplicarPrincipais(n, i)
    {
      var p := PalavrasPrincipais[i];
      formatada := SubstituirPalavra(formatada, p, HtmlPrincipal(p));
      i := i + 1;
    }
    var p := formatada;
    i := 0;
    while i < |PalavrasSecundarias|
      invariant 0 <= i <= |PalavrasSecundarias|
      invariant formatada == AplicarSecundarias(p, i)
    {
      var palavra := PalavrasSecundarias[i];
      formatada := SubstituirPalavra(formatada, palavra, HtmlSecundaria(palavra));
      i := i + 1;
    }
    formatada := RemoverPrimeiro(formatada, FimBloco);
    r := formatada + FimBloco;
  }
}

=== FILE: texto.dfy ===
/** String helpers shared by the client and the server models: Python's
    `str.split("__")`, `sep.join(...)`, `str.replace(...)` and the ASCII part
    of `str.lower()`, and JavaScript's `String.prototype.includes`. */
module Texto {
  import opened Wrappers

  /** The separator between the segments of a query path. */
  const Separador: string := "__"

  predicate ComecaComSeparador(s: string) {
    |s| >= 2 && s[0] == '_' && s[1] == '_'
  }

  /** Python's left-to-right, non-overlapping `s.split("__")`; `atual` is the
      piece accumulated since the last separator. */
  function DividirDesde(s: string, atual: string): (r: seq<string>)
    decreases |s|
  {
    if |s| == 0 then [atual]
    else if ComecaComSeparador(s) then [atual] + DividirDesde(s[2..], "")
    else DividirDesde(s[1..], atual + [s[0]])
  }

  function Dividir(s: string): seq<string> {
    DividirDesde(s, "")
  }

  /** Python's `sep.join(partes)`. */
  function Juntar(partes: seq<string>, sep: string): string {
    if |partes| == 0 then ""
    else if |partes| == 1 then partes[0]
    else partes[0] + sep + Juntar(partes[1..], sep)
  }

  /** No occurrence of "__" inside the string. */
  predicate SemSeparador(x: string) {
    forall i :: 0 <= i < |x| - 1 ==> !(x[i] == '_' && x[i + 1] == '_')
  }

  /** A segment that can stand before a "__" without the split moving the
      boundary: no "__" inside and no trailing '_'. */
  predicate SegmentoIntermediario(x: string) {
    SemSeparador(x) && (|x| == 0 || x[|x| - 1] != '_')
  }

  /** Segments that `Dividir` gives back unchanged after `Juntar`. */
  predicate SegmentosSeparaveis(partes: seq<string>) {
    |partes| >= 1 &&
    (forall i :: 0 <= i < |partes| - 1 ==> SegmentoIntermediario(partes[i])) &&
    SemSeparador(partes[|partes| - 1])
  }

  lemma {:induction false} DividirDesdeNaoVazio(s: string, atual: string)
    ensures |DividirDesde(s, atual)| >= 1
    decreases |s|
  {
    if |s| > 0 && !ComecaComSeparador(s) {
      DividirDesdeNaoVazio(s[1..], atual + [s[0]]);
    }
  }

  lemma {:induction false} JuntarDividirDesde(s: string, atual: string)
    ensures Juntar(DividirDesde(s, atual), Separador) == atual + s
    decreases |s|
  {
    if |s| == 0 {
    } else if ComecaComSeparador(s) {
      var resto := DividirDesde(s[2..], "");
      DividirDesdeNaoVazio(s[2..], "");
      JuntarDividirDesde(s[2..], "");
      assert ([atual] + resto)[1..] == resto;
      assert s == "__" + s[2..];
    } else {
      JuntarDividirDesde(s[1..], atual + [s[0]]);
      assert s == [s[0]] + s[1..];
    }
  }

  /** Joining the pieces of a split with the same separator gives the input back. */
  lemma JuntarDividir(s: string)
    ensures |Dividir(s)| >= 1
    ensures Juntar(Dividir(s), Separador) == s
  {
    DividirDesdeNaoVazio(s, "");
    JuntarDividirDesde(s, "");
  }

  lemma {:induction false} DividirDesdeFinal(x: string, atual: string)
    requires SemSeparador(x)
    ensures DividirDesde(x, atual) == [atual + x]
    decreases |x|
  {
    if |x| == 0 {
      assert atual + x == atual;
    } else {
      assert !ComecaComSeparador(x);
      DividirDesdeFinal(x[1..], atual + [x[0]]);
      assert atual + [x[0]] + x[1..] == atual + x;
    }
  }

  lemma {:induction false} DividirDesdeSegmento(x: string, resto: string, atual: string)
    requires SegmentoIntermediario(x)
    ensures DividirDesde(x + Separador + resto, atual) == [atual + x] + DividirDesde(resto, "")
    decreases |x|
  {
    var s := x + Separador + resto;
    if |x| == 0 {
      assert s == "__" + resto;
      assert s[2..] == resto;
      assert atual + x == atual;
    } else {
      assert !ComecaComSeparador(s);
      assert s[1..] == x[1..] + Separador + resto;
      DividirDesdeSegmento(x[1..], resto, atual + [x[0]]);
      assert atual + [x[0]] + x[1..] == atual + x;
    }
  }

  /** Splitting a join of separable segments gives the segments back. */
  lemma {:induction false} DividirJuntar(partes: seq<string>)
    requires SegmentosSeparaveis(partes)
    ensures Dividir(Juntar(partes, Separador)) == partes
    decreases |partes|
  {
    if |partes| == 1 {
      DividirDesdeFinal(partes[0], "");
      assert "" + partes[0] == partes[0];
      assert partes == [partes[0]];
    } else {
      var cauda := partes[1..];
      assert SegmentosSeparaveis(cauda) by {
        forall i | 0 <= i < |cauda| - 1 ensures SegmentoIntermediario(cauda[i]) {
          assert cauda[i] == partes[i + 1];
        }
      }
      assert Juntar(partes, Separador) == partes[0] + Separador + Juntar(cauda, Separador);
      DividirDesdeSegmento(partes[0], Juntar(cauda, Separador), "");
      DividirJuntar(cauda);
      assert "" + partes[0] == partes[0];
      assert partes == [partes[0]] + cauda;
    }
  }

  /** `Juntar` of a sequence with one more segment at the end. */
  lemma {:induction false} JuntarAnexar(partes: seq<string>, x: string, sep: string)
    requires |partes| >= 1
    ensures Juntar(partes + [x], sep) == Juntar(partes, sep) + sep + x
    decreases |partes|
  {
    if |partes| == 1 {
      assert (partes + [x])[1..] == [x];
    } else {
      assert (partes + [x])[1..] == partes[1..] + [x];
      JuntarAnexar(partes[1..], x, sep);
    }
  }

  /** Python's `s.replace(padrao, novo)`: every non-overlapping occurrence,
      scanning from the left. */
  function SubstituirTodos(s: string, padrao: string, novo: string): string
    requires |padrao| > 0
    decreases |s|
  {
    if |s| < |padrao| then s
    else if s[..|padrao|] == padrao then novo + SubstituirTodos(s[|padrao|..], padrao, novo)
    else [s[0]] + SubstituirTodos(s[1..], padrao, novo)
  }

  lemma {:induction false} SubstituirSemSeparador(x: string, novo: string)
    requires SemSeparador(x)
    ensures SubstituirTodos(x, Separador, novo) == x
    decreases |x|
  {
    if |x| >= 2 {
      assert x[..2] != Separador by { assert !(x[0] == '_' && x[1] == '_'); }
      SubstituirSemSeparador(x[1..], novo);
      assert x == [x[0]] + x[1..];
    }
  }

  lemma {:induction false} SubstituirSegmento(x: string, resto: string, novo: string)
    requires SegmentoIntermediario(x)
    ensures SubstituirTodos(x + Separador + resto, Separador, novo)
         == x + novo + SubstituirTodos(resto, Separador, novo)
    decreases |x|
  {
    var s := x + Separador + resto;
    if |x| == 0 {
      assert s[..2] == Separador;
      assert s[2..] == resto;
    } else {
      assert s[..2] != Separador by {
        if |x| == 1 { assert s[1] == '_' && s[0] != '_'; } else { assert !(s[0] == '_' && s[1] == '_'); }
      }
      assert s[1..] == x[1..] + Separador + resto;
      SubstituirSegmento(x[1..], resto, novo);
      assert x == [x[0]] + x[1..];
    }
  }

  /** Replacing every "__" by `novo` in a join of separable segments is the
      join with `novo`. */
  lemma {:induction false} SubstituirJuntar(partes: seq<string>, novo: string)
    requires SegmentosSeparaveis(partes)
    ensures SubstituirTodos(Juntar(partes, Separador), Separador, novo) == Juntar(partes, novo)
    decreases |partes|
  {
    if |partes| == 1 {
      SubstituirSemSeparador(partes[0], novo);
    } else {
      var cauda := partes[1..];
      assert SegmentosSeparaveis(cauda) by {
        forall i | 0 <= i < |cauda| - 1 ensures SegmentoIntermediario(cauda[i]) {
          assert cauda[i] == partes[i + 1];
        }
      }
      SubstituirSegmento(partes[0], Juntar(cauda, Separador), novo);
      SubstituirJuntar(cauda, novo);
    }
  }

  function MinusculaChar(c: char): char {
    if 'A' <= c <= 'Z' then (c as int + 32) as char else c
  }

  /** `str.lower()` restricted to ASCII letters. */
  function Minusculas(s: string): (r: string)
    ensures |r| == |s|
  {
    if |s| == 0 then "" else [MinusculaChar(s[0])] + Minusculas(s[1..])
  }

  /** Does `sub` occur in `s` starting at `i`? */
  predicate OcorreEm(s: string, sub: string, i: int) {
    0 <= i && i + |sub| <= |s| && s[i..i + |sub|] == sub
  }

  /** First index at or after `desde` where `sub` occurs. */
  function IndiceDesde(s: string, sub: string, desde: nat): (r: Option<nat>)
    ensures r.Some? ==> desde <= r.value && OcorreEm(s, sub, r.value)
    ensures r.Some? ==> forall j :: desde <= j < r.value ==> !OcorreEm(s, sub, j)
    ensures r.None? ==> forall j :: desde <= j ==> !OcorreEm(s, sub, j)
    decreases |s| - desde
  {
    if desde + |sub| > |s| then None
    else if s[desde..desde + |sub|] == sub then Some(desde)
    else IndiceDesde(s, sub, desde + 1)
  }

  /** JavaScript's `s.indexOf(sub)`, as an option. */
  function IndiceDe(s: string, sub: string): Option<nat> {
    IndiceDesde(s, sub, 0)
  }

  /** JavaScript's `s.includes(sub)`. */
  predicate Contem(s: string, sub: string) {
    IndiceDe(s, sub).Some?
  }

  lemma ContemSe(s: string, sub: string)
    ensures Contem(s, sub) <==> exists i :: OcorreEm(s, sub, i)
  {
    var r := IndiceDe(s, sub);
    if r.None? {
      forall i ensures !OcorreEm(s, sub, i) {
        if i >= 0 { assert !OcorreEm(s, sub, i); }
      }
    }
  }

  /** The characters the `\s` class of a JavaScript regular expression (and
      `String.prototype.trim`) treat as white space. */
  predicate EhEspaco(c: char) {
    c == ' ' || c == '\t' || c == '\n' || c == '\r' || c == '\U{000B}' || c == '\U{000C}'
    || c == '\U{00A0}' || c == '\U{1680}' || ('\U{2000}' <= c <= '\U{200A}')
    || c == '\U{2028}' || c == '\U{2029}' || c == '\U{202F}' || c == '\U{205F}'
    || c == '\U{3000}' || c == '\U{FEFF}'
  }

  /** Length of the run of white space at the start of `t`. */
  function EspacosIniciais(t: string): (r: nat)
    ensures r <= |t|
    ensures forall i :: 0 <= i < r ==> EhEspaco(t[i])
    ensures r < |t| ==> !EhEspaco(t[r])
    decreases |t|
  {
    if |t| == 0 || !EhEspaco(t[0]) then 0 else 1 + EspacosIniciais(t[1..])
  }

  predicate EhDigito(c: char) {
    '0' <= c <= '9'
  }
}

=== FILE: tipos.dfy ===
/** The HTML input type the editor uses for each field type of the schema
    (static/js/uteis.js, `tiposDeDadosEntrada`), and the check that the
    schema literal only uses field types that table knows. */
module TiposEntrada {
  import opened Wrappers
  import opened Texto
  import opened EsquemaDados
  import opened Resolvedor
  import opened ConsultaServidor

  /** Field type to HTML `<input type>`. */
  const TiposDeDadosEntrada: map<string, string> := map[
    "bool" := "text",
    "date" := "date",
    "datetime" := "datetime-local",
    "email" := "email",
    "float" := "number",
    "int" := "number",
    "number" := "number",
    "string" := "text" ]

  /** The input type of a field type, `None` for one the table lacks. */
  function TipoDeEntrada(tipo: string): (r: Option<string>)
    ensures r.Some? <==> tipo in TiposDeDadosEntrada
    ensures tipo in {"float", "int", "number"} ==> r == Some("number")
    ensures tipo in {"bool", "string"} ==> r == Some("text")
    ensures tipo == "date" ==> r == Some("date")
    ensures tipo == "datetime" ==> r == Some("datetime-local")
    ensures tipo == "email" ==> r == Some("email")
    ensures r.Some? ==> r.value in {"text", "date", "datetime-local", "email", "number"}
  {
    if tipo in TiposDeDadosEntrada then Some(TiposDeDadosEntrada[tipo]) else None
  }

  /** Every field of the table has a type the input table knows, and none of
      them is the "boolean" the older server class tests for. */
  predicate TiposConhecidos(t: Tabela) {
    forall i :: 0 <= i < |t.campos| ==>
      t.campos[i].tipo in TiposDeDadosEntrada && t.campos[i].tipo != "boolean"
  }

  lemma TiposChamado()
    ensures TiposConhecidos(Chamado)
  {
  }

  lemma TiposPessoa()
    ensures TiposConhecidos(Pessoa)
  {
  }

  lemma TiposAtendimentoPessoa()
    ensures TiposConhecidos(AtendimentoPessoa)
  {
  }

  lemma TiposBase()
    ensures TiposConhecidos(Base)
  {
  }

  lemma TiposSetor()
    ensures TiposConhecidos(Setor)
  {
  }

  lemma TiposUnidade()
    ensures TiposConhecidos(Unidade)
  {
  }

  lemma TiposUnidadeChamado()
    ensures TiposConhecidos(UnidadeChamado)
  {
  }

  lemma TiposUsuario()
    ensures TiposConhecidos(Usuario)
  {
  }

  /** Every field type of the schema literal has an input type, and none is
      "boolean". */
  lemma TiposDoEsquemaBd()
    ensures forall k :: k in EsquemaBd ==> TiposConhecidos(EsquemaBd[k])
  {
    forall k | k in EsquemaBd ensures TiposConhecidos(EsquemaBd[k]) {
      ChavesEsquemaBd();
      if k == "Chamado" {
        TiposChamado();
      } else if k == "Pessoa" {
        TiposPessoa();
      } else if k == "AtendimentoPessoa" {
        TiposAtendimentoPessoa();
      } else if k == "Base" {
        TiposBase();
      } else if k == "Setor" {
        TiposSetor();
      } else if k == "Unidade" {
        TiposUnidade();
      } else if k == "UnidadeChamado" {
        TiposUnidadeChamado();
      } else {
        TiposUsuario();
      }
    }
  }

  /** The type a successful walk returns is the type of a field of some
      table of the schema. */
  lemma {:induction false} TipoResolvidoDeCampo(e: Esquema, entidade: string, partes: seq<string>)
    requires |partes| >= 1
    ensures Resolver(e, entidade, partes).Ok? ==>
      exists k, i :: k in e && 0 <= i < |e[k].campos| && e[k].campos[i].tipo == Resolver(e, entidade, partes).value.1
    decreases |partes|
  {
    if entidade in e && |partes| == 1 {
      var j := PrimeiroIndice(e[entidade].campos, ChaveCampo, partes[0]);
      if j.Some? {
        assert e[entidade].campos[j.value].tipo == Resolver(e, entidade, partes).value.1;
      }
    } else if entidade in e {
      var x := Primeiro(e[entidade].conexoes, ChaveConexao, partes[0]);
      if x.Some? {
        TipoResolvidoDeCampo(e, x.value.modelDestino, partes[1..]);
      }
    }
  }

  /** On the schema literal the older server class never turns a filter
      value into a boolean: the "boolean" type it tests for is not used, so
      every built lookup carries the value as given. */
  lemma FiltroLegadoSemConversao(raiz: string, f: FiltroConfig)
    ensures FiltroConstruido(EsquemaBd, raiz, Legada, f).Ok? ==>
      FiltroConstruido(EsquemaBd, raiz, Legada, f).value == Lookup(f.campo + "__" + f.operador, f.valor)
  {
    FiltroConstruidoChave(EsquemaBd, raiz, Legada, f);
    if CaminhoResolvido(EsquemaBd, raiz, f.campo).Ok? {
      TipoResolvidoDeCampo(EsquemaBd, raiz, Dividir(f.campo));
      TiposDoEsquemaBd();
    }
  }
}

=== FILE: wrappers.dfy ===
/** Option and Result values, standing in for JavaScript `undefined`/`null`
    and for the exceptions the Python code raises. */
module Wrappers {

  datatype Option<+T> = None | Some(value: T) {
    function GetOr(default: T): T {
      match this
      case Some(v) => v
      case None => default
    }
  }

  datatype Result<+R, +E> = Ok(value: R) | Err(error: E)
}
